=== FILE: README.md ===
# stc-swc converter core, modelled in Dafny

The stc-swc converter reads the JSON reports of two smart-contract scanners
(Slither and Mythril), turns each finding into a raw finding, normalizes it
into a fixed 14-column row (the STC schema), fills gaps from the SWC
registry, and writes the rows as CSV or NDJSON. An older code path, the
"standardizer", parses the same reports into minimal records and builds a
table of the same 14 columns with deterministic fallback ids and
remediation text from a knowledge-base file.

This project models, as pure Dafny functions over JSON-like values:

- `PyValue`, `PyText`, `PyNumber`, `PyCompare`: the slice of Python the code
  relies on. This covers dicts as ordered key/value lists, truthiness, `or`,
  `.get` and the exceptions it raises. It also covers `strip`, `lower`,
  `replace`, `isdigit`, `str()`, `int()`, `float()` with binary64 rounding,
  and `min`/`max` over numbers.
- `SwcRegistry`: the shipped registry table and `get_swc_meta`.
- `Mapper`: the live normalizer `to_stc_schema` and its batch form.
- `RawFinding`, `SlitherExtract`, `MythrilExtract`: the live extractors and
  the 14-key raw finding they build.
- `SlitherLegacy`, `MythrilLegacy`: the older extractors with their
  8-field findings.
- `Standardizer`, `StdParse`, `StdRows`: the standardizer's helpers, its two
  generator parsers and its table builder.
- `Export`: the CSV exporter and both NDJSON exporters.
- `Pipeline`: how the normalizer's rows and the exporters' field lists fit
  together.

Every operation that can raise in Python (a `.get` on a non-dict, `.strip()`
on a non-string, indexing an empty list) returns a `Result` whose error
branch names the exception. The uuid, the clock, the `git` commit hash and
the knowledge-base file's contents are parameters. So are Python's `repr`
of floats and containers, and `json.dumps`.

Points about the code's behaviour that a reader might not expect, all
modelled as the code has them:

- The live normalizer has no severity synonyms. An unknown word passes
  through, and an empty severity stays "" (stc_swc/normalize/mapper.py:7-13).
- `status` is copied from the raw finding when it is truthy, and only
  otherwise becomes "unresolved" (mapper.py:56).
- The shipped registry is keyed "SWC-<n>". The retry without the prefix
  therefore cannot turn "107" into a hit; only the prefixed form resolves.
- The extractors raise `AttributeError` or `KeyError` on fields of the
  wrong type, for example a non-string `impact` or a non-dict element.
- Line numbers are not clamped: `int(-3)` stays -3.
- The live Slither extractor reads only `lines`, never a single `line`.

## Model

| member | source | states |
|---|---|---|
| SwcRegistry.GetSwcMeta | stc_swc/normalize/swc_registry.py:10-13 | an empty id finds nothing; otherwise the entry is found exactly when the id is a key, and it is that key's metadata |
| SwcRegistry.MiniEntriesWellFormed | stc_swc/normalize/swc_registry.py:4-8 | every shipped entry has a non-empty title, a severity of "high" or "medium", and no remediation |
| SwcRegistry.LookupReentrancy | stc_swc/normalize/swc_registry.py:6 | "SWC-107" resolves to Reentrancy, high |
| SwcRegistry.MiniKeysPrefixed | stc_swc/normalize/swc_registry.py:4-8 | every key of the shipped table starts with "SWC-" |
| SwcRegistry.UnprefixedMisses | stc_swc/normalize/swc_registry.py:10-13 | an id without the "SWC-" prefix, such as "107", finds nothing in the shipped table |
| Mapper.NormSeverity | stc_swc/normalize/mapper.py:9-13 | a falsy severity gives ""; otherwise the text is trimmed and lower-cased, and unknown words pass through |
| Mapper.SevMapFixes | stc_swc/normalize/mapper.py:7 | every word of the normalizer's severity map maps to itself |
| Mapper.NormSeverityIdempotent | stc_swc/normalize/mapper.py:9-13 | normalizing an already normalized severity changes nothing |
| Mapper.StripOr | stc_swc/normalize/mapper.py:17-20 | `(v or "").strip()` succeeds exactly for a falsy value or a string, and gives "" for a falsy value; anything else raises AttributeError |
| Mapper.FindMeta | stc_swc/normalize/mapper.py:24-25 | an entry is used exactly when the direct lookup or the lookup with "SWC-" removed gives a non-empty dict; a direct hit is preferred, and the retry is used only when the direct lookup gives nothing |
| Mapper.Enrich | stc_swc/normalize/mapper.py:25-31 | without an entry the texts are unchanged; a non-empty text is never replaced; an empty one is taken from the entry, its severity normalized |
| Mapper.ToInt | stc_swc/normalize/mapper.py:38-42 | the value `int()` gives, or 0 wherever `int()` raises; text is read with ASCII digits only |
| Mapper.LineStart | stc_swc/normalize/mapper.py:35 | the raw `line_start` when truthy, else the raw `line` when truthy, else 0 |
| Mapper.LineEnd | stc_swc/normalize/mapper.py:36 | the raw `line_end` when truthy, else the chosen `line_start` |
| Mapper.ToRecord | stc_swc/normalize/mapper.py:44-59 | the normalized row has exactly the 14 schema keys, in schema order, each holding its own field of the row |
| Mapper.ToStcSchema | stc_swc/normalize/mapper.py:15-59 | a truthy non-string swc_id, title or remediation makes normalization raise, and AttributeError is the only exception it raises; the row's swc_id is the raw `swc_id` trimmed ("" when falsy) |
| Mapper.ToStcSchemaSucceeds | stc_swc/normalize/mapper.py:15-59 | normalization succeeds whenever nothing it trims, in the raw finding or the registry, is a truthy non-string |
| Mapper.ScannerTextsWin | stc_swc/normalize/mapper.py:26-31 | a non-empty scanner title, severity or remediation is kept whatever the registry holds |
| Mapper.RegistryFillsEmpty | stc_swc/normalize/mapper.py:23-31 | an empty title, severity or remediation is taken from the registry entry found for the id |
| Mapper.NoEnrichmentWithoutEntry | stc_swc/normalize/mapper.py:23-25 | an empty id, or an id that neither lookup finds, leaves the scanner's own texts in place |
| Mapper.TimestampChoice | stc_swc/normalize/mapper.py:34-45 | a non-empty override is the timestamp, otherwise the clock reading is; the finding id is the fresh uuid |
| Mapper.Defaults | stc_swc/normalize/mapper.py:47-58 | falsy network, contract, file, commit hash, confidence and status take "ethereum", "", "", "", "medium" and "unresolved"; truthy ones are copied |
| Mapper.LineFallback | stc_swc/normalize/mapper.py:35-42 | line_start is int() of line_start, else of line, else 0; line_end is int() of a truthy line_end, else equals line_start; values int() rejects become 0 |
| Mapper.LineEndDefaultsToStart | stc_swc/normalize/mapper.py:35-36 | a finding with line_start 42 and no line_end spans lines 42 to 42 |
| Mapper.ToStcSchemaBatch | stc_swc/normalize/mapper.py:61-62 | the batch succeeds exactly when every finding normalizes; then it has one row per finding, in order, each the single-finding result |
| Mapper.MiniMissesWithoutPrefix | stc_swc/normalize/mapper.py:24 | against the shipped table, an id containing no "SWC-" is never enriched |
| Mapper.MiniLookups | stc_swc/normalize/mapper.py:24 | "SWC-107" is enriched from the shipped table and "107" is not |
| Mapper.MiniRetryHit | stc_swc/normalize/mapper.py:24 | the retry without the prefix can still hit: "SWSWC-C-107" misses directly but becomes "SWC-107" |
| RawFinding.AnchorOf | stc_swc/extract/slither.py:16-17 | "high" and "low" get their own anchors and every other word gets the medium one |
| RawFinding.AnchorValues | stc_swc/extract/mythril.py:17-18 | the anchors are 0.9, 0.5 and 0.2 in decreasing order, and an unknown word gets 0.5 |
| RawFinding.ToRecord | stc_swc/extract/slither.py:39-54 | a raw finding has exactly the 14 keys, in the order the extractors write them, each holding its own field (contract under "contract", function under "function", and so on) |
| RawFinding.FindingKeysDistinct | stc_swc/extract/slither.py:39-54 | the 14 keys of a raw finding are distinct |
| RawFinding.ConstantFields | stc_swc/extract/slither.py:45-53 | every raw finding is unresolved, has no remediation or commit hash, and is on Ethereum |
| RawFinding.LegacyRecord | stc-swc/extract/mythril.py:46-55 | a legacy finding has exactly the 8 keys, in order, each holding its own field |
| RawFinding.LegacyLine | stc-swc/extract/mythril.py:54 | the line is an integer exactly for an int, a bool or a digit string, and None otherwise |
| RawFinding.LegacyLineOfDigits | extract/slither.py:43 | a line written as digits reads back as itself; a negative line written out reads as None |
| SlitherExtract.LineRange | stc_swc/extract/slither.py:30-33 | for a non-empty list of numbers, start and end are members of the list bounding every line; otherwise both are 0 |
| SlitherExtract.ElementLocation | stc_swc/extract/slither.py:26-37 | reading needs a dict element; the file is `filename_short`, else `filename_relative`, else ""; the lines are LineRange of the source mapping's `lines`; the contract is the `parent` dict's `name` (default ""); the function is the truthy `name` or "" |
| SlitherExtract.DetectorLocation | stc_swc/extract/slither.py:19-37 | falsy elements give the defaults; a non-empty list reads its first element; a non-empty dict raises KeyError |
| SlitherExtract.FindingOf | stc_swc/extract/slither.py:12-54 | builds exactly when impact-or-"" and confidence are strings and the location reads; the SWC id is None; title is check, else title, else ""; description defaults to ""; severity is the lower-cased impact; confidence is anchored on the lower-cased `confidence`; file, lines, contract and function are the location's |
| SlitherExtract.DetectorFinding | stc_swc/extract/slither.py:11-54 | a non-dict detector raises AttributeError; the finding carries no SWC id, its description or "", and the file, lines, contract and function of the detector's location |
| SlitherExtract.ParseReport | stc_swc/extract/slither.py:8-11 | a non-dict report raises AttributeError, and a report without `results` gives no findings |
| SlitherExtract.ParseReportPerDetector | stc_swc/extract/slither.py:8-11 | no `results` or no `detectors` gives no findings; otherwise parsing succeeds exactly when every detector does, one finding per detector, in order |
| SlitherExtract.DetectorTexts | stc_swc/extract/slither.py:12-17 | the title is check, else title, else ""; the description is its truthy value, else ""; the severity is the impact lower-cased, or ""; the confidence is anchored on the lower-cased confidence |
| SlitherExtract.NoElementsDefaults | stc_swc/extract/slither.py:19-23 | a detector without elements has no file, lines 0 to 0, and no contract or function |
| SlitherExtract.ElementLines | stc_swc/extract/slither.py:30-33 | the element's line range spans its `lines`: their minimum to their maximum, or 0 to 0 |
| SlitherExtract.FirstElementLines | stc_swc/extract/slither.py:25-33 | a finding's lines span the first element's `lines` |
| SlitherExtract.FirstElementFields | stc_swc/extract/slither.py:26-37 | a finding's file is the first element's `filename_short`, else `filename_relative`, else ""; its contract is the `parent`'s `name`; its function is the element's `name`, else "" |
| SlitherExtract.OnlyFirstElement | stc_swc/extract/slither.py:26-37 | elements after the first never change the finding |
| SlitherExtract.DetectorCongruence | stc_swc/extract/slither.py:11-54 | two detectors that agree on the five scalar fields and on the location of their elements give the same finding |
| MythrilExtract.FirstSpot | stc_swc/extract/mythril.py:32-36 | a dict location gives its `file` and its line when that is an integer, else line 0; a non-dict raises |
| MythrilExtract.LocationsSpot | stc_swc/extract/mythril.py:27-36 | a dict counts as a one-entry list, only the first entry is read, and no locations give no file and line 0 |
| MythrilExtract.FindingOf | stc_swc/extract/mythril.py:12-57 | builds exactly when the severity text, the spot and `extra or {}` can be read; title and description are the value or ""; severity is lower-cased and drives the confidence; file and both lines come from the spot; contract and function are `extra`'s, else "" |
| MythrilExtract.SwcIdOf | stc_swc/extract/mythril.py:12 | the id is one of swc-id, swcID, swcid; it is truthy exactly when one of them is, and a truthy swc-id wins |
| MythrilExtract.LocationsOf | stc_swc/extract/mythril.py:27 | truthy `locations` are used; otherwise a truthy `location`; otherwise the empty list |
| MythrilExtract.IssueFinding | stc_swc/extract/mythril.py:11-57 | a non-dict issue raises; the SWC id is the first truthy of swc-id, swcID and swcid, else the last; severity is the lower-cased `severity` or ""; title and description default to ""; file and line come from the first location, start equal to end; contract and function come from `extra`, else "" |
| MythrilExtract.ParseReport | stc_swc/extract/mythril.py:8-11 | a non-dict report raises, no `issues` gives none, and a list succeeds exactly when every issue does, one finding per issue, in order |
| MythrilExtract.SeverityDrivesConfidence | stc_swc/extract/mythril.py:15-18 | severity is lower-case and the anchor is 0.9 for "high", 0.2 for "low", and 0.5 otherwise |
| MythrilExtract.IssueCongruence | stc_swc/extract/mythril.py:11-57 | issues that agree on seven scalar fields and the spot of their locations give the same finding |
| MythrilExtract.LoneLocationIsList | stc_swc/extract/mythril.py:27-29 | a lone dict under `locations` reads the same as a one-entry list holding it |
| MythrilExtract.OnlyFirstLocation | stc_swc/extract/mythril.py:31-33 | locations after the first never change the finding |
| MythrilLegacy.FieldOf | stc-swc/extract/mythril.py:36-38 | one entry per location, each that location's value for the key |
| MythrilLegacy.ScanLocations | stc-swc/extract/mythril.py:36-38 | the scan succeeds exactly when every location is a dict, and otherwise raises AttributeError |
| MythrilLegacy.ScanIsLastTruthy | stc-swc/extract/mythril.py:36-38 | the scan keeps the last truthy file and the last truthy line, each independently |
| MythrilLegacy.IssueFinding | stc-swc/extract/mythril.py:22-55 | a non-dict issue, or a truthy non-string severity, raises; the SWC id is chosen as in the live extractor; severity is lower-cased, "" when absent; title and description default to ""; contract and function come from `extra`, else ""; the line is None or an integer |
| MythrilLegacy.ParseReport | stc-swc/extract/mythril.py:20-46 | no `issues` gives none; a list succeeds exactly when every issue does, one finding per issue, in order |
| MythrilLegacy.LastLocationWins | stc-swc/extract/mythril.py:33-54 | the file and line are those of the last location naming one, else None |
| SlitherLegacy.ScanElements | extract/slither.py:26-32 | the scan succeeds exactly when every element is a dict with a dict source mapping |
| SlitherLegacy.ScanStep | extract/slither.py:26-32 | one step folds the element's file, line and function candidates over the earlier ones |
| SlitherLegacy.ScanIsLastTruthy | extract/slither.py:26-32 | the scan keeps the last truthy file, line and "function" name, each independently |
| SlitherLegacy.DetectorFinding | extract/slither.py:15-44 | a non-dict detector, or a truthy non-string impact, raises; severity is the lower-cased `impact`, "" when absent; title is `check`, else `title`, else ""; description defaults to ""; no SWC id and no contract; the line is None or an integer |
| SlitherLegacy.ParseReport | extract/slither.py:11-15 | a non-dict report raises, and no `results` gives no findings |
| SlitherLegacy.ParseReportPerDetector | extract/slither.py:11-35 | a detector list succeeds exactly when every detector does, one finding per detector, in order |
| SlitherLegacy.LastElementWins | extract/slither.py:21-43 | file, line and function come from the last element naming one, else None, None and "" |
| Standardizer.NormSeverity | stc_swc/normalize/standardizer.py:27-31 | a falsy value gives None; a result is always one of the four canonical words, and there is one exactly when the trimmed lower-cased text is a known synonym |
| Standardizer.NormSeverityOfWord | stc_swc/normalize/standardizer.py:7-12 | a word that trims and lower-cases to a synonym gives that synonym's canonical word |
| Standardizer.CanonicalFixed | stc_swc/normalize/standardizer.py:31 | each canonical word is already trimmed, lower-case and its own synonym |
| Standardizer.NormSeverityIdempotent | stc_swc/normalize/standardizer.py:27-31 | normalizing a normalized severity gives it back |
| Standardizer.CoerceInt | stc_swc/normalize/standardizer.py:33-39 | "", None, lists and dicts give None, and a float is truncated toward zero |
| Standardizer.CoerceIntOfInt | stc_swc/normalize/standardizer.py:36 | an integer within 2^53 of zero comes back unchanged |
| Standardizer.CoerceIntRoundsLargeInt | stc_swc/normalize/standardizer.py:36 | the detour through float turns 2^53 + 1 into 2^53 |
| Standardizer.CoerceIntOfIntString | stc_swc/normalize/standardizer.py:36 | the decimal text of an integer within 2^53 reads back as that integer |
| Standardizer.CoerceIntTruncates | stc_swc/normalize/standardizer.py:36 | 2.5 gives 2 and -2.5 gives -2 |
| Standardizer.CoerceFloat | stc_swc/normalize/standardizer.py:41-46 | "", None, lists and dicts give None, and a float is kept; the lemmas below give integers, numeric text and words |
| Standardizer.CoerceFloatOfInt | stc_swc/normalize/standardizer.py:44 | an integer within 2^53 reads as its own value |
| Standardizer.CoerceFloatOfText | stc_swc/normalize/standardizer.py:43-46 | non-empty text is read by `float()`, and gives None where `float()` raises |
| Standardizer.CoerceFloatOfIntString | stc_swc/normalize/standardizer.py:44 | the decimal text of an integer within 2^53 reads as its value |
| Standardizer.CoerceFloatOfWord | stc_swc/normalize/standardizer.py:43-46 | a word of ASCII letters other than inf, infinity or nan gives None |
| Standardizer.CoerceFloatOfConfidenceWords | stc_swc/normalize/standardizer.py:131 | Slither's confidence words "High", "Medium" and "Low" give None, so a Slither finding's standardized confidence is None |
| Standardizer.FallbackFindingId | stc_swc/normalize/standardizer.py:48-49 | the id joins contract, SWC id and line with "::", a missing line written as 0 |
| Standardizer.FallbackFindingIdLine | stc_swc/normalize/standardizer.py:48-49 | two ids with the same contract and SWC id are equal exactly when their lines are, a missing line counting as 0 |
| Standardizer.KbKeyOfNumber | stc_swc/normalize/standardizer.py:58 | "SWC-<digits>" and "<digits>" normalize to the same key, the digits |
| Standardizer.KbKey | stc_swc/normalize/standardizer.py:58 | the key has no surrounding whitespace, and a key without "SWC-" is only trimmed |
| Standardizer.LastUnderIsLast | stc_swc/normalize/standardizer.py:57-59 | the reference lookup finds the last item whose key normalizes to the key, and nothing when no item's key does |
| Standardizer.KbFoldLookup | stc_swc/normalize/standardizer.py:56-59 | after the loop, each normalized key holds the last value filed under it, and other keys are untouched |
| Standardizer.LoadKb | stc_swc/normalize/standardizer.py:51-62 | an unreadable file or a non-dict document gives an empty knowledge base |
| Standardizer.LoadKbLookup | stc_swc/normalize/standardizer.py:51-62 | a key of the loaded knowledge base holds the last entry whose key normalizes to it |
| Standardizer.KbPrefixedAndBareMeet | stc_swc/normalize/standardizer.py:55-59 | entries "SWC-<n>" and then "<n>" land under "<n>", and the later one wins |
| Standardizer.KbText | stc_swc/normalize/standardizer.py:157-160 | the remediation text is None or truthy |
| Standardizer.KbTextChoice | stc_swc/normalize/standardizer.py:157-160 | an entry gives its remediation, else its explanation, else None |
| Standardizer.KbTextMissing | stc_swc/normalize/standardizer.py:159-160 | an id without an entry gives None |
| StdParse.Drain | stc_swc/normalize/standardizer.py:71-91 | the records yielded are the first ones built, in order; the generator either runs to the end or stops at the first record that raises, with that exception |
| StdParse.DrainIsList | stc_swc/normalize/standardizer.py:68-91 | the generator runs to the end exactly when building every record eagerly succeeds; it then yields that list, and otherwise it stops with the list's exception |
| StdParse.SwcIdValue | stc_swc/normalize/standardizer.py:84 | the id is None exactly when nothing is left after removing the prefix |
| StdParse.SwcIdOfMissingOrNull | stc_swc/normalize/standardizer.py:72 | a missing id gives None, but a JSON null gives the text "None" |
| StdParse.SwcIdOfNumber | stc_swc/normalize/standardizer.py:72 | "SWC-<digits>" and "<digits>" both give the digits |
| StdParse.MinimalRecord | stc_swc/normalize/standardizer.py:83-91 | a parsed record has exactly the seven keys, in order, each holding the value given for it |
| StdParse.ElementSpot | stc_swc/normalize/standardizer.py:77-82 | falsy elements give no file and no lines; a non-empty dict of elements raises KeyError |
| StdParse.ElementSpotOfLines | stc_swc/normalize/standardizer.py:78-82 | the spot has the absolute, else relative, file and the first and last entries of `lines`; an empty `lines` raises IndexError |
| StdParse.DetectorRecord | stc_swc/normalize/standardizer.py:71-91 | a non-dict detector raises; the record builds exactly when the first element reads and the title is a string; the SWC id comes from `check`; the title is description, else check, else name, else "", trimmed; severity is `impact` else `severity`; file, line_start and line_end are the first element's spot |
| StdParse.DetectorRecordLines | stc_swc/normalize/standardizer.py:78-90 | a record spans the first element's `lines`, first entry to last, and names its absolute, else relative, file |
| StdParse.ParseSlither | stc_swc/normalize/standardizer.py:68-91 | a non-dict report fails before any record, and no `results` yields nothing |
| StdParse.ParseSlitherPerDetector | stc_swc/normalize/standardizer.py:71-83 | the parser drains the detectors through the per-detector record |
| StdParse.IssueLocations | stc_swc/normalize/standardizer.py:99 | truthy `locations` are used as they are; otherwise the locations are `extra`'s `locations` (default []), and reading succeeds exactly when `extra` (default {}) is a dict |
| StdParse.SourceMapFile | stc_swc/normalize/standardizer.py:102 | reading the source map raises exactly when it is truthy and not a dict |
| StdParse.SourceMapFileFixed | stc_swc/normalize/standardizer.py:102 | a dict names its file under `filename`, and any other source map is the file itself |
| StdParse.ReadSourceMap | stc_swc/normalize/standardizer.py:102 | raises exactly for a truthy non-dict source map read as written; a dict gives its truthy `filename`, else itself; a falsy source map gives itself under both readings |
| StdParse.SourceMapFixedAgrees | stc_swc/normalize/standardizer.py:102 | wherever the written reading succeeds, the intended one gives the same file |
| StdParse.LocationSpot | stc_swc/normalize/standardizer.py:99-105 | no locations give no spot; otherwise the first location must be a dict, the file is its `filename`, else the source map's file; the first line is its truthy `line`, else None; the last line is its truthy `line_end`, else the first line |
| StdParse.IssueRecordWith | stc_swc/normalize/standardizer.py:94-114 | a non-dict issue raises; the record builds exactly when the location reads and the title is a string; the id comes from `swc-id`; the title is title, else description, else "", trimmed; severity and confidence are copied; file, line_start and line_end are the first location's spot |
| StdParse.IssueRecordLines | stc_swc/normalize/standardizer.py:104-113 | a record's line_start is the first location's truthy `line`, else None, and its line_end is the truthy `line_end`, else that line_start |
| StdParse.ParseMythril | stc_swc/normalize/standardizer.py:93-114 | a non-dict report fails before any record, and no `issues` yields nothing |
| StdParse.ParseMythrilPerIssue | stc_swc/normalize/standardizer.py:94-106 | the parser drains the issues through the per-issue record |
| StdParse.StringSourceMapRaises | stc_swc/normalize/standardizer.py:102 | an issue whose first location has a string sourceMap raises AttributeError, whatever its filename |
| StdParse.StringSourceMapIsFile | stc_swc/normalize/standardizer.py:102-103 | read as intended, such an issue builds and its file is the source map text |
| StdParse.StringSourceMapSpot | stc_swc/normalize/standardizer.py:102-103 | read as intended, a string source map is the location's file when `filename` is falsy |
| StdParse.LocationSpotFixedAgrees | stc_swc/normalize/standardizer.py:100-105 | the corrected location reading agrees with the written one wherever that one succeeds |
| StdParse.FixedAgreesWhereDefined | stc_swc/normalize/standardizer.py:94-114 | the corrected record equals the written one wherever that one builds |
| StdParse.DetectorSwcId | stc_swc/normalize/standardizer.py:72 | a missing check gives None, a null check "None", and "SWC-<d>" or "<d>" the digits |
| StdParse.IssueSwcId | stc_swc/normalize/standardizer.py:95 | a missing swc-id gives None, a null one "None", and "SWC-<d>" or "<d>" the digits |
| StdRows.CommitHash | stc_swc/normalize/standardizer.py:17-25 | a non-empty hash from the command line wins; otherwise the repository's hash, "" when git fails |
| StdRows.SwcIdOf | stc_swc/normalize/standardizer.py:129 | the row's id is the normalized key of `str(swc_id)`, None exactly when that is empty |
| StdRows.DefaultTitleTrimmed | stc_swc/normalize/standardizer.py:142 | the default title is already trimmed |
| StdRows.BaseRow | stc_swc/normalize/standardizer.py:128-148 | a row builds exactly when the record is a dict with a string title; every column is determined by the record, the settings and the helpers |
| StdRows.TitleFallback | stc_swc/normalize/standardizer.py:142 | a truthy title is trimmed; a falsy one becomes "SWC-<id> finding", or "SWC finding" without an id |
| StdRows.NetworkLowered | stc_swc/normalize/standardizer.py:136 | the network column is lower-case, "" for a falsy argument |
| StdRows.NetworkTextLower | stc_swc/normalize/standardizer.py:136 | the written network is lower-case, and "" when falsy |
| StdRows.RowDefaults | stc_swc/normalize/standardizer.py:130-137 | severity is None or canonical, and a falsy file or contract becomes "" |
| StdRows.ParsedNoneBecomesText | stc_swc/normalize/standardizer.py:129 | a record with swc_id None gets the id "None", and a record without the key gets none |
| StdRows.SwcIdNormalized | stc_swc/normalize/standardizer.py:129 | "SWC-<digits>" and "<digits>" give the same id |
| StdRows.WithId | stc_swc/normalize/standardizer.py:152-153 | the finding id is the fallback id of the row's own contract, SWC id and first line, and nothing else changes |
| StdRows.FallbackIds | stc_swc/normalize/standardizer.py:151-153 | one id per row, each computed from that row alone |
| StdRows.FallbackIdsSeparateLines | stc_swc/normalize/standardizer.py:151-153 | two rows of the same contract and SWC id share an id exactly when their first lines agree |
| StdRows.WithRemediation | stc_swc/normalize/standardizer.py:156-161 | filling in remediation succeeds exactly when the entry lookup does, sets the remediation, and changes nothing else |
| StdRows.ToStandardRows | stc_swc/normalize/standardizer.py:120-161 | a table exists only when the parser ran to the end and every record built, and it has one row per record |
| StdRows.ToStandardRowsAt | stc_swc/normalize/standardizer.py:127-161 | row i is record i's row with its id and remediation filled in |
| StdRows.BuildRowsAt | stc_swc/normalize/standardizer.py:128-148 | the i-th row built is the i-th record's row |
| StdRows.FinishRowsAt | stc_swc/normalize/standardizer.py:151-161 | row i is finished on its own, and one row's failure fails the table |
| StdRows.FinishRowsFails | stc_swc/normalize/standardizer.py:151-161 | filling in the id and remediation columns fails exactly when some row's knowledge-base entry is not a dict |
| StdRows.ToStandardRowsFails | stc_swc/normalize/standardizer.py:128-161 | once the records build, the run fails exactly when the parser stopped on an exception or some row's entry is not a dict |
| StdRows.RemediationFromKb | stc_swc/normalize/standardizer.py:157-161 | a record whose id is filed as "SWC-<n>" gets the entry's remediation, else its explanation, whether the record says "SWC-<n>" or "<n>" |
| StdRows.LineTextAsWritten | stc_swc/normalize/standardizer.py:152 | outside a float column the line is written as an integer; in one a missing line reads "nan", 0 reads "0", a line within 2^53 reads "<n>.0", and a line beyond is written as its nearest binary64 value |
| StdRows.LineTextRoundsAbove2To53 | stc_swc/normalize/standardizer.py:152 | in a float column the line 2^53 + 1 is written as 2^53 |
| StdRows.FallbackIdsAsWritten | stc_swc/normalize/standardizer.py:151-153 | only the id column changes; without a float column the ids are exactly the per-row fallback ids; in a float column a row without a line gets an id ending "::nan" |
| StdRows.AsWrittenAgreesWithoutMixing | stc_swc/normalize/standardizer.py:151-153 | with no missing line beside a present one, the table's ids are the fallback ids |
| StdRows.AsWrittenIdDependsOnOtherRows | stc_swc/normalize/standardizer.py:151-153 | a row alone gets the fallback id, but next to a row with no line both rows' ids differ from it |
| Export.FieldListsDistinct | stc_swc/export/csv_exporter.py:4-19 | no field list repeats a field |
| Export.Project | stc_swc/export/csv_exporter.py:29 | the projection has exactly the listed fields, in order, each holding the row's value or "" |
| Export.ProjectLookup | stc_swc/export/csv_exporter.py:29 | a listed field reads back the row's value or ""; a field not listed is gone |
| Export.ProjectExact | stc_swc/export/csv_exporter.py:29 | a row with exactly the listed fields is written unchanged |
| Export.ProjectIdempotent | stc_swc/export/csv_exporter.py:29 | projecting twice is projecting once |
| Export.WriteCsv | stc_swc/export/csv_exporter.py:21-29 | the header is the 14 fields, and there is one projected row per input row, in order |
| Export.FieldsFor | stc_swc/export/ndjson_exporter.py:8-15 | mode "full" gives the 14 full fields, and any other mode the 10 short ones |
| Export.NdjsonText | stc_swc/export/ndjson_exporter.py:17-20 | no rows give an empty file; otherwise the text ends with a newline |
| Export.LegacyIsShortMode | export/ndjson_exporter.py:4-14 | the older exporter writes what the newer one writes in any mode but "full" |
| Export.NdjsonLines | stc_swc/export/ndjson_exporter.py:17-20 | read back line by line, the file gives one object per row, in order |
| Export.WriteNdjson | stc_swc/export/ndjson_exporter.py:4-20 | no rows give an empty file; when no object dumps to text with a newline, the file read back line by line is one object per row, projected onto the mode's fields, in order |
| Export.WriteLegacyNdjson | export/ndjson_exporter.py:4-14 | the same for the older exporter on its ten fields |
| Pipeline.ColumnListsAgree | stc_swc/export/csv_exporter.py:4-19 | the CSV fields, the full NDJSON fields and the standardizer's columns are the normalizer's 14 keys, in order |
| Pipeline.CsvKeepsNormalizedRow | stc_swc/export/csv_exporter.py:27-29 | a normalized row is written to CSV unchanged |
| Pipeline.FullModeKeepsNormalizedRow | stc_swc/export/ndjson_exporter.py:15-20 | a normalized row is written in full NDJSON mode unchanged |
| Pipeline.ShortModeBlanksNormalizedRow | stc_swc/export/ndjson_exporter.py:12-20 | in any other mode a normalized row's description, tool, function and line are written as "" |

## Left out

- The Streamlit app, `cli.py` and the registry fetch tool are outside the converter's core. Reading reports, writing files and creating directories are left out too: the model starts from the decoded JSON value and ends with the rows or text to write.
- CSV quoting and JSON escaping are left to Python's libraries. The NDJSON text takes `json.dumps` as a parameter, and the CSV model stops at the header and the projected rows.
- Python's `repr` of floats, lists and dicts is a parameter; `str()` of None, booleans, integers and strings is exact.
- `str.lower` and `str.isdigit` cover ASCII only; `str.strip` uses Python's whitespace set.
- Mapper.ToInt: reads text with ASCII digits only. Python's `int()` also reads other Unicode decimal digits, so `int("٣")` is 3 where the model gives 0.
- Standardizer.CoerceInt: rejects non-ASCII decimal digits where Python reads them: `coerce_int("٣")` is 3 in Python and None in the model.
- Standardizer.CoerceFloat: likewise rejects non-ASCII decimal digits: `coerce_float("١٢")` is 12.0 in Python and None in the model.
- RawFinding.LegacyLine: gives None for a string of non-ASCII digits. Python's `isdigit` accepts such a string, and `int` then reads it, or raises ValueError on digits such as "²", so the older extractors return the line or raise where the model gives None.
- `uuid4`, the UTC clock and `git rev-parse` are parameters, as is the knowledge-base file's decoded content.
- The standardizer's dtype conversion (stc_swc/normalize/standardizer.py:163-172) and the final column selection (lines 174-178) are pandas operations that are not modelled. The rows are modelled as built at lines 128-161, and the column order as a constant.
- StdRows.ToStandardRows: builds the ids with the fallback id of each row, which is the evidently intended behaviour. The pandas float-column rendering is modelled separately and shown under Findings.
- StdRows.ToStandardRows: returns an empty table when no record was yielded. The code raises there instead: `pd.DataFrame([])` has no columns, so the column assignment at stc_swc/normalize/standardizer.py:152 or, at the latest, `df["timestamp"]` at line 164 fails. The exception depends on the pandas version, so it is not modelled.
- PyValue.Value: a JSON float is held as the exact real it denotes. `json.loads` rounds it to binary64, decodes an out-of-range number such as 1e400 to infinity and accepts `NaN` and `Infinity`; none of that is modelled, so inputs are taken to be finite values that binary64 holds exactly.
- Standardizer.CoerceInt: on a float beyond binary64's range it returns the integer, where Python's `int(inf)` raises OverflowError and `coerce_int` gives None. On a decimal literal that binary64 rounds up to an integer, such as 0.99999999999999999, it truncates the exact real and gives 0 where Python gives 1.
- Mapper.ToInt: likewise returns the integer of a float beyond binary64's range, where Python gives 0.
- PyCompare.Less: comparing two lists raises TypeError, where Python compares lists element by element. A source mapping whose `lines` holds lists therefore raises in the model at stc_swc/extract/slither.py:32-33 and does not in Python.
- StdRows.FloatColumn: models one rule of pandas' column typing: a mix of missing lines and lines that all fit in signed 64 bits is a float column. Any other column, including a mix with a line beyond 64 bits, keeps its integers and None as they are, so its ids are written as integer text. Other pandas typing rules, such as unsigned 64-bit columns, are not modelled.
- Standardizer.KbText: does not restate the lookup in its contract. The lemmas KbTextChoice and KbTextMissing give the result for a key with no "SWC-" in it.
- Mapper.ToStcSchema: the `tool` argument is unused by the code and is left out.
- The generators are modelled by what a consumer sees: the records yielded, then exhaustion or the exception that ended them. Laziness beyond that is not modelled.

## Findings

| source | as written | input that shows it | evidently intended | confidence | as-written member | corrected member |
|---|---|---|---|---|---|---|
| stc_swc/normalize/standardizer.py:102 | `(sourceMap or {}).get("filename")` calls `.get` on the source map, which Mythril writes as a string "offset:length:file-index" | an issue whose first location is `{"sourceMap": "0:10:0"}` | a string source map is taken as the file, and the parse continues | not executed | StdParse.StringSourceMapRaises | StdParse.StringSourceMapIsFile |
| stc_swc/normalize/standardizer.py:151-153 | the id is built from the pandas cell. When a missing line sits beside a present one, the column is float, so lines read "42.0" and a missing line reads "nan" | two records of contract "c" and SWC id 107, one on line 42 and one with no line: ids "c::107::42.0" and "c::107::nan" | the ids "c::107::42" and "c::107::0" that `fallback_finding_id` describes, independent of other rows | not executed | StdRows.AsWrittenIdDependsOnOtherRows | StdRows.FallbackIdsSeparateLines |

=== FILE: export.dfy ===
/**
 The exporters: a row is projected onto a fixed list of fields, a missing
 field written as "" and any other key dropped. The CSV exporter writes a
 header and one projected row per input row; the NDJSON exporters write one
 JSON object per row, each followed by a newline. CSV quoting and JSON
 escaping are left to the libraries: the object's text is a parameter.
 */
module Export {
  import opened PyValue

  /** The CSV columns, in order. */
  const CsvFields: seq<string> := [
    "finding_id", "timestamp", "network", "contract", "file", "line_start", "line_end",
    "swc_id", "title", "severity", "confidence", "status", "remediation", "commit_hash"
  ]

  /** The NDJSON fields of mode "full". */
  const FieldsFull: seq<string> := [
    "finding_id", "timestamp", "network", "contract", "file", "line_start", "line_end",
    "swc_id", "title", "severity", "confidence", "status", "remediation", "commit_hash"
  ]

  /** The NDJSON fields of any other mode. */
  const FieldsShort: seq<string> := [
    "swc_id", "title", "description", "severity", "tool", "contract", "function", "file", "line", "timestamp"
  ]

  /** The fields of the older NDJSON exporter. */
  const LegacyFields: seq<string> := [
    "swc_id", "title", "description", "severity", "tool", "contract", "function", "file", "line", "timestamp"
  ]

  lemma FieldListsDistinct()
    ensures Distinct(CsvFields) && Distinct(FieldsFull) && Distinct(FieldsShort) && Distinct(LegacyFields)
  {
  }

  /** `{k: r.get(k, "") for k in fields}`: exactly the listed fields, in
      list order, each holding the row's value or "". */
  function Project(r: Record, fields: seq<string>): (o: Record)
    ensures Keys(o) == fields
    ensures forall i :: 0 <= i < |fields| ==> o[i].1 == GetOr(r, fields[i], Str(""))
  {
    seq(|fields|, i requires 0 <= i < |fields| => (fields[i], GetOr(r, fields[i], Str(""))))
  }

  /** Reading the projection back: a listed field gives the row's value,
      or "" where the row lacks it; any other key is gone. */
  lemma ProjectLookup(r: Record, fields: seq<string>, k: string)
    requires Distinct(fields)
    ensures k in fields ==> Lookup(Project(r, fields), k) == Some(GetOr(r, k, Str("")))
    ensures k !in fields ==> Lookup(Project(r, fields), k) == None
    ensures k in fields && HasKey(r, k) ==> Lookup(Project(r, fields), k) == Lookup(r, k)
  {
    var o := Project(r, fields);
    if k in fields {
      var i :| 0 <= i < |fields| && fields[i] == k;
      LookupIndex(o, i);
    }
  }

  /** A row that already has exactly the listed fields, in order, is
      written unchanged. */
  lemma ProjectExact(r: Record, fields: seq<string>)
    requires Keys(r) == fields && Distinct(fields)
    ensures Project(r, fields) == r
  {
    var o := Project(r, fields);
    forall i | 0 <= i < |r|
      ensures o[i] == r[i]
    {
      LookupIndex(r, i);
      assert Keys(r)[i] == r[i].0;
    }
  }

  /** Projecting twice onto the same fields is projecting once. */
  lemma ProjectIdempotent(r: Record, fields: seq<string>)
    requires Distinct(fields)
    ensures Project(Project(r, fields), fields) == Project(r, fields)
  {
    ProjectExact(Project(r, fields), fields);
  }

  /** What `write_csv` writes: the header, then one projected row per input
      row, in order. */
  datatype CsvTable = CsvTable(header: seq<string>, body: seq<Record>)

  function WriteCsv(rows: seq<Record>): (t: CsvTable)
    ensures t.header == CsvFields
    ensures |t.body| == |rows|
    ensures forall i :: 0 <= i < |rows| ==> Keys(t.body[i]) == CsvFields
    ensures forall i :: 0 <= i < |rows| ==> t.body[i] == Project(rows[i], CsvFields)
  {
    CsvTable(CsvFields, seq(|rows|, i requires 0 <= i < |rows| => Project(rows[i], CsvFields)))
  }

  /** `FIELDS_FULL if mode == "full" else FIELDS_SHORT`. */
  function FieldsFor(mode: string): (fields: seq<string>)
    ensures mode == "full" ==> fields == FieldsFull
    ensures mode != "full" ==> fields == FieldsShort
  {
    if mode == "full" then FieldsFull else FieldsShort
  }

  /** `json.dumps(obj, ensure_ascii=False)`, taken as given. */
  type Dumps = Record -> string

  /** The text the NDJSON exporters write: each row's projection, dumped,
      then a newline. */
  function NdjsonText(rows: seq<Record>, fields: seq<string>, dumps: Dumps): (text: string)
    ensures rows == [] ==> text == []
    ensures rows != [] ==> |text| > 0 && text[|text| - 1] == '\n'
  {
    if rows == [] then []
    else dumps(Project(rows[0], fields)) + "\n" + NdjsonText(rows[1..], fields, dumps)
  }

  /** `write_ndjson(rows, path, mode)`: read back line by line, the file
      holds each row projected onto the mode's fields, in order. */
  function WriteNdjson(rows: seq<Record>, mode: string, dumps: Dumps): (text: string)
    ensures rows == [] ==> text == []
    ensures (forall i :: 0 <= i < |rows| ==> '\n' !in dumps(Project(rows[i], FieldsFor(mode)))) ==>
      Lines(text) == Objects(rows, FieldsFor(mode), dumps)
  {
    NdjsonLinesWhenSingleLine(rows, FieldsFor(mode), dumps);
    NdjsonText(rows, FieldsFor(mode), dumps)
  }

  /** The older `write_ndjson(rows, path)`: the same, on its ten fields. */
  function WriteLegacyNdjson(rows: seq<Record>, dumps: Dumps): (text: string)
    ensures rows == [] ==> text == []
    ensures (forall i :: 0 <= i < |rows| ==> '\n' !in dumps(Project(rows[i], LegacyFields))) ==>
      Lines(text) == Objects(rows, LegacyFields, dumps)
  {
    NdjsonLinesWhenSingleLine(rows, LegacyFields, dumps);
    NdjsonText(rows, LegacyFields, dumps)
  }

  lemma NdjsonLinesWhenSingleLine(rows: seq<Record>, fields: seq<string>, dumps: Dumps)
    ensures (forall i :: 0 <= i < |rows| ==> '\n' !in dumps(Project(rows[i], fields))) ==>
      Lines(NdjsonText(rows, fields, dumps)) == Objects(rows, fields, dumps)
  {
    if forall i :: 0 <= i < |rows| ==> '\n' !in dumps(Project(rows[i], fields)) {
      NdjsonLines(rows, fields, dumps);
    }
  }

  /** The older exporter writes what the newer one writes in any mode but
      "full". */
  lemma LegacyIsShortMode(rows: seq<Record>, mode: string, dumps: Dumps)
    requires mode != "full"
    ensures WriteLegacyNdjson(rows, dumps) == WriteNdjson(rows, mode, dumps)
  {
  }

  /** Where the first line of `s` ends: its first newline, or its end. */
  function NewlineAt(s: string): (k: nat)
    ensures k <= |s|
    ensures k < |s| ==> s[k] == '\n'
    ensures forall j :: 0 <= j < k ==> s[j] != '\n'
  {
    if s == [] || s[0] == '\n' then 0 else 1 + NewlineAt(s[1..])
  }

  /** Splitting newline-terminated text into its lines. */
  function Lines(s: string): seq<string>
    decreases |s|
  {
    var k := NewlineAt(s);
    if k == |s| then (if s == [] then [] else [s])
    else [s[..k]] + Lines(s[k + 1..])
  }

  /** A line without a newline, then a newline, reads back as that line
      first. */
  lemma LinesCons(line: string, rest: string)
    requires '\n' !in line
    ensures Lines(line + "\n" + rest) == [line] + Lines(rest)
  {
    var s := line + "\n" + rest;
    assert forall j :: 0 <= j < |line| ==> s[j] == line[j];
    assert NewlineAt(s) == |line| by {
      NewlineAtFirst(s, |line|);
    }
    assert s[..|line|] == line;
    assert s[|line| + 1..] == rest;
  }

  lemma NewlineAtFirst(s: string, k: nat)
    requires k < |s| && s[k] == '\n'
    requires forall j :: 0 <= j < k ==> s[j] != '\n'
    ensures NewlineAt(s) == k
  {
  }

  /** The objects of an NDJSON text, rows first to last. */
  function Objects(rows: seq<Record>, fields: seq<string>, dumps: Dumps): (objs: seq<string>)
    ensures |objs| == |rows|
    ensures forall i :: 0 <= i < |rows| ==> objs[i] == dumps(Project(rows[i], fields))
  {
    seq(|rows|, i requires 0 <= i < |rows| => dumps(Project(rows[i], fields)))
  }

  /** Since `json.dumps` writes no raw newline, reading the text back line
      by line gives one object per row, in order. */
  lemma {:induction false} NdjsonLines(rows: seq<Record>, fields: seq<string>, dumps: Dumps)
    requires forall i :: 0 <= i < |rows| ==> '\n' !in dumps(Project(rows[i], fields))
    ensures Lines(NdjsonText(rows, fields, dumps)) == Objects(rows, fields, dumps)
    decreases |rows|
  {
    if rows != [] {
      var first := dumps(Project(rows[0], fields));
      LinesCons(first, NdjsonText(rows[1..], fields, dumps));
      assert forall i :: 0 <= i < |rows| - 1 ==> rows[1..][i] == rows[i + 1];
      NdjsonLines(rows[1..], fields, dumps);
      ObjectsCons(rows, fields, dumps);
    }
  }

  /** The objects of a table are its first row's object, then the rest's. */
  lemma ObjectsCons(rows: seq<Record>, fields: seq<string>, dumps: Dumps)
    requires rows != []
    ensures Objects(rows, fields, dumps) == [dumps(Project(rows[0], fields))] + Objects(rows[1..], fields, dumps)
  {
    var objs := Objects(rows, fields, dumps);
    var rest := Objects(rows[1..], fields, dumps);
    forall i | 1 <= i < |rows|
      ensures objs[i] == rest[i - 1]
    {
      assert rows[1..][i - 1] == rows[i];
    }
  }
}

=== FILE: mapper.dfy ===
/**
 The live normalizer: turns one raw finding from an extractor into a row of
 the fixed 14-column schema, filling an empty title, severity or
 remediation from the SWC registry.

 The random `finding_id` (a uuid4) and the clock reading used when no
 timestamp override is given are parameters.
 */
module Mapper {
  import opened PyValue
  import opened PyText
  import opened PyNumber
  import opened SwcRegistry

  /** The severity words the normalizer knows; each maps to itself. */
  const SevMap: map<string, string> :=
    map["critical" := "critical", "high" := "high", "medium" := "medium", "low" := "low"]

  /** The keys of a normalized row, in the order the row is built. */
  const OutputKeys: seq<string> := [
    "finding_id", "timestamp", "network", "contract", "file", "line_start", "line_end",
    "swc_id", "title", "severity", "confidence", "status", "remediation", "commit_hash"
  ]

  /** `_norm_severity(s)`: "" for a falsy value, otherwise `str(s)` trimmed
      and lower-cased; because every known word maps to itself, unknown words
      pass through unchanged. */
  function NormSeverity(v: Value, repr: Repr): (r: string)
    ensures !Truthy(v) ==> r == ""
    ensures Truthy(v) ==> r == Lower(Strip(ToStr(v, repr)))
  {
    if !Truthy(v) then ""
    else
      var s := Lower(Strip(ToStr(v, repr)));
      if s in SevMap then SevMapFixes(s); SevMap[s] else s
  }

  lemma SevMapFixes(k: string)
    requires k in SevMap
    ensures SevMap[k] == k
  {
  }

  /** Normalizing an already normalized severity changes nothing. */
  lemma NormSeverityIdempotent(v: Value, repr: Repr)
    ensures NormSeverity(Str(NormSeverity(v, repr)), repr) == NormSeverity(v, repr)
  {
    if Truthy(v) {
      LowerStripIdempotent(ToStr(v, repr));
    }
  }

  /** The values `(v or "").strip()` accepts: a falsy value or a string. */
  predicate Strippable(v: Value) {
    !Truthy(v) || v.Str?
  }

  /** `(v or "").strip()`: a truthy non-string has no `strip` method. */
  function StripOr(v: Value): (r: Result<string>)
    ensures r.Ok? <==> Strippable(v)
    ensures !Truthy(v) ==> r == Ok("")
    ensures v.Str? ==> r == Ok(Strip(v.s))
    ensures r.Raise? ==> r.exc == AttributeError
  {
    if !Truthy(v) then Ok("")
    else if v.Str? then Ok(Strip(v.s))
    else Raise(AttributeError)
  }

  /** `d.get(k)` on a record, `None` when the key is absent. */
  function At(d: Record, k: string): Value {
    GetOr(d, k, Null)
  }

  /** `get_swc_meta(id) or get_swc_meta(id.replace("SWC-", ""))`, kept only
      when it is a non-empty dict, as `if meta:` requires. */
  function FindMeta(registry: Registry, swcId: string): (r: Option<Record>)
    ensures r.Some? ==> r.value != []
    ensures var direct := GetSwcMeta(registry, swcId);
      direct.Some? && direct.value != [] ==> r == direct
    ensures var direct := GetSwcMeta(registry, swcId);
      !(direct.Some? && direct.value != []) && r.Some? ==> r == GetSwcMeta(registry, Replace(swcId, "SWC-", ""))
    ensures r.Some? <==>
      || (GetSwcMeta(registry, swcId).Some? && GetSwcMeta(registry, swcId).value != [])
      || (var retry := GetSwcMeta(registry, Replace(swcId, "SWC-", ""));
          retry.Some? && retry.value != [])
  {
    var first := GetSwcMeta(registry, swcId);
    var retry := GetSwcMeta(registry, Replace(swcId, "SWC-", ""));
    if first.Some? && first.value != [] then first
    else if retry.Some? && retry.value != [] then retry
    else None
  }

  /** The three texts the registry may fill. */
  datatype Texts = Texts(title: string, severity: string, remediation: string)

  /** Fills each empty text from the registry entry, if one was found. */
  function Enrich(t: Texts, meta: Option<Record>, repr: Repr): (r: Result<Texts>)
    ensures meta.None? ==> r == Ok(t)
    ensures r.Ok? && t.title != [] ==> r.value.title == t.title
    ensures r.Ok? && t.severity != [] ==> r.value.severity == t.severity
    ensures r.Ok? && t.remediation != [] ==> r.value.remediation == t.remediation
    ensures r.Ok? && meta.Some? && t.title == [] ==>
      StripOr(At(meta.value, "title")).Ok? && r.value.title == StripOr(At(meta.value, "title")).value
    ensures r.Ok? && meta.Some? && t.severity == [] ==> r.value.severity == NormSeverity(At(meta.value, "severity"), repr)
    ensures r.Ok? && meta.Some? && t.remediation == [] ==>
      StripOr(At(meta.value, "remediation")).Ok? && r.value.remediation == StripOr(At(meta.value, "remediation")).value
  {
    if meta.None? then Ok(t)
    else
      var m := meta.value;
      var title :- if t.title == [] then StripOr(At(m, "title")) else Ok(t.title);
      var severity := if t.severity == [] then NormSeverity(At(m, "severity"), repr) else t.severity;
      var remediation :- if t.remediation == [] then StripOr(At(m, "remediation")) else Ok(t.remediation);
      Ok(Texts(title, severity, remediation))
  }

  /** `_to_int(x)`: `int(x)`, or 0 wherever `int` raises; text is read
      with ASCII digits only. */
  function ToInt(v: Value): (n: int)
    ensures IntOf(v).Some? ==> n == IntOf(v).value
    ensures IntOf(v).None? ==> n == 0
  {
    match IntOf(v)
    case Some(n) => n
    case None => 0
  }

  /** The scanner's texts, trimmed, with the severity normalized. */
  function ScannerTexts(raw: Record, repr: Repr): Result<Texts> {
    var title :- StripOr(At(raw, "title"));
    var remediation :- StripOr(At(raw, "remediation"));
    Ok(Texts(title, NormSeverity(At(raw, "severity"), repr), remediation))
  }

  /** The registry entry used for enrichment: none when the id is empty. */
  function MetaFor(registry: Registry, swcId: string): Option<Record> {
    if swcId != [] then FindMeta(registry, swcId) else None
  }

  /** `line_start`: the raw `line_start`, else the raw `line`, else 0. */
  function LineStart(raw: Record): (v: Value)
    ensures Truthy(At(raw, "line_start")) ==> v == At(raw, "line_start")
    ensures !Truthy(At(raw, "line_start")) && Truthy(At(raw, "line")) ==> v == At(raw, "line")
    ensures !Truthy(At(raw, "line_start")) && !Truthy(At(raw, "line")) ==> v == Int(0)
  {
    Or(Or(At(raw, "line_start"), At(raw, "line")), Int(0))
  }

  /** `line_end`: the raw `line_end`, else the chosen `line_start`. */
  function LineEnd(raw: Record): (v: Value)
    ensures Truthy(At(raw, "line_end")) ==> v == At(raw, "line_end")
    ensures !Truthy(At(raw, "line_end")) ==> v == LineStart(raw)
  {
    Or(At(raw, "line_end"), LineStart(raw))
  }

  /** A normalized row: the 14 columns of the schema, in order. */
  datatype StcRow = StcRow(
    findingId: string,
    timestamp: string,
    network: Value,
    contract: Value,
    file: Value,
    lineStart: int,
    lineEnd: int,
    swcId: string,
    title: string,
    severity: string,
    confidence: Value,
    status: Value,
    remediation: string,
    commitHash: Value)

  /** The row as the dict `to_stc_schema` returns. */
  function ToRecord(row: StcRow): (d: Record)
    ensures Keys(d) == OutputKeys
    ensures |d| == |OutputKeys|
    ensures d[0].1 == Str(row.findingId) && d[1].1 == Str(row.timestamp) && d[2].1 == row.network
    ensures d[3].1 == row.contract && d[4].1 == row.file
    ensures d[5].1 == Int(row.lineStart) && d[6].1 == Int(row.lineEnd) && d[7].1 == Str(row.swcId)
    ensures d[8].1 == Str(row.title) && d[9].1 == Str(row.severity) && d[10].1 == row.confidence
    ensures d[11].1 == row.status && d[12].1 == Str(row.remediation) && d[13].1 == row.commitHash
  {
    var d := [
      ("finding_id", Str(row.findingId)),
      ("timestamp", Str(row.timestamp)),
      ("network", row.network),
      ("contract", row.contract),
      ("file", row.file),
      ("line_start", Int(row.lineStart)),
      ("line_end", Int(row.lineEnd)),
      ("swc_id", Str(row.swcId)),
      ("title", Str(row.title)),
      ("severity", Str(row.severity)),
      ("confidence", row.confidence),
      ("status", row.status),
      ("remediation", Str(row.remediation)),
      ("commit_hash", row.commitHash)
    ];
    KeysAre(d, OutputKeys);
    d
  }

  /** `to_stc_schema(raw, tool, timestamp_iso)`. An empty `timestampIso`
      stands for both `None` and "", which Python treats alike; `clock` is
      the reading of the clock and `findingId` the fresh uuid. Only the
      `strip` of a truthy non-string can raise. */
  function ToStcSchema(raw: Record, registry: Registry, timestampIso: string, clock: string,
                       findingId: string, repr: Repr): (r: Result<StcRow>)
    ensures (!Strippable(At(raw, "swc_id")) || !Strippable(At(raw, "title"))
             || !Strippable(At(raw, "remediation"))) ==> r.Raise?
    ensures r.Raise? ==> r.exc == AttributeError
    ensures r.Ok? ==> StripOr(At(raw, "swc_id")).Ok? && r.value.swcId == StripOr(At(raw, "swc_id")).value
  {
    var swcId :- StripOr(At(raw, "swc_id"));
    var scanned :- ScannerTexts(raw, repr);
    var texts :- Enrich(scanned, MetaFor(registry, swcId), repr);
    Ok(StcRow(
      findingId,
      if timestampIso != [] then timestampIso else clock,
      Or(At(raw, "network"), Str("ethereum")),
      Or(At(raw, "contract"), Str("")),
      Or(At(raw, "file"), Str("")),
      ToInt(LineStart(raw)),
      ToInt(LineEnd(raw)),
      swcId,
      texts.title,
      texts.severity,
      Or(At(raw, "confidence"), Str("medium")),
      Or(At(raw, "status"), Str("unresolved")),
      texts.remediation,
      Or(At(raw, "commit_hash"), Str(""))))
  }

  /** A raw record whose string fields the normalizer can trim, with a
      registry whose titles and remediations it can trim too. */
  predicate Normalizable(raw: Record, registry: Registry) {
    && Strippable(At(raw, "swc_id"))
    && Strippable(At(raw, "title"))
    && Strippable(At(raw, "remediation"))
    && forall id :: id in registry ==>
         Strippable(At(registry[id], "title")) && Strippable(At(registry[id], "remediation"))
  }

  /** Normalization succeeds whenever nothing it could trim, in the raw
      finding or in any registry entry, is a truthy non-string. */
  lemma ToStcSchemaSucceeds(raw: Record, registry: Registry, timestampIso: string, clock: string,
                            findingId: string, repr: Repr)
    requires Normalizable(raw, registry)
    ensures ToStcSchema(raw, registry, timestampIso, clock, findingId, repr).Ok?
  {
    var swcId := StripOr(At(raw, "swc_id")).value;
    var meta := MetaFor(registry, swcId);
    if meta.Some? {
      assert swcId != [];
      var m := meta.value;
      assert exists id :: id in registry && registry[id] == m;
    }
  }

  /** The normalized row, when normalization succeeds. */
  function Normalized(raw: Record, registry: Registry, timestampIso: string, clock: string,
                      findingId: string, repr: Repr): StcRow
    requires ToStcSchema(raw, registry, timestampIso, clock, findingId, repr).Ok?
  {
    ToStcSchema(raw, registry, timestampIso, clock, findingId, repr).value
  }

  /** A non-empty scanner title, severity or remediation is kept as is. */
  lemma ScannerTextsWin(raw: Record, registry: Registry, timestampIso: string, clock: string,
                        findingId: string, repr: Repr)
    requires ToStcSchema(raw, registry, timestampIso, clock, findingId, repr).Ok?
    ensures var row := Normalized(raw, registry, timestampIso, clock, findingId, repr);
      var scanned := ScannerTexts(raw, repr).value;
      && (scanned.title != [] ==> row.title == scanned.title)
      && (scanned.severity != [] ==> row.severity == scanned.severity)
      && (scanned.remediation != [] ==> row.remediation == scanned.remediation)
  {
  }

  /** An empty scanner title, severity or remediation is taken from the
      registry entry found for the id. */
  lemma RegistryFillsEmpty(raw: Record, registry: Registry, timestampIso: string, clock: string,
                           findingId: string, repr: Repr)
    requires ToStcSchema(raw, registry, timestampIso, clock, findingId, repr).Ok?
    requires MetaFor(registry, StripOr(At(raw, "swc_id")).value).Some?
    ensures var row := Normalized(raw, registry, timestampIso, clock, findingId, repr);
      var scanned := ScannerTexts(raw, repr).value;
      var m := MetaFor(registry, StripOr(At(raw, "swc_id")).value).value;
      && (scanned.title == [] ==> row.title == StripOr(At(m, "title")).value)
      && (scanned.severity == [] ==> row.severity == NormSeverity(At(m, "severity"), repr))
      && (scanned.remediation == [] ==>
            row.remediation == StripOr(At(m, "remediation")).value)
  {
    var swcId := StripOr(At(raw, "swc_id")).value;
    var scanned := ScannerTexts(raw, repr).value;
    var texts := Enrich(scanned, MetaFor(registry, swcId), repr);
    var row := Normalized(raw, registry, timestampIso, clock, findingId, repr);
    assert texts.Ok? && row.title == texts.value.title && row.severity == texts.value.severity
      && row.remediation == texts.value.remediation;
  }

  /** With an empty id, or an id neither lookup finds, the row carries the
      scanner's own texts. */
  lemma NoEnrichmentWithoutEntry(raw: Record, registry: Registry, timestampIso: string, clock: string,
                                 findingId: string, repr: Repr)
    requires ToStcSchema(raw, registry, timestampIso, clock, findingId, repr).Ok?
    requires var swcId := StripOr(At(raw, "swc_id")).value;
      swcId == [] || FindMeta(registry, swcId).None?
    ensures var row := Normalized(raw, registry, timestampIso, clock, findingId, repr);
      var scanned := ScannerTexts(raw, repr).value;
      && row.title == scanned.title
      && row.severity == scanned.severity
      && row.remediation == scanned.remediation
  {
  }

  /** A non-empty timestamp override is used verbatim, otherwise the clock. */
  lemma TimestampChoice(raw: Record, registry: Registry, timestampIso: string, clock: string,
                        findingId: string, repr: Repr)
    requires ToStcSchema(raw, registry, timestampIso, clock, findingId, repr).Ok?
    ensures var row := Normalized(raw, registry, timestampIso, clock, findingId, repr);
      && (timestampIso != [] ==> row.timestamp == timestampIso)
      && (timestampIso == [] ==> row.timestamp == clock)
      && row.findingId == findingId
  {
  }

  /** Falsy inputs take the defaults; truthy ones are copied unchanged. */
  lemma Defaults(raw: Record, registry: Registry, timestampIso: string, clock: string,
                 findingId: string, repr: Repr)
    requires ToStcSchema(raw, registry, timestampIso, clock, findingId, repr).Ok?
    ensures var row := Normalized(raw, registry, timestampIso, clock, findingId, repr);
      && row.network == (if Truthy(At(raw, "network")) then At(raw, "network") else Str("ethereum"))
      && row.contract == (if Truthy(At(raw, "contract")) then At(raw, "contract") else Str(""))
      && row.file == (if Truthy(At(raw, "file")) then At(raw, "file") else Str(""))
      && row.commitHash == (if Truthy(At(raw, "commit_hash")) then At(raw, "commit_hash") else Str(""))
      && row.confidence == (if Truthy(At(raw, "confidence")) then At(raw, "confidence") else Str("medium"))
      && row.status == (if Truthy(At(raw, "status")) then At(raw, "status") else Str("unresolved"))
  {
  }

  /** Line numbers: `line_start` comes from the raw `line_start`, else the
      raw `line`, else 0; `line_end` from the raw `line_end`, else the same
      source as `line_start`; anything `int()` rejects becomes 0. */
  lemma LineFallback(raw: Record, registry: Registry, timestampIso: string, clock: string,
                     findingId: string, repr: Repr)
    requires ToStcSchema(raw, registry, timestampIso, clock, findingId, repr).Ok?
    ensures var row := Normalized(raw, registry, timestampIso, clock, findingId, repr);
      && (Truthy(At(raw, "line_end")) ==> row.lineEnd == ToInt(At(raw, "line_end")))
      && (!Truthy(At(raw, "line_end")) ==> row.lineEnd == row.lineStart)
      && (Truthy(At(raw, "line_start")) ==> row.lineStart == ToInt(At(raw, "line_start")))
      && (!Truthy(At(raw, "line_start")) && Truthy(At(raw, "line")) ==>
            row.lineStart == ToInt(At(raw, "line")))
      && (!Truthy(At(raw, "line_start")) && !Truthy(At(raw, "line")) ==> row.lineStart == 0)
  {
    var row := Normalized(raw, registry, timestampIso, clock, findingId, repr);
    assert row.lineStart == ToInt(LineStart(raw)) && row.lineEnd == ToInt(LineEnd(raw));
  }

  /** A start of 42 and no end gives a row from line 42 to line 42. */
  lemma LineEndDefaultsToStart(repr: Repr)
    ensures var row := Normalized([("line_start", Int(42))], map[], "", "t", "id", repr);
      row.lineStart == 42 && row.lineEnd == 42
  {
    ToStcSchemaSucceeds([("line_start", Int(42))], map[], "", "t", "id", repr);
    LineFallback([("line_start", Int(42))], map[], "", "t", "id", repr);
  }

  /** `to_stc_schema_batch`: one call per raw finding, in order; the i-th
      call reads the clock as `clock(i)` and draws the uuid `ids(i)`. */
  function ToStcSchemaBatch(raws: seq<Record>, registry: Registry, timestampIso: string,
                            clock: nat -> string, ids: nat -> string, repr: Repr): (r: Result<seq<StcRow>>)
    ensures r.Ok? ==> |r.value| == |raws|
    ensures r.Ok? ==> forall i :: 0 <= i < |raws| ==>
      ToStcSchema(raws[i], registry, timestampIso, clock(i), ids(i), repr) == Ok(r.value[i])
    ensures r.Ok? <==> forall i :: 0 <= i < |raws| ==>
      ToStcSchema(raws[i], registry, timestampIso, clock(i), ids(i), repr).Ok?
  {
    MapIndexed(raws, (raw, i) => ToStcSchema(raw, registry, timestampIso, clock(i), ids(i), repr))
  }

  /** Against the shipped table, an id that contains no "SWC-" finds no
      entry: the retry looks the same id up again, and every key of the
      table starts with "SWC-". */
  lemma MiniMissesWithoutPrefix(swcId: string)
    requires !Contains(swcId, "SWC-")
    ensures FindMeta(SwcRegistryMini, swcId) == None
  {
    assert Replace(swcId, "SWC-", "") == swcId;
    if swcId in SwcRegistryMini {
      MiniKeysPrefixed(swcId);
      assert OccursAt(swcId, "SWC-", 0);
    }
  }

  /** "SWC-107" is found directly; "107" finds nothing. */
  lemma MiniLookups()
    ensures FindMeta(SwcRegistryMini, "SWC-107") == Some(Meta("Reentrancy", "high"))
    ensures FindMeta(SwcRegistryMini, "107") == None
  {
    assert !OccursAt("107", "SWC-", 0);
    MiniMissesWithoutPrefix("107");
  }

  lemma ReplaceLeavesC107()
    ensures Replace("C-107", "SWC-", "") == "C-107"
  {
    assert !Contains("C-107", "SWC-") by {
      assert "C-107"[0..4][0] != "SWC-"[0];
      assert "C-107"[1..5][0] != "SWC-"[0];
    }
  }

  lemma ReplaceDropsInnerPrefix()
    ensures Replace("SWC-C-107", "SWC-", "") == "C-107"
  {
    var s := "SWC-C-107";
    assert s[..4] == "SWC-";
    ReplaceAtStart(s, "SWC-", "");
    assert s[4..] == "C-107";
    ReplaceLeavesC107();
  }

  lemma ReplaceKeepsW()
    ensures Replace("WSWC-C-107", "SWC-", "") == "WC-107"
  {
    var s := "WSWC-C-107";
    TailOfWSWC();
    ReplaceNotAtStart(s, "SWC-", "");
    ReplaceDropsInnerPrefix();
    assert s[0] == 'W';
    JoinW();
  }

  lemma ReplaceRebuildsPrefix()
    ensures Replace("SWSWC-C-107", "SWC-", "") == "SWC-107"
  {
    var s := "SWSWC-C-107";
    TailOfSWSWC();
    ReplaceNotAtStart(s, "SWC-", "");
    ReplaceKeepsW();
    assert s[0] == 'S';
    JoinS();
  }

  /** The string steps of the two lemmas above, each proved on its own so
      that the literal strings stay out of the `Replace` unfoldings. */
  lemma JoinS()
    ensures ['S'] + "WC-107" == "SWC-107"
  {
  }

  lemma JoinW()
    ensures ['W'] + "C-107" == "WC-107"
  {
  }

  lemma TailOfWSWC()
    ensures "WSWC-C-107"[..4] != "SWC-" && "WSWC-C-107"[1..] == "SWC-C-107"
  {
    assert "WSWC-C-107"[..4][0] != "SWC-"[0];
  }

  lemma TailOfSWSWC()
    ensures "SWSWC-C-107"[..4] != "SWC-" && "SWSWC-C-107"[1..] == "WSWC-C-107"
  {
    assert "SWSWC-C-107"[..4][2] != "SWC-"[2];
  }

  /** The retry does hit the shipped table when removing "SWC-" leaves an id
      that still starts with it: "SWSWC-C-107" is not a key, but it becomes
      "SWC-107". */
  lemma MiniRetryHit()
    ensures GetSwcMeta(SwcRegistryMini, "SWSWC-C-107") == None
    ensures FindMeta(SwcRegistryMini, "SWSWC-C-107") == Some(Meta("Reentrancy", "high"))
  {
    ReplaceRebuildsPrefix();
  }
}

=== FILE: mythril_extract.dfy ===
/**
 The live Mythril extractor: one raw finding per issue of a parsed Mythril
 JSON report. The location comes from the first entry of `locations` (or of
 `location`, a lone dict counting as a one-entry list); contract and
 function come from `extra`.
 */
module MythrilExtract {
  import opened PyValue
  import opened PyText
  import opened RawFinding

  /** File and line read from the first location. */
  datatype Spot = Spot(file: Value, line: Value)

  /** The spot of an issue without locations: no file, line 0. */
  const NoSpot: Spot := Spot(Str(""), Int(0))

  /** The first location's `file` and `line`; a line that is not an
      integer (or boolean) counts as 0. */
  function FirstSpot(loc: Value): (r: Result<Spot>)
    ensures r.Ok? <==> loc.Dict?
    ensures r.Ok? ==> IsInt(r.value.line)
    ensures r.Ok? ==> r.value.file == GetOr(loc.items, "file", Str(""))
    ensures r.Ok? && IsInt(GetOr(loc.items, "line", Int(0))) ==> r.value.line == GetOr(loc.items, "line", Int(0))
    ensures r.Ok? && !IsInt(GetOr(loc.items, "line", Int(0))) ==> r.value.line == Int(0)
  {
    var items :- AsDict(loc);
    var line := GetOr(items, "line", Int(0));
    Ok(Spot(GetOr(items, "file", Str("")), if IsInt(line) then line else Int(0)))
  }

  /** The spot of an issue's locations: a dict is wrapped into a one-entry
      list, only the first entry is read, and no locations give `NoSpot`. */
  function LocationsSpot(locs: Value): (r: Result<Spot>)
    ensures locs.Dict? ==> r == FirstSpot(locs)
    ensures !Truthy(locs) ==> r == Ok(NoSpot)
    ensures locs.List? && locs.elems != [] ==> r == FirstSpot(locs.elems[0])
    ensures r.Ok? ==> IsInt(r.value.line)
  {
    var list := if locs.Dict? then List([locs]) else locs;
    if Truthy(list) then
      var loc :- Index(list, 0);
      FirstSpot(loc)
    else Ok(NoSpot)
  }

  /** The raw finding from an issue's fields: the three spellings of the
      SWC id already chosen between, and the spot already read. */
  function FindingOf(swcId: Value, title: Value, description: Value, severity: Value,
                     spot: Result<Spot>, extra: Value): (r: Result<Finding>)
    ensures r.Ok? ==> r.value.swcId == swcId
    ensures r.Ok? ==> spot.Ok? && r.value.file == spot.value.file
    ensures r.Ok? ==> r.value.lineStart == r.value.lineEnd == spot.value.line
    ensures r.Ok? ==> r.value.confidence == AnchorOf(r.value.severity)
    ensures r.Ok? ==> Or(severity, Str("")).Str? && r.value.severity == Lower(Or(severity, Str("")).s)
    ensures !Or(severity, Str("")).Str? ==> r == Raise(AttributeError)
    ensures r.Ok? <==> Or(severity, Str("")).Str? && spot.Ok? && Or(extra, Dict([])).Dict?
    ensures r.Ok? ==> r.value.title == Or(title, Str("")) && r.value.description == Or(description, Str(""))
    ensures r.Ok? ==> var meta := Or(extra, Dict([])).items;
      && r.value.contract == Or(GetOr(meta, "contract", Null), Str(""))
      && r.value.func == Or(GetOr(meta, "function", Null), Str(""))
  {
    var sev :- LowerMethod(Or(severity, Str("")));
    var sp :- spot;
    var meta :- AsDict(Or(extra, Dict([])));
    Ok(Finding(
      swcId,
      Or(title, Str("")),
      Or(description, Str("")),
      sev,
      AnchorOf(sev),
      Or(GetOr(meta, "contract", Null), Str("")),
      Or(GetOr(meta, "function", Null), Str("")),
      sp.file,
      sp.line,
      sp.line))
  }

  /** The first truthy of the three spellings of the SWC id, else the last. */
  function SwcIdOf(items: Record): (v: Value)
    ensures Truthy(GetOr(items, "swc-id", Null)) ==> v == GetOr(items, "swc-id", Null)
    ensures Truthy(v) <==> exists k :: k in ["swc-id", "swcID", "swcid"] && Truthy(GetOr(items, k, Null))
    ensures v in {GetOr(items, "swc-id", Null), GetOr(items, "swcID", Null), GetOr(items, "swcid", Null)}
  {
    Or(Or(GetOr(items, "swc-id", Null), GetOr(items, "swcID", Null)), GetOr(items, "swcid", Null))
  }

  /** The locations an issue lists, under `locations` or else `location`. */
  function LocationsOf(items: Record): (v: Value)
    ensures Truthy(GetOr(items, "locations", Null)) ==> v == GetOr(items, "locations", Null)
    ensures !Truthy(GetOr(items, "locations", Null)) && Truthy(GetOr(items, "location", Null)) ==>
      v == GetOr(items, "location", Null)
    ensures !Truthy(v) ==> v == List([])
  {
    Or(Or(GetOr(items, "locations", Null), GetOr(items, "location", Null)), List([]))
  }

  /** The raw finding for one issue, which must be a dict. */
  function IssueFinding(it: Value): (r: Result<Finding>)
    ensures !it.Dict? ==> r == Raise(AttributeError)
    ensures r.Ok? ==> r.value.lineStart == r.value.lineEnd && IsInt(r.value.lineStart)
    ensures r.Ok? ==> r.value.confidence == AnchorOf(r.value.severity)
    ensures r.Ok? ==>
      var a := GetOr(it.items, "swc-id", Null);
      var b := GetOr(it.items, "swcID", Null);
      var c := GetOr(it.items, "swcid", Null);
      r.value.swcId == if Truthy(a) then a else if Truthy(b) then b else c
    ensures r.Ok? ==> var sev := Or(GetOr(it.items, "severity", Null), Str(""));
      sev.Str? && r.value.severity == Lower(sev.s)
    ensures r.Ok? ==>
      && r.value.title == Or(GetOr(it.items, "title", Null), Str(""))
      && r.value.description == Or(GetOr(it.items, "description", Null), Str(""))
    ensures r.Ok? ==> var spot := LocationsSpot(LocationsOf(it.items));
      spot.Ok? && r.value.file == spot.value.file && r.value.lineStart == spot.value.line
    ensures r.Ok? ==> var meta := Or(GetOr(it.items, "extra", Null), Dict([]));
      && meta.Dict?
      && r.value.contract == Or(GetOr(meta.items, "contract", Null), Str(""))
      && r.value.func == Or(GetOr(meta.items, "function", Null), Str(""))
  {
    var items :- AsDict(it);
    FindingOf(
      SwcIdOf(items),
      GetOr(items, "title", Null),
      GetOr(items, "description", Null),
      GetOr(items, "severity", Null),
      LocationsSpot(LocationsOf(items)),
      GetOr(items, "extra", Null))
  }

  /** `parse_report` after `json.loads`: the `issues` of the report, each
      turned into a finding, in order. */
  function ParseReport(data: Value): (r: Result<seq<Finding>>)
    ensures !data.Dict? ==> r == Raise(AttributeError)
    ensures data.Dict? && !HasKey(data.items, "issues") ==> r == Ok([])
    ensures data.Dict? && GetOr(data.items, "issues", List([])).List? ==>
      (var issues := GetOr(data.items, "issues", List([])).elems;
       && (r.Ok? <==> forall i :: 0 <= i < |issues| ==> IssueFinding(issues[i]).Ok?)
       && (r.Ok? ==> |r.value| == |issues|)
       && (r.Ok? ==> forall i :: 0 <= i < |issues| ==> IssueFinding(issues[i]) == Ok(r.value[i])))
  {
    var issues :- Get(data, "issues", List([]));
    var its :- Iterate(issues);
    MapIndexed(its, (it, i) => IssueFinding(it))
  }

  /** The severity is lower-case, and the confidence anchor follows it:
      "high" gives 0.9, "low" gives 0.2, anything else 0.5. */
  lemma SeverityDrivesConfidence(it: Value)
    requires IssueFinding(it).Ok?
    ensures var f := IssueFinding(it).value;
      && Lower(f.severity) == f.severity
      && AnchorValue(f.confidence) == (if f.severity == "high" then Float(0.9)
                                       else if f.severity == "low" then Float(0.2)
                                       else Float(0.5))
  {
    var sev := Or(GetOr(it.items, "severity", Null), Str(""));
    LowerIdempotent(sev.s);
  }

  /** An issue is read only through its seven scalar fields and the spot of
      its locations. */
  lemma IssueCongruence(d1: Record, d2: Record)
    requires GetOr(d1, "swc-id", Null) == GetOr(d2, "swc-id", Null)
    requires GetOr(d1, "swcID", Null) == GetOr(d2, "swcID", Null)
    requires GetOr(d1, "swcid", Null) == GetOr(d2, "swcid", Null)
    requires GetOr(d1, "title", Null) == GetOr(d2, "title", Null)
    requires GetOr(d1, "description", Null) == GetOr(d2, "description", Null)
    requires GetOr(d1, "severity", Null) == GetOr(d2, "severity", Null)
    requires GetOr(d1, "extra", Null) == GetOr(d2, "extra", Null)
    requires LocationsSpot(LocationsOf(d1)) == LocationsSpot(LocationsOf(d2))
    ensures IssueFinding(Dict(d1)) == IssueFinding(Dict(d2))
  {
    assert SwcIdOf(d1) == SwcIdOf(d2);
  }

  /** An issue whose `locations` is a lone dict reads the same as one whose
      `locations` is a list holding that dict. */
  lemma LoneLocationIsList(items: Record, loc: Record)
    requires loc != []
    ensures IssueFinding(Dict(Assign(items, "locations", Dict(loc))))
         == IssueFinding(Dict(Assign(items, "locations", List([Dict(loc)]))))
  {
    var d1 := Assign(items, "locations", Dict(loc));
    var d2 := Assign(items, "locations", List([Dict(loc)]));
    SameOutsideLocations(items, Dict(loc), List([Dict(loc)]));
    LookupAssign(items, "locations", Dict(loc), "locations");
    LookupAssign(items, "locations", List([Dict(loc)]), "locations");
    assert Truthy(Dict(loc)) && Truthy(List([Dict(loc)]));
    assert Or(Dict(loc), GetOr(d1, "location", Null)) == Dict(loc);
    assert Or(List([Dict(loc)]), GetOr(d2, "location", Null)) == List([Dict(loc)]);
    assert LocationsOf(d1) == Dict(loc);
    assert LocationsOf(d2) == List([Dict(loc)]);
    IssueCongruence(d1, d2);
  }

  lemma SameOutsideLocations(items: Record, l1: Value, l2: Value)
    ensures var d1 := Assign(items, "locations", l1);
      var d2 := Assign(items, "locations", l2);
      && GetOr(d1, "swc-id", Null) == GetOr(d2, "swc-id", Null)
      && GetOr(d1, "swcID", Null) == GetOr(d2, "swcID", Null)
      && GetOr(d1, "swcid", Null) == GetOr(d2, "swcid", Null)
      && GetOr(d1, "title", Null) == GetOr(d2, "title", Null)
      && GetOr(d1, "description", Null) == GetOr(d2, "description", Null)
      && GetOr(d1, "severity", Null) == GetOr(d2, "severity", Null)
      && GetOr(d1, "extra", Null) == GetOr(d2, "extra", Null)
  {
    LookupAssign(items, "locations", l1, "swc-id");
    LookupAssign(items, "locations", l2, "swc-id");
    LookupAssign(items, "locations", l1, "swcID");
    LookupAssign(items, "locations", l2, "swcID");
    LookupAssign(items, "locations", l1, "swcid");
    LookupAssign(items, "locations", l2, "swcid");
    LookupAssign(items, "locations", l1, "title");
    LookupAssign(items, "locations", l2, "title");
    LookupAssign(items, "locations", l1, "description");
    LookupAssign(items, "locations", l2, "description");
    LookupAssign(items, "locations", l1, "severity");
    LookupAssign(items, "locations", l2, "severity");
    LookupAssign(items, "locations", l1, "extra");
    LookupAssign(items, "locations", l2, "extra");
  }

  /** Only the first location is read: the others never change the
      finding. */
  lemma OnlyFirstLocation(items: Record, loc: Value, rest1: seq<Value>, rest2: seq<Value>)
    ensures IssueFinding(Dict(Assign(items, "locations", List([loc] + rest1))))
         == IssueFinding(Dict(Assign(items, "locations", List([loc] + rest2))))
  {
    var d1 := Assign(items, "locations", List([loc] + rest1));
    var d2 := Assign(items, "locations", List([loc] + rest2));
    SameOutsideLocations(items, List([loc] + rest1), List([loc] + rest2));
    LookupAssign(items, "locations", List([loc] + rest1), "locations");
    LookupAssign(items, "locations", List([loc] + rest2), "locations");
    assert Truthy(List([loc] + rest1)) && Truthy(List([loc] + rest2));
    assert Or(List([loc] + rest1), GetOr(d1, "location", Null)) == List([loc] + rest1);
    assert Or(List([loc] + rest2), GetOr(d2, "location", Null)) == List([loc] + rest2);
    assert LocationsOf(d1) == List([loc] + rest1);
    assert LocationsOf(d2) == List([loc] + rest2);
    IssueCongruence(d1, d2);
  }
}

=== FILE: mythril_legacy.dfy ===
/**
 The older Mythril extractor: the same issue fields as the live one, but
 every location is scanned, a later truthy `file` or `line` replacing an
 earlier one, and the result has a single `line` that may be `None`.
 */
module MythrilLegacy {
  import opened PyValue
  import opened PyText
  import opened RawFinding
  import MythrilExtract

  /** The `key` entry of each location (`None` where a location is not a
      dict or lacks the key). */
  function FieldOf(locs: seq<Value>, key: string): (cs: seq<Value>)
    ensures |cs| == |locs|
    ensures forall i :: 0 <= i < |locs| && locs[i].Dict? ==> cs[i] == GetOr(locs[i].items, key, Null)
  {
    seq(|locs|, i requires 0 <= i < |locs| => if locs[i].Dict? then GetOr(locs[i].items, key, Null) else Null)
  }

  predicate AllDicts(xs: seq<Value>) {
    forall i :: 0 <= i < |xs| ==> xs[i].Dict?
  }

  /** The loop over the locations: `file = loc.get("file") or file` and
      `line = loc.get("line") or line`; a location that is not a dict
      raises `AttributeError`. */
  function ScanLocations(locs: seq<Value>, file: Value, line: Value): (r: Result<(Value, Value)>)
    ensures r.Ok? <==> AllDicts(locs)
    ensures r.Raise? ==> r.exc == AttributeError
    decreases |locs|
  {
    if locs == [] then Ok((file, line))
    else
      assert AllDicts(locs) <==> locs[0].Dict? && AllDicts(locs[1..]) by {
        assert forall i :: 1 <= i < |locs| ==> locs[i] == locs[1..][i - 1];
      }
      var loc :- AsDict(locs[0]);
      ScanLocations(locs[1..], Or(GetOr(loc, "file", Null), file), Or(GetOr(loc, "line", Null), line))
  }

  /** The scan keeps the last truthy `file` and the last truthy `line`,
      each independently of the other. */
  lemma {:induction false} ScanIsLastTruthy(locs: seq<Value>, file: Value, line: Value)
    requires AllDicts(locs)
    ensures ScanLocations(locs, file, line)
         == Ok((LastTruthy(FieldOf(locs, "file"), file), LastTruthy(FieldOf(locs, "line"), line)))
    decreases |locs|
  {
    if locs != [] {
      var loc := locs[0].items;
      var f0 := GetOr(loc, "file", Null);
      var l0 := GetOr(loc, "line", Null);
      assert AllDicts(locs[1..]) by {
        assert forall i :: 0 <= i < |locs| - 1 ==> locs[1..][i] == locs[i + 1];
      }
      assert FieldOf(locs, "file") == [f0] + FieldOf(locs[1..], "file");
      assert FieldOf(locs, "line") == [l0] + FieldOf(locs[1..], "line");
      LastTruthyCons(f0, FieldOf(locs[1..], "file"), file);
      LastTruthyCons(l0, FieldOf(locs[1..], "line"), line);
      ScanIsLastTruthy(locs[1..], Or(f0, file), Or(l0, line));
    }
  }

  /** The locations of an issue as a list, a lone dict wrapped into one. */
  function LocationList(items: Record): Value {
    var locs := MythrilExtract.LocationsOf(items);
    if locs.Dict? then List([locs]) else locs
  }

  /** The legacy finding for one issue, which must be a dict. */
  function IssueFinding(it: Value): (r: Result<LegacyFinding>)
    ensures !it.Dict? ==> r == Raise(AttributeError)
    ensures r.Ok? ==> r.value.swcId == MythrilExtract.SwcIdOf(it.items)
    ensures r.Ok? ==> r.value.line == Null || r.value.line.Int?
    ensures r.Ok? ==> var sev := Or(GetOr(it.items, "severity", Null), Str(""));
      sev.Str? && r.value.severity == Lower(sev.s)
    ensures it.Dict? && !Or(GetOr(it.items, "severity", Null), Str("")).Str? ==> r == Raise(AttributeError)
    ensures r.Ok? ==>
      && r.value.title == Or(GetOr(it.items, "title", Null), Str(""))
      && r.value.description == Or(GetOr(it.items, "description", Null), Str(""))
    ensures r.Ok? ==> var meta := Or(GetOr(it.items, "extra", Null), Dict([]));
      && meta.Dict?
      && r.value.contract == Or(GetOr(meta.items, "contract", Null), Str(""))
      && r.value.func == Or(GetOr(meta.items, "function", Null), Str(""))
  {
    var items :- AsDict(it);
    var severity :- LowerMethod(Or(GetOr(items, "severity", Null), Str("")));
    var locs :- Iterate(LocationList(items));
    var spot :- ScanLocations(locs, Null, Null);
    var meta :- AsDict(Or(GetOr(items, "extra", Null), Dict([])));
    Ok(LegacyFinding(
      MythrilExtract.SwcIdOf(items),
      Or(GetOr(items, "title", Null), Str("")),
      Or(GetOr(items, "description", Null), Str("")),
      severity,
      Or(GetOr(meta, "contract", Null), Str("")),
      Or(GetOr(meta, "function", Null), Str("")),
      spot.0,
      LegacyLine(spot.1)))
  }

  /** `parse_report` after `json.loads`: the `issues` of the report, each
      turned into a legacy finding, in order. */
  function ParseReport(data: Value): (r: Result<seq<LegacyFinding>>)
    ensures !data.Dict? ==> r == Raise(AttributeError)
    ensures data.Dict? && !HasKey(data.items, "issues") ==> r == Ok([])
    ensures data.Dict? && GetOr(data.items, "issues", List([])).List? ==>
      (var issues := GetOr(data.items, "issues", List([])).elems;
       && (r.Ok? <==> forall i :: 0 <= i < |issues| ==> IssueFinding(issues[i]).Ok?)
       && (r.Ok? ==> |r.value| == |issues|)
       && (r.Ok? ==> forall i :: 0 <= i < |issues| ==> IssueFinding(issues[i]) == Ok(r.value[i])))
  {
    var issues :- Get(data, "issues", List([]));
    var its :- Iterate(issues);
    MapIndexed(its, (it, i) => IssueFinding(it))
  }

  /** Unlike the live extractor, the last location that names a file or a
      line wins; with no such location the file and line are `None`. */
  lemma LastLocationWins(items: Record, locs: seq<Value>)
    requires LocationList(items) == List(locs)
    requires IssueFinding(Dict(items)).Ok?
    ensures var f := IssueFinding(Dict(items)).value;
      && f.file == LastTruthy(FieldOf(locs, "file"), Null)
      && f.line == LegacyLine(LastTruthy(FieldOf(locs, "line"), Null))
  {
    ScanIsLastTruthy(locs, Null, Null);
  }
}

=== FILE: pipeline.dfy ===
/**
 How the parts fit: the normalizer's rows go to the exporters. The CSV
 exporter, the full NDJSON mode and both normalizers agree on the fourteen
 columns, so a normalized row is written as it is; the short NDJSON fields
 are those of the older extractors, which a normalized row only partly has.
 */
module Pipeline {
  import opened PyValue
  import Mapper
  import StdRows
  import Export

  /** One list of fourteen columns throughout. */
  lemma ColumnListsAgree()
    ensures Export.CsvFields == Mapper.OutputKeys
    ensures Export.FieldsFull == Mapper.OutputKeys
    ensures StdRows.StdColumns == Mapper.OutputKeys
  {
  }

  /** The CSV exporter writes a normalized row unchanged: every column is
      present, so none falls back to "", and nothing is dropped. */
  lemma CsvKeepsNormalizedRow(row: Mapper.StcRow)
    ensures Export.Project(Mapper.ToRecord(row), Export.CsvFields) == Mapper.ToRecord(row)
  {
    ColumnListsAgree();
    Export.FieldListsDistinct();
    Export.ProjectExact(Mapper.ToRecord(row), Export.CsvFields);
  }

  /** So does the NDJSON exporter in mode "full". */
  lemma FullModeKeepsNormalizedRow(row: Mapper.StcRow)
    ensures Export.Project(Mapper.ToRecord(row), Export.FieldsFor("full")) == Mapper.ToRecord(row)
  {
    ColumnListsAgree();
    Export.FieldListsDistinct();
    Export.ProjectExact(Mapper.ToRecord(row), Export.FieldsFull);
  }

  /** A normalized row has no description, tool, function or line, so in
      any other mode those four fields are written as "". */
  lemma ShortModeBlanksNormalizedRow(row: Mapper.StcRow, mode: string)
    requires mode != "full"
    ensures var o := Export.Project(Mapper.ToRecord(row), Export.FieldsFor(mode));
      && o[2] == ("description", Str(""))
      && o[4] == ("tool", Str(""))
      && o[6] == ("function", Str(""))
      && o[8] == ("line", Str(""))
  {
    var d := Mapper.ToRecord(row);
    var fields := Export.FieldsFor(mode);
    assert fields == Export.FieldsShort;
    assert fields[2] == "description" && fields[4] == "tool" && fields[6] == "function" && fields[8] == "line";
    ShortOnlyFields();
    NotAColumn(d, "description");
    NotAColumn(d, "tool");
    NotAColumn(d, "function");
    NotAColumn(d, "line");
  }

  lemma NotAColumn(d: Record, k: string)
    requires Keys(d) == Mapper.OutputKeys
    requires k !in Mapper.OutputKeys
    ensures GetOr(d, k, Str("")) == Str("")
  {
  }

  lemma ShortOnlyFields()
    ensures "description" !in Mapper.OutputKeys && "tool" !in Mapper.OutputKeys
    ensures "function" !in Mapper.OutputKeys && "line" !in Mapper.OutputKeys
  {
  }
}

=== FILE: py_compare.dfy ===
/**
 Python's `<` on the values `min` and `max` meet in a list of line numbers,
 and `min`/`max` themselves.
 */
module PyCompare {
  import opened PyValue

  /** Integers, booleans and floats compare with one another by value. */
  predicate IsNumber(v: Value) {
    v.Int? || v.Bool? || v.Float?
  }

  function NumberValue(v: Value): real
    requires IsNumber(v)
  {
    match v
    case Int(i) => i as real
    case Bool(b) => if b then 1.0 else 0.0
    case Float(r) => r
  }

  /** String order: by code point, a proper prefix first. */
  predicate StrLess(a: string, b: string) {
    if a == [] then b != []
    else if b == [] then false
    else if a[0] != b[0] then a[0] < b[0]
    else StrLess(a[1..], b[1..])
  }

  /** `a < b`: numbers by value, strings by code point; comparing anything
      else raises `TypeError`. */
  function Less(a: Value, b: Value): (r: Result<bool>)
    ensures IsNumber(a) && IsNumber(b) ==> r == Ok(NumberValue(a) < NumberValue(b))
    ensures a.Str? && b.Str? ==> r == Ok(StrLess(a.s, b.s))
    ensures r.Ok? ==> (IsNumber(a) && IsNumber(b)) || (a.Str? && b.Str?)
  {
    if IsNumber(a) && IsNumber(b) then Ok(NumberValue(a) < NumberValue(b))
    else if a.Str? && b.Str? then Ok(StrLess(a.s, b.s))
    else Raise(TypeError)
  }

  /** The running extreme after scanning `rest`: an item replaces `best`
      when it is strictly smaller (`min`) or strictly larger (`max`). */
  function ExtremeFrom(best: Value, rest: seq<Value>, wantMax: bool): Result<Value>
    decreases |rest|
  {
    if rest == [] then Ok(best)
    else
      var better :- if wantMax then Less(best, rest[0]) else Less(rest[0], best);
      ExtremeFrom(if better then rest[0] else best, rest[1..], wantMax)
  }

  /** `min(xs)` (`wantMax` false) or `max(xs)` (`wantMax` true); an empty
      list raises `ValueError`. */
  function Extreme(xs: seq<Value>, wantMax: bool): (r: Result<Value>)
    ensures xs == [] ==> r == Raise(ValueError)
    ensures |xs| == 1 ==> r == Ok(xs[0])
  {
    if xs == [] then Raise(ValueError) else ExtremeFrom(xs[0], xs[1..], wantMax)
  }

  predicate AllNumbers(xs: seq<Value>) {
    forall i :: 0 <= i < |xs| ==> IsNumber(xs[i])
  }

  /** Over numbers the scan succeeds and finds an element that is at most
      (`min`) or at least (`max`) every element and `best`. */
  lemma {:induction false} ExtremeFromNumbers(best: Value, rest: seq<Value>, wantMax: bool)
    requires IsNumber(best) && AllNumbers(rest)
    ensures ExtremeFrom(best, rest, wantMax).Ok?
    ensures var m := ExtremeFrom(best, rest, wantMax).value;
      && (m == best || m in rest)
      && IsNumber(m)
      && (wantMax ==> NumberValue(best) <= NumberValue(m))
      && (!wantMax ==> NumberValue(m) <= NumberValue(best))
      && forall i :: 0 <= i < |rest| ==>
           if wantMax then NumberValue(rest[i]) <= NumberValue(m) else NumberValue(m) <= NumberValue(rest[i])
    decreases |rest|
  {
    if rest != [] {
      var better := if wantMax then NumberValue(best) < NumberValue(rest[0])
                    else NumberValue(rest[0]) < NumberValue(best);
      var next := if better then rest[0] else best;
      ExtremeFromNumbers(next, rest[1..], wantMax);
      assert forall i :: 1 <= i < |rest| ==> rest[i] == rest[1..][i - 1];
    }
  }

  /** `min` and `max` of a non-empty list of numbers: an element of the list
      that bounds every element from below (above). */
  lemma ExtremeOfNumbers(xs: seq<Value>, wantMax: bool)
    requires xs != [] && AllNumbers(xs)
    ensures Extreme(xs, wantMax).Ok?
    ensures var m := Extreme(xs, wantMax).value;
      && m in xs
      && IsNumber(m)
      && forall i :: 0 <= i < |xs| ==>
           if wantMax then NumberValue(xs[i]) <= NumberValue(m) else NumberValue(m) <= NumberValue(xs[i])
  {
    ExtremeFromNumbers(xs[0], xs[1..], wantMax);
    assert forall i :: 1 <= i < |xs| ==> xs[i] == xs[1..][i - 1];
  }

  /** Over numbers, `min(xs) <= max(xs)`. */
  lemma MinAtMostMax(xs: seq<Value>)
    requires xs != [] && AllNumbers(xs)
    ensures Extreme(xs, false).Ok? && Extreme(xs, true).Ok?
    ensures IsNumber(Extreme(xs, false).value) && IsNumber(Extreme(xs, true).value)
    ensures NumberValue(Extreme(xs, false).value) <= NumberValue(Extreme(xs, true).value)
  {
    ExtremeOfNumbers(xs, false);
    ExtremeOfNumbers(xs, true);
  }
}

=== FILE: py_number.dfy ===
/**
 Python's numeric conversions `int(x)` and `float(x)`: the string grammars
 they accept, truncation toward zero, and the rounding of an exact value to
 the nearest IEEE 754 binary64 double (ties to even).
 */
module PyNumber {
  import opened PyValue
  import opened PyText

  /** The character at `i` is not an underscore, or one between two digits. */
  predicate UnderscoreOkAt(s: string, i: int)
    requires 0 <= i < |s|
  {
    s[i] == '_' ==> 0 < i < |s| - 1 && IsDigit(s[i - 1]) && IsDigit(s[i + 1])
  }

  /** Every underscore of `s` sits between two digits. */
  predicate UnderscoresBetweenDigits(s: string) {
    forall i :: 0 <= i < |s| ==> UnderscoreOkAt(s, i)
  }

  /** `digit (["_"] digit)*`: the digit groups `int()` and `float()` accept. */
  predicate IsDigitPart(s: string) {
    && s != []
    && (forall i :: 0 <= i < |s| ==> IsDigit(s[i]) || s[i] == '_')
    && UnderscoresBetweenDigits(s)
  }

  function RemoveUnderscores(s: string): (r: string)
    ensures |r| <= |s|
    ensures (forall i :: 0 <= i < |s| ==> IsDigit(s[i]) || s[i] == '_') ==>
              (forall i :: 0 <= i < |r| ==> IsDigit(r[i]))
    ensures (forall i :: 0 <= i < |s| ==> s[i] != '_') ==> r == s
  {
    if s == [] then []
    else if s[0] == '_' then RemoveUnderscores(s[1..])
    else [s[0]] + RemoveUnderscores(s[1..])
  }

  /** Splits an optional leading `+` or `-` off `s`. */
  function SplitSign(s: string): (bool, string) {
    if s != [] && (s[0] == '+' || s[0] == '-') then (s[0] == '-', s[1..]) else (false, s)
  }

  /** `int(s)` for a string in base 10: surrounding whitespace, an optional
      sign and one digit part; `None` where Python raises `ValueError`.
      Only ASCII digits are read: text with other Unicode decimal digits,
      such as "\u0663", which Python reads as 3, also gives `None`. */
  function ParseIntLiteral(s: string): Option<int> {
    var (negative, body) := SplitSign(Strip(s));
    if IsDigitPart(body) then
      var n: int := DigitsValue(RemoveUnderscores(body));
      Some(if negative then -n else n)
    else None
  }

  lemma DigitsAreDigitPart(s: string)
    requires IsDigits(s)
    ensures IsDigitPart(s)
    ensures RemoveUnderscores(s) == s
  {
    assert forall i :: 0 <= i < |s| ==> UnderscoreOkAt(s, i);
  }

  /** `str(n)` has no surrounding whitespace and carries its sign in front
      of the digits of |n|. */
  lemma IntToStringShape(n: int)
    ensures Strip(IntToString(n)) == IntToString(n)
    ensures SplitSign(IntToString(n)) == (n < 0, NatToString(if n < 0 then -n else n))
  {
    var digits := NatToString(if n < 0 then -n else n);
    var s := IntToString(n);
    assert s == if n < 0 then "-" + digits else digits;
    DigitFacts(digits[0]);
    DigitFacts(digits[|digits| - 1]);
    assert s[|s| - 1] == digits[|digits| - 1];
    assert !IsSpace('-');
    assert !IsSpace(s[0]) && !IsSpace(s[|s| - 1]);
    StripNoop(s);
    if n < 0 {
      assert s[1..] == digits;
    }
  }

  /** A decimal digit is no blank and no sign. */
  lemma DigitFacts(c: char)
    requires IsDigit(c)
    ensures !IsSpace(c) && c != '+' && c != '-'
  {
  }

  /** Reading back `str(n)` with `int()` gives `n`. */
  lemma ParseIntLiteralRoundTrip(n: int)
    ensures ParseIntLiteral(IntToString(n)) == Some(n)
  {
    var m: nat := if n < 0 then -n else n;
    NatToStringRoundTrip(m);
    DigitsAreDigitPart(NatToString(m));
    IntToStringShape(n);
  }

  /** `int(f)` for a finite float: truncation toward zero. */
  function Trunc(r: real): (n: int)
    ensures n as real <= r < n as real + 1.0 || n as real - 1.0 < r <= n as real
    ensures -1.0 < r - n as real < 1.0
    ensures 0.0 <= r ==> 0 <= n
    ensures r <= 0.0 ==> n <= 0
  {
    if r >= 0.0 then r.Floor else -((-r).Floor)
  }

  /** `int(v)`, or `None` where Python raises. */
  function IntOf(v: Value): (r: Option<int>)
    ensures v.Int? ==> r == Some(v.i)
    ensures (v.Null? || v.List? || v.Dict?) ==> r == None
  {
    match v
    case Bool(b) => Some(if b then 1 else 0)
    case Int(i) => Some(i)
    case Float(x) => Some(Trunc(x))
    case Str(s) => ParseIntLiteral(s)
    case _ => None
  }

  // ---------------------------------------------------------------------
  // binary64 rounding

  /** A Python float: a finite double, an infinity or NaN. */
  datatype Double = Finite(r: real) | Infinity(negative: bool) | NaN

  function Pow2(n: nat): (r: nat)
    ensures r >= 1
  {
    if n == 0 then 1 else 2 * Pow2(n - 1)
  }

  function Pow10(n: nat): (r: nat)
    ensures r >= 1
  {
    if n == 0 then 1 else 10 * Pow10(n - 1)
  }

  /** 2^52 and 2^53, the bounds of the significand of a double. */
  const TwoTo52: nat := 0x10_0000_0000_0000
  const TwoTo53: nat := 0x20_0000_0000_0000

  lemma Pow2Of16()
    ensures Pow2(4) == 16 && Pow2(16) == 0x1_0000
  {
    assert Pow2(4) == 16;
    Pow2Add(4, 4);
    Pow2Add(8, 8);
  }

  lemma Pow2Of52()
    ensures Pow2(52) == TwoTo52
  {
    Pow2Of16();
    Pow2Add(16, 16);
    Pow2Add(32, 16);
    Pow2Add(48, 4);
  }

  lemma Pow2Of52And53()
    ensures Pow2(52) == TwoTo52 && Pow2(53) == TwoTo53
    ensures Scale(53) == TwoTo53 as real
  {
    Pow2Of52();
    assert Pow2(53) == 2 * Pow2(52);
  }

  lemma {:induction false} Pow2Mono(a: nat, b: nat)
    requires a < b
    ensures Pow2(a) < Pow2(b)
    decreases b
  {
    if a + 1 < b {
      Pow2Mono(a, b - 1);
    }
  }

  lemma {:induction false} Pow2Add(a: nat, b: nat)
    ensures Pow2(a) * Pow2(b) == Pow2(a + b)
    decreases b
  {
    if b > 0 {
      Pow2Add(a, b - 1);
    }
  }

  /** 2^e as a real, for any integer e. */
  function Scale(e: int): (r: real)
    ensures r > 0.0
  {
    if e >= 0 then Pow2(e) as real else 1.0 / (Pow2(-e) as real)
  }

  lemma ScaleNonPositive(e: int)
    requires e <= 0
    ensures Scale(e) * (Pow2(-e) as real) == 1.0
  {
  }

  lemma ScaleSucc(e: int)
    ensures Scale(e + 1) == 2.0 * Scale(e)
  {
    if e < -1 {
      assert Pow2(-e) == 2 * Pow2(-e - 1);
    }
  }

  lemma {:induction false} ScaleMono(a: int, b: int)
    requires a < b
    ensures Scale(a) < Scale(b)
    decreases b - a
  {
    ScaleSucc(b - 1);
    if a < b - 1 {
      ScaleMono(a, b - 1);
    }
  }

  /** The binade of a positive real: the e with 2^e <= q < 2^(e+1)
      (`FloorLog2Bounds`, `FloorLog2Unique`). */
  function FloorLog2(q: real): int
    requires q > 0.0
    decreases if q < 1.0 then 1 else 0, if q < 1.0 then (1.0 / q).Floor else q.Floor
  {
    if q >= 2.0 then FloorLog2(q / 2.0) + 1
    else if q < 1.0 then FloorLog2(q * 2.0) - 1
    else 0
  }

  lemma {:induction false} FloorLog2Bounds(q: real)
    requires q > 0.0
    ensures Scale(FloorLog2(q)) <= q < Scale(FloorLog2(q) + 1)
    decreases if q < 1.0 then 1 else 0, if q < 1.0 then (1.0 / q).Floor else q.Floor
  {
    if q >= 2.0 {
      FloorLog2Bounds(q / 2.0);
      var e := FloorLog2(q);
      ScaleSucc(e - 1);
      ScaleSucc(e);
    } else if q < 1.0 {
      FloorLog2Bounds(q * 2.0);
      var e := FloorLog2(q);
      ScaleSucc(e);
      ScaleSucc(e + 1);
    }
  }

  lemma FloorLog2Unique(q: real, e: int)
    requires q > 0.0
    requires Scale(e) <= q < Scale(e + 1)
    ensures FloorLog2(q) == e
  {
    FloorLog2Bounds(q);
    var f := FloorLog2(q);
    if f < e {
      ScaleMono(f + 1, e);
    } else if f > e {
      ScaleMono(e + 1, f);
    }
  }

  /** A double has a 53-bit significand, and its unit in the last place is
      2^u with MinUlpExp <= u <= MaxUlpExp: the subnormals have u = -1074,
      the largest binade [2^1023, 2^1024) has u = 971. */
  const Precision: nat := 53
  const MinUlpExp: int := -1074
  const MaxUlpExp: int := 971

  /** The ulp exponent of the doubles next to a positive real q. */
  function UlpExp(q: real): int
    requires q > 0.0
  {
    var e := FloorLog2(q) - (Precision - 1);
    if e < MinUlpExp then MinUlpExp else e
  }

  lemma UlpExpBounds(q: real)
    requires q > 0.0
    ensures UlpExp(q) >= MinUlpExp
    ensures UlpExp(q) == MinUlpExp || Scale(UlpExp(q) + 52) <= q < Scale(UlpExp(q) + 53)
  {
    FloorLog2Bounds(q);
  }

  /** Rounds a non-negative real to the nearest integer, ties to even. */
  function RoundHalfEven(m: real): (n: int)
    requires m >= 0.0
    ensures n >= 0
    ensures -0.5 <= n as real - m <= 0.5
    ensures n as real - m == 0.5 || m - n as real == 0.5 ==> n % 2 == 0
  {
    var f := m.Floor;
    var frac := m - f as real;
    if frac < 0.5 then f
    else if frac > 0.5 then f + 1
    else if f % 2 == 0 then f
    else f + 1
  }

  /** `a / b` for positive reals. */
  function Ratio(a: real, b: real): (r: real)
    requires a > 0.0 && b > 0.0
    ensures r > 0.0 && r * b == a
  {
    a / b
  }

  /** Rounds q to a multiple of 2^u, ties to even; the multiple that reaches
      2^1024 is beyond the largest double and is an infinity. */
  function RoundAt(q: real, u: int): Double
    requires q > 0.0
  {
    if u > MaxUlpExp then Infinity(false)
    else
      var n := RoundHalfEven(Ratio(q, Scale(u)));
      if u == MaxUlpExp && n == TwoTo53 then Infinity(false)
      else Finite(n as real * Scale(u))
  }

  /** The double nearest to a positive real; overflow gives infinity. */
  function RoundPositive(q: real): Double
    requires q > 0.0
  {
    RoundAt(q, UlpExp(q))
  }

  function Negate(d: Double): Double {
    match d
    case Finite(r) => Finite(-r)
    case Infinity(neg) => Infinity(!neg)
    case NaN => NaN
  }

  /** The double nearest to `q`; rounding is symmetric about zero. */
  function RoundToDouble(q: real): Double {
    if q == 0.0 then Finite(0.0)
    else if q > 0.0 then RoundPositive(q)
    else Negate(RoundPositive(-q))
  }

  lemma RoundHalfEvenOfInteger(k: int)
    requires k >= 0
    ensures RoundHalfEven(k as real) == k
  {
  }

  lemma RoundHalfEvenTie(f: nat)
    requires f % 2 == 0
    ensures RoundHalfEven(f as real + 0.5) == f
  {
    assert (f as real + 0.5).Floor == f;
  }

  lemma RatioOfMultiple(q: real, s: real, k: int)
    requires q > 0.0 && s > 0.0
    requires k as real * s == q
    ensures Ratio(q, s) == k as real
  {
    var r := Ratio(q, s);
    assert (r - k as real) * s == 0.0;
  }

  /** A real that is already a representable multiple of 2^u is unchanged. */
  lemma RoundAtMultiple(q: real, u: int, k: nat)
    requires q > 0.0
    requires u <= MaxUlpExp
    requires k as real * Scale(u) == q
    requires k < TwoTo53
    ensures RoundAt(q, u) == Finite(q)
  {
    RatioOfMultiple(q, Scale(u), k);
    RoundHalfEvenOfInteger(k);
  }

  lemma MulLess(a: nat, b: nat, c: nat)
    requires a < b && c > 0
    ensures a * c < b * c
  {
  }

  lemma IntegerTimesUnit(n: nat, p: nat, s: real)
    requires s * p as real == 1.0
    ensures (n * p) as real * s == n as real
  {
    calc {
      (n * p) as real * s;
      (n as real * p as real) * s;
      n as real * (p as real * s);
    }
  }

  lemma SmallIntegerScaled(n: nat, e: nat)
    requires e <= 52
    requires n as real < Scale(e + 1)
    ensures n * Pow2(52 - e) < TwoTo53
  {
    assert n < Pow2(e + 1);
    Pow2Of52And53();
    Pow2Add(e + 1, 52 - e);
    MulLess(n, Pow2(e + 1), Pow2(52 - e));
  }

  /** The binade of a positive integer up to 2^53. */
  lemma SmallIntegerExponent(n: nat, e: int)
    requires 0 < n <= TwoTo53
    requires Scale(e) <= n as real < Scale(e + 1)
    ensures 0 <= e <= 53
    ensures e == 53 ==> n == TwoTo53
    ensures e <= 52 ==> n * Pow2(52 - e) < TwoTo53
  {
    Pow2Of52And53();
    if e < 0 {
      ScaleMono(e + 1, 0);
    }
    if e > 53 {
      ScaleMono(53, e);
    }
    if 0 <= e <= 52 {
      SmallIntegerScaled(n, e);
    }
  }

  lemma UlpOfSmallInteger(n: nat)
    requires 0 < n <= TwoTo53
    ensures -52 <= UlpExp(n as real) <= 1
    ensures UlpExp(n as real) == 1 ==> n == TwoTo53
    ensures UlpExp(n as real) <= 0 ==> n * Pow2(-UlpExp(n as real)) < TwoTo53
  {
    FloorLog2Bounds(n as real);
    SmallIntegerExponent(n, FloorLog2(n as real));
  }

  lemma RoundTopInteger()
    ensures RoundAt(TwoTo53 as real, 1) == Finite(TwoTo53 as real)
  {
    Pow2Mono(52, 53);
    RoundAtMultiple(TwoTo53 as real, 1, TwoTo52);
  }

  lemma ScaledIntegerIsMultiple(n: nat, u: int)
    requires u <= 0
    ensures (n * Pow2(-u)) as real * Scale(u) == n as real
  {
    ScaleNonPositive(u);
    IntegerTimesUnit(n, Pow2(-u), Scale(u));
  }

  lemma RoundScaledInteger(n: nat, u: int)
    requires 0 < n
    requires -52 <= u <= 0
    requires n * Pow2(-u) < TwoTo53
    ensures RoundAt(n as real, u) == Finite(n as real)
  {
    ScaledIntegerIsMultiple(n, u);
    RoundAtMultiple(n as real, u, n * Pow2(-u));
  }

  /** Every integer of magnitude at most 2^53 is a double. */
  lemma RoundExactInteger(n: nat)
    requires 0 < n <= TwoTo53
    ensures RoundPositive(n as real) == Finite(n as real)
  {
    UlpOfSmallInteger(n);
    var u := UlpExp(n as real);
    if u == 1 {
      RoundTopInteger();
    } else {
      RoundScaledInteger(n, u);
    }
  }

  lemma RoundToDoubleExactInteger(i: int)
    requires -(TwoTo53 as int) <= i <= TwoTo53
    ensures RoundToDouble(i as real) == Finite(i as real)
  {
    if i > 0 {
      RoundExactInteger(i);
    } else if i < 0 {
      RoundExactInteger(-i);
    }
  }

  lemma RoundHalfwayAt()
    ensures RoundAt((TwoTo53 + 1) as real, 1) == Finite(TwoTo53 as real)
  {
    var q := (TwoTo53 + 1) as real;
    var m := TwoTo52;
    assert Ratio(q, Scale(1)) == m as real + 0.5;
    assert m % 2 == 0;
    RoundHalfEvenTie(m);
    assert RoundHalfEven(Ratio(q, Scale(1))) == m;
  }

  /** 2^53 + 1 is the first integer that is not a double: it lies halfway
      between 2^53 and 2^53 + 2 and rounds to the even neighbour 2^53. */
  lemma RoundLosesPrecisionAbove2To53()
    ensures RoundToDouble((TwoTo53 + 1) as real) == Finite(TwoTo53 as real)
  {
    var q := (TwoTo53 + 1) as real;
    Pow2Of52And53();
    ScaleSucc(53);
    FloorLog2Unique(q, 53);
    assert UlpExp(q) == 1;
    RoundHalfwayAt();
  }

  // ---------------------------------------------------------------------
  // float()

  /** Index of the first exponent marker `e` or `E`, or |s| if none. */
  function ExponentAt(s: string): (i: nat)
    ensures i <= |s|
    ensures forall j :: 0 <= j < i ==> s[j] != 'e' && s[j] != 'E'
    ensures i < |s| ==> s[i] == 'e' || s[i] == 'E'
  {
    if s == [] then 0
    else if s[0] == 'e' || s[0] == 'E' then 0
    else 1 + ExponentAt(s[1..])
  }

  /** Index of the first `.`, or |s| if none. */
  function PointAt(s: string): (i: nat)
    ensures i <= |s|
    ensures forall j :: 0 <= j < i ==> s[j] != '.'
    ensures i < |s| ==> s[i] == '.'
  {
    if s == [] then 0
    else if s[0] == '.' then 0
    else 1 + PointAt(s[1..])
  }

  predicate AllDigits(s: string) {
    forall i :: 0 <= i < |s| ==> IsDigit(s[i])
  }

  /** 10^e as a real. */
  function Scale10(e: int): (r: real)
    ensures r > 0.0
  {
    if e >= 0 then Pow10(e) as real else 1.0 / (Pow10(-e) as real)
  }

  /** The exact value of an unsigned decimal literal
      `(digits [. [digits]] | . digits) [(e|E) [sign] digits]`. */
  function DecimalValue(s: string): (r: Option<real>)
    ensures r.Some? ==> r.value >= 0.0
  {
    var e := ExponentAt(s);
    var mantissa := s[..e];
    var p := PointAt(mantissa);
    var whole := mantissa[..p];
    var fraction := if p < |mantissa| then mantissa[p + 1..] else [];
    var exponentOk := e == |s| || IsDigits(SplitSign(s[e + 1..]).1);
    if AllDigits(whole) && AllDigits(fraction) && (whole != [] || fraction != []) && exponentOk then
      var scale :=
        if e == |s| then 0
        else
          var (negative, digits) := SplitSign(s[e + 1..]);
          var magnitude: int := DigitsValue(digits);
          if negative then -magnitude else magnitude;
      Some(DigitsValue(whole + fraction) as real / (Pow10(|fraction|) as real) * Scale10(scale))
    else None
  }

  /** `float(s)` for a string: underscores only between digits, surrounding
      whitespace, an optional sign, then `inf`, `infinity` or `nan` in any
      case, or a decimal literal rounded to the nearest double; `None` where
      Python raises `ValueError`. As for `int`, only ASCII digits are read,
      so text with other Unicode decimal digits also gives `None`. */
  function ParseFloatLiteral(s: string): Option<Double> {
    if !UnderscoresBetweenDigits(s) then None
    else
      var (negative, body) := SplitSign(Strip(RemoveUnderscores(s)));
      var word := Lower(body);
      if word == "inf" || word == "infinity" then Some(Infinity(negative))
      else if word == "nan" then Some(NaN)
      else
        match DecimalValue(body)
        case None => None
        case Some(q) => Some(RoundToDouble(if negative then -q else q))
  }

  /** A decimal integer literal parses as a float to its own value. */
  lemma DecimalValueOfDigits(s: string)
    requires IsDigits(s)
    ensures DecimalValue(s) == Some(DigitsValue(s) as real)
  {
    assert s[..|s|] == s;
    assert s + [] == s;
  }

  /** A string without underscores satisfies the underscore rule and loses
      nothing to their removal. */
  lemma NoUnderscores(s: string)
    requires forall i :: 0 <= i < |s| ==> s[i] != '_'
    ensures UnderscoresBetweenDigits(s)
    ensures RemoveUnderscores(s) == s
  {
    assert forall i :: 0 <= i < |s| ==> UnderscoreOkAt(s, i);
  }

  /** Digits never spell `inf`, `infinity` or `nan`. */
  lemma DigitsAreNotWords(d: string)
    requires IsDigits(d)
    ensures var w := Lower(d); w != "inf" && w != "infinity" && w != "nan"
  {
    assert Lower(d)[0] == d[0];
    assert "inf"[0] == 'i' && "infinity"[0] == 'i' && "nan"[0] == 'n';
  }

  /** A literal that starts with neither a digit nor a point has no
      decimal value. */
  lemma DecimalValueOfNonDigitStart(s: string)
    requires s != [] && !IsDigit(s[0]) && s[0] != '.'
    ensures DecimalValue(s) == None
  {
    var e := ExponentAt(s);
    var p := PointAt(s[..e]);
    if e > 0 && p > 0 {
      assert s[..e][..p][0] == s[0];
    }
  }

  /** `float()` rejects a word of ASCII letters unless it spells `inf`,
      `infinity` or `nan`; it is enough that the word does not start with
      `i` or `n`. */
  lemma ParseFloatOfWord(s: string)
    requires s != [] && forall i :: 0 <= i < |s| ==> 'A' <= s[i] <= 'Z' || 'a' <= s[i] <= 'z'
    requires LowerChar(s[0]) != 'i' && LowerChar(s[0]) != 'n'
    ensures ParseFloatLiteral(s) == None
  {
    forall i | 0 <= i < |s|
      ensures s[i] != '_'
    {
      LetterFacts(s[i]);
    }
    NoUnderscores(s);
    LetterFacts(s[0]);
    LetterFacts(s[|s| - 1]);
    StripNoop(s);
    var body := Strip(RemoveUnderscores(s));
    assert body == s;
    assert SplitSign(body) == (false, s);
    WordIsNotSpecial(s);
    DecimalValueOfNonDigitStart(s);
  }

  /** An ASCII letter is no blank, sign, underscore, digit or point. */
  lemma LetterFacts(c: char)
    requires 'A' <= c <= 'Z' || 'a' <= c <= 'z'
    ensures !IsSpace(c) && c != '_' && c != '+' && c != '-' && !IsDigit(c) && c != '.'
  {
  }

  /** A word whose first letter is not `i` or `n` spells neither `inf`,
      `infinity` nor `nan`. */
  lemma WordIsNotSpecial(s: string)
    requires s != [] && LowerChar(s[0]) != 'i' && LowerChar(s[0]) != 'n'
    ensures var w := Lower(s); w != "inf" && w != "infinity" && w != "nan"
  {
    assert Lower(s)[0] == LowerChar(s[0]);
    assert "inf"[0] == 'i' && "infinity"[0] == 'i' && "nan"[0] == 'n';
  }

  /** A signed run of digits parses as a float to the rounding of its
      value. */
  lemma ParseFloatOfSignedDigits(s: string, negative: bool, d: string, q: real)
    requires UnderscoresBetweenDigits(s) && RemoveUnderscores(s) == s
    requires SplitSign(Strip(s)) == (negative, d)
    requires IsDigits(d)
    requires q == if negative then -(DigitsValue(d) as real) else DigitsValue(d) as real
    ensures ParseFloatLiteral(s) == Some(RoundToDouble(q))
  {
    DigitsAreNotWords(d);
    DecimalValueOfDigits(d);
  }

  /** `str(n)` has no underscores, no surrounding blanks, and splits into
      its sign and the digits of |n|. */
  lemma IntToStringParts(n: int)
    ensures var s := IntToString(n);
      && UnderscoresBetweenDigits(s) && RemoveUnderscores(s) == s
      && SplitSign(Strip(s)) == (n < 0, NatToString(if n < 0 then -n else n))
  {
    var m: nat := if n < 0 then -n else n;
    var digits := NatToString(m);
    var s := IntToString(n);
    assert forall i :: 0 <= i < |s| ==> s[i] != '_' by {
      assert forall i :: 0 <= i < |digits| ==> IsDigit(digits[i]);
    }
    NoUnderscores(s);
    IntToStringShape(n);
  }

  lemma SignedDigitsValue(n: int)
    ensures var m: nat := if n < 0 then -n else n;
      var d := NatToString(m);
      (if n < 0 then -(DigitsValue(d) as real) else DigitsValue(d) as real) == n as real
  {
    var m: nat := if n < 0 then -n else n;
    NatToStringRoundTrip(m);
  }

  /** `float(str(n))` is `n` for an integer within 2^53 of zero. */
  lemma ParseFloatOfIntString(n: int)
    requires -(TwoTo53 as int) <= n <= TwoTo53
    ensures ParseFloatLiteral(IntToString(n)) == Some(Finite(n as real))
  {
    var m: nat := if n < 0 then -n else n;
    IntToStringParts(n);
    SignedDigitsValue(n);
    ParseFloatOfSignedDigits(IntToString(n), n < 0, NatToString(m), n as real);
    RoundToDoubleExactInteger(n);
  }

  /** `float(v)`, or `None` where Python raises: `None`, lists and dicts are
      a `TypeError`, an integer beyond the double range an `OverflowError`. */
  function FloatOf(v: Value): (r: Option<Double>)
    ensures (v.Null? || v.List? || v.Dict?) ==> r == None
    ensures v.Float? ==> r == Some(Finite(v.r))
    ensures v.Int? && r.Some? ==> r.value.Finite?
  {
    match v
    case Bool(b) => Some(Finite(if b then 1.0 else 0.0))
    case Int(i) =>
      var d := RoundToDouble(i as real);
      if d.Infinity? then None else Some(d)
    case Float(x) => Some(Finite(x))
    case Str(s) => ParseFloatLiteral(s)
    case _ => None
  }

  /** `float(i)` is exact for an integer within 2^53 of zero. */
  lemma FloatOfSmallInt(i: int)
    requires -(TwoTo53 as int) <= i <= TwoTo53
    ensures FloatOf(Int(i)) == Some(Finite(i as real))
  {
    RoundToDoubleExactInteger(i);
  }
}

=== FILE: py_text.dfy ===
/**
 The string methods the converter calls: `strip`, `lower`, `replace`,
 `isdigit`, and `str()` of a value.
 */
module PyText {
  import opened PyValue

  /** `c.isspace()` for one character: the characters Python treats as
      whitespace. */
  predicate IsSpace(c: char) {
    var n := c as int;
    || 0x09 <= n <= 0x0D
    || 0x1C <= n <= 0x20
    || n == 0x85 || n == 0xA0 || n == 0x1680
    || 0x2000 <= n <= 0x200A
    || n == 0x2028 || n == 0x2029 || n == 0x202F || n == 0x205F || n == 0x3000
  }

  /** `s.lstrip()`. */
  function LStrip(s: string): (r: string)
    ensures |r| <= |s| && r == s[|s| - |r|..]
    ensures forall i :: 0 <= i < |s| - |r| ==> IsSpace(s[i])
    ensures r == [] || !IsSpace(r[0])
  {
    if s != [] && IsSpace(s[0]) then LStrip(s[1..]) else s
  }

  /** `s.rstrip()`. */
  function RStrip(s: string): (r: string)
    ensures |r| <= |s| && r == s[..|r|]
    ensures forall i :: |r| <= i < |s| ==> IsSpace(s[i])
    ensures r == [] || !IsSpace(r[|r| - 1])
  {
    if s != [] && IsSpace(s[|s| - 1]) then RStrip(s[..|s| - 1]) else s
  }

  /** `s.strip()`: the longest infix with no whitespace at either end;
      only whitespace is removed. */
  function Strip(s: string): (r: string)
    ensures r == [] || (!IsSpace(r[0]) && !IsSpace(r[|r| - 1]))
    ensures |s| - |LStrip(s)| + |r| <= |s|
    ensures r == s[|s| - |LStrip(s)|..|s| - |LStrip(s)| + |r|]
    ensures forall i :: 0 <= i < |s| - |LStrip(s)| ==> IsSpace(s[i])
    ensures forall i :: |s| - |LStrip(s)| + |r| <= i < |s| ==> IsSpace(s[i])
  {
    var l := LStrip(s);
    StripEnds(l);
    StripTail(s, l, RStrip(l));
    RStrip(l)
  }

  lemma StripEnds(l: string)
    requires l == [] || !IsSpace(l[0])
    ensures var r := RStrip(l); r == [] || (!IsSpace(r[0]) && !IsSpace(r[|r| - 1]))
  {
    var r := RStrip(l);
    if r != [] {
      assert r[0] == l[0];
    }
  }

  lemma StripTail(s: string, l: string, r: string)
    requires |l| <= |s| && |r| <= |l|
    requires l == s[|s| - |l|..]
    requires r == l[..|r|]
    requires forall i :: |r| <= i < |l| ==> IsSpace(l[i])
    ensures |s| - |l| + |r| <= |s|
    ensures r == s[|s| - |l|..|s| - |l| + |r|]
    ensures forall i :: |s| - |l| + |r| <= i < |s| ==> IsSpace(s[i])
  {
    var k := |s| - |l|;
    forall i | k + |r| <= i < |s|
      ensures IsSpace(s[i])
    {
      assert s[i] == l[i - k];
    }
  }

  /** `s.strip()` leaves a string that already has no surrounding
      whitespace unchanged; so `strip` is idempotent. */
  lemma StripNoop(s: string)
    requires s == [] || (!IsSpace(s[0]) && !IsSpace(s[|s| - 1]))
    ensures Strip(s) == s
  {
  }

  lemma StripIdempotent(s: string)
    ensures Strip(Strip(s)) == Strip(s)
  {
    StripNoop(Strip(s));
  }

  /** `c.lower()` for ASCII letters; other characters are left alone. */
  function LowerChar(c: char): char {
    if 'A' <= c <= 'Z' then (c as int + 32) as char else c
  }

  /** `s.lower()`. */
  function Lower(s: string): (r: string)
    ensures |r| == |s|
    ensures forall i :: 0 <= i < |s| ==> r[i] == LowerChar(s[i])
  {
    seq(|s|, i requires 0 <= i < |s| => LowerChar(s[i]))
  }

  /** `v.lower()`: only a string has the method. */
  function LowerMethod(v: Value): (r: Result<string>)
    ensures r.Ok? <==> v.Str?
    ensures v.Str? ==> r.value == Lower(v.s)
    ensures r.Raise? ==> r.exc == AttributeError
  {
    if v.Str? then Ok(Lower(v.s)) else Raise(AttributeError)
  }

  /** `v.strip()`: only a string has the method. */
  function StripMethod(v: Value): (r: Result<string>)
    ensures r.Ok? <==> v.Str?
    ensures v.Str? ==> r.value == Strip(v.s)
    ensures r.Raise? ==> r.exc == AttributeError
  {
    if v.Str? then Ok(Strip(v.s)) else Raise(AttributeError)
  }

  lemma LowerIdempotent(s: string)
    ensures Lower(Lower(s)) == Lower(s)
  {
  }

  /** Lower-casing turns no character into whitespace or out of it, so it
      commutes with `strip`. */
  lemma StripLower(s: string)
    ensures Strip(Lower(s)) == Lower(Strip(s))
  {
    assert forall c: char :: IsSpace(LowerChar(c)) <==> IsSpace(c);
    LStripLower(s);
    RStripLower(LStrip(s));
  }

  /** Trimming then lower-casing is idempotent. */
  lemma LowerStripIdempotent(x: string)
    ensures Lower(Strip(Lower(Strip(x)))) == Lower(Strip(x))
  {
    var s := Strip(x);
    StripLower(s);
    StripIdempotent(x);
    LowerIdempotent(s);
  }

  lemma {:induction false} LStripLower(s: string)
    ensures LStrip(Lower(s)) == Lower(LStrip(s))
    decreases |s|
  {
    assert forall c: char :: IsSpace(LowerChar(c)) <==> IsSpace(c);
    if s != [] && IsSpace(s[0]) {
      assert Lower(s)[1..] == Lower(s[1..]);
      LStripLower(s[1..]);
    }
  }

  lemma {:induction false} RStripLower(s: string)
    ensures RStrip(Lower(s)) == Lower(RStrip(s))
    decreases |s|
  {
    assert forall c: char :: IsSpace(LowerChar(c)) <==> IsSpace(c);
    if s != [] && IsSpace(s[|s| - 1]) {
      assert Lower(s)[..|s| - 1] == Lower(s[..|s| - 1]);
      RStripLower(s[..|s| - 1]);
    }
  }

  /** `s.startswith(p)`. */
  predicate StartsWith(s: string, p: string) {
    |p| <= |s| && s[..|p|] == p
  }

  /** `p` occurs in `s` at offset `k`. */
  predicate OccursAt(s: string, p: string, k: int) {
    0 <= k <= |s| - |p| && s[k..k + |p|] == p
  }

  /** `p in s` for strings. */
  predicate Contains(s: string, p: string) {
    exists k :: 0 <= k <= |s| - |p| && OccursAt(s, p, k)
  }

  /** `s.replace(pat, rep)`: every non-overlapping occurrence of `pat`,
      scanning left to right, is replaced by `rep`. */
  function Replace(s: string, pat: string, rep: string): (r: string)
    requires pat != []
    ensures !Contains(s, pat) ==> r == s
    decreases |s|
  {
    if |s| < |pat| then s
    else if s[..|pat|] == pat then
      assert OccursAt(s, pat, 0);
      rep + Replace(s[|pat|..], pat, rep)
    else
      var rest := Replace(s[1..], pat, rep);
      assert !Contains(s, pat) ==> !Contains(s[1..], pat) by {
        if Contains(s[1..], pat) {
          var k :| 0 <= k <= |s[1..]| - |pat| && OccursAt(s[1..], pat, k);
          assert s[1..][k..k + |pat|] == s[k + 1..k + 1 + |pat|];
          assert OccursAt(s, pat, k + 1);
        }
      }
      [s[0]] + rest
  }

  /** An occurrence at the start is replaced, and the scan resumes after
      it. */
  lemma ReplaceAtStart(s: string, pat: string, rep: string)
    requires pat != [] && |pat| <= |s| && s[..|pat|] == pat
    ensures Replace(s, pat, rep) == rep + Replace(s[|pat|..], pat, rep)
  {
  }

  /** Without an occurrence at the start, the first character is kept. */
  lemma ReplaceNotAtStart(s: string, pat: string, rep: string)
    requires pat != [] && |pat| <= |s| && s[..|pat|] != pat
    ensures Replace(s, pat, rep) == [s[0]] + Replace(s[1..], pat, rep)
  {
  }

  predicate IsDigit(c: char) {
    '0' <= c <= '9'
  }

  /** `s.isdigit()`: non-empty and made of decimal digits only. */
  predicate IsDigits(s: string) {
    s != [] && forall i :: 0 <= i < |s| ==> IsDigit(s[i])
  }

  function DigitOf(c: char): nat
    requires IsDigit(c)
  {
    c as int - '0' as int
  }

  /** The value of a string of decimal digits. */
  function DigitsValue(s: string): nat
    requires forall i :: 0 <= i < |s| ==> IsDigit(s[i])
  {
    if s == [] then 0
    else DigitsValue(s[..|s| - 1]) * 10 + DigitOf(s[|s| - 1])
  }

  /** `str(n)` for a natural number: its decimal digits, no leading zero. */
  function NatToString(n: nat): (r: string)
    ensures IsDigits(r)
    ensures r[0] == '0' ==> n == 0
  {
    if n < 10 then [('0' as int + n) as char]
    else NatToString(n / 10) + [('0' as int + n % 10) as char]
  }

  /** `str(n)` for an integer. */
  function IntToString(n: int): string {
    if n < 0 then "-" + NatToString(-n) else NatToString(n)
  }

  /** Reading back the digits `str` writes gives the number. */
  lemma {:induction false} NatToStringRoundTrip(n: nat)
    ensures DigitsValue(NatToString(n)) == n
  {
    if n >= 10 {
      var s := NatToString(n / 10) + [('0' as int + n % 10) as char];
      assert s[..|s| - 1] == NatToString(n / 10);
      NatToStringRoundTrip(n / 10);
    }
  }

  /** Python's `repr` of a float, list or dict, which the model takes as
      given. */
  type Repr = Value -> string

  /** `str(v)`: exact for `None`, booleans, integers and strings; floats and
      containers are rendered by `repr`. */
  function ToStr(v: Value, repr: Repr): string {
    match v
    case Null => "None"
    case Bool(b) => if b then "True" else "False"
    case Int(i) => IntToString(i)
    case Str(s) => s
    case _ => repr(v)
  }
}

=== FILE: py_value.dfy ===
/**
 Python values as `json.loads` produces them, and the built-in operations
 on them that the converter uses: truthiness, `dict.get`, subscripting and
 iteration. Every operation that raises in Python returns `Raise` here.
 */
module PyValue {

  /** The Python exceptions a conversion step can let escape. */
  datatype Exc = AttributeError | TypeError | KeyError | IndexError | ValueError | OverflowError

  /** A value, or the exception Python raises instead of returning one.
      Usable with `:-`. */
  datatype Result<+T> = Ok(value: T) | Raise(exc: Exc) {
    predicate IsFailure() { Raise? }

    function PropagateFailure<U>(): Result<U>
      requires Raise?
    {
      Raise(exc)
    }

    function Extract(): T
      requires Ok?
    {
      value
    }
  }

  datatype Option<+T> = None | Some(value: T)

  /** A decoded JSON value. A dict is the sequence of its items in insertion
      order; as in a Python dict its keys are distinct. A JSON number with a
      fraction or exponent is a `Float`, held as the exact real it denotes. */
  datatype Value =
    | Null
    | Bool(b: bool)
    | Int(i: int)
    | Float(r: real)
    | Str(s: string)
    | List(elems: seq<Value>)
    | Dict(items: Record)

  /** The items of a Python dict, in insertion order. */
  type Record = seq<(string, Value)>

  /** Python truthiness: `None`, `False`, zero and empty containers are false. */
  predicate Truthy(v: Value) {
    match v
    case Null => false
    case Bool(b) => b
    case Int(i) => i != 0
    case Float(r) => r != 0.0
    case Str(s) => s != []
    case List(xs) => xs != []
    case Dict(items) => items != []
  }

  /** Python `a or b` where evaluating `b` cannot raise. */
  function Or(a: Value, b: Value): Value {
    if Truthy(a) then a else b
  }

  /** `isinstance(v, int)`; `bool` is a subclass of `int`. */
  predicate IsInt(v: Value) {
    v.Int? || v.Bool?
  }

  /** The keys of a dict, in order. */
  function Keys(d: Record): (ks: seq<string>)
    ensures |ks| == |d|
    ensures forall i :: 0 <= i < |d| ==> ks[i] == d[i].0
  {
    if d == [] then [] else [d[0].0] + Keys(d[1..])
  }

  /** A dict's keys are `ks` when its pairs carry them position by position. */
  lemma KeysAre(d: Record, ks: seq<string>)
    requires |d| == |ks|
    requires forall i :: 0 <= i < |d| ==> d[i].0 == ks[i]
    ensures Keys(d) == ks
  {
  }

  /** `k in d`. */
  predicate HasKey(d: Record, k: string) {
    exists i :: 0 <= i < |d| && d[i].0 == k
  }

  /** The value stored under `k`, if any. */
  function Lookup(d: Record, k: string): (r: Option<Value>)
    ensures r.Some? <==> HasKey(d, k)
    ensures r.Some? ==> exists i :: 0 <= i < |d| && d[i] == (k, r.value)
  {
    if d == [] then None
    else if d[0].0 == k then Some(d[0].1)
    else
      var r := Lookup(d[1..], k);
      assert forall i :: 0 < i < |d| ==> d[i] == d[1..][i - 1];
      r
  }

  /** The first item with a key is the one `Lookup` finds. */
  lemma {:induction false} LookupAt(d: Record, i: int)
    requires 0 <= i < |d|
    requires forall j :: 0 <= j < i ==> d[j].0 != d[i].0
    ensures Lookup(d, d[i].0) == Some(d[i].1)
  {
    if i > 0 {
      assert forall j :: 0 <= j < i - 1 ==> d[1..][j] == d[j + 1];
      LookupAt(d[1..], i - 1);
    }
  }

  /** A list of keys without repetition, as the keys of a dict are. */
  predicate Distinct(ks: seq<string>) {
    forall i, j :: 0 <= j < i < |ks| ==> ks[j] != ks[i]
  }

  /** In a dict, `d[k]` for the i-th key is the i-th value. */
  lemma LookupIndex(d: Record, i: int)
    requires 0 <= i < |d|
    requires Distinct(Keys(d))
    ensures Lookup(d, d[i].0) == Some(d[i].1)
  {
    assert forall j :: 0 <= j < i ==> Keys(d)[j] == d[j].0;
    LookupAt(d, i);
  }

  /** `d.get(k, default)` on a dict. */
  function GetOr(d: Record, k: string, default: Value): Value {
    match Lookup(d, k)
    case Some(v) => v
    case None => default
  }

  /** `v.get(k, default)`: only a dict has a `get` method. */
  function Get(v: Value, k: string, default: Value): Result<Value> {
    if v.Dict? then Ok(GetOr(v.items, k, default)) else Raise(AttributeError)
  }

  /** The items of a value used as a dict; any other value has no `get`. */
  function AsDict(v: Value): (r: Result<Record>)
    ensures r.Ok? <==> v.Dict?
    ensures v.Dict? ==> r.value == v.items
    ensures r.Raise? ==> r.exc == AttributeError
  {
    if v.Dict? then Ok(v.items) else Raise(AttributeError)
  }

  /** `d[k] = v` on a dict: an existing key keeps its position. */
  function Assign(d: Record, k: string, v: Value): (r: Record)
    ensures Keys(r) == if HasKey(d, k) then Keys(d) else Keys(d) + [k]
  {
    if d == [] then [(k, v)]
    else if d[0].0 == k then
      KeysCons((k, v), d[1..]);
      KeysCons(d[0], d[1..]);
      assert d == [d[0]] + d[1..];
      [(k, v)] + d[1..]
    else
      var rest := Assign(d[1..], k, v);
      HasKeyTail(d, k);
      KeysCons(d[0], rest);
      KeysCons(d[0], d[1..]);
      assert d == [d[0]] + d[1..];
      [d[0]] + rest
  }

  /** The keys of a dict with a first entry in front. */
  lemma KeysCons(x: (string, Value), rest: Record)
    ensures Keys([x] + rest) == [x.0] + Keys(rest)
  {
    assert ([x] + rest)[1..] == rest;
  }

  /** Past a first entry with another key, `k` is in the dict exactly when
      it is in the rest. */
  lemma HasKeyTail(d: Record, k: string)
    requires d != [] && d[0].0 != k
    ensures HasKey(d, k) <==> HasKey(d[1..], k)
  {
    if HasKey(d, k) {
      var i :| 0 <= i < |d| && d[i].0 == k;
      assert d[1..][i - 1].0 == k;
    }
    if HasKey(d[1..], k) {
      var i :| 0 <= i < |d[1..]| && d[1..][i].0 == k;
      assert d[i + 1].0 == k;
    }
  }

  /** After `d[k] = v`, `d[k]` is `v` and every other key keeps its value. */
  lemma {:induction false} LookupAssign(d: Record, k: string, v: Value, k2: string)
    ensures Lookup(Assign(d, k, v), k2) == if k2 == k then Some(v) else Lookup(d, k2)
  {
    if d != [] && d[0].0 != k {
      LookupAssign(d[1..], k, v, k2);
    }
  }

  /** The value `x = c or x` leaves after running over the candidates `cs`
      from `init`: the last truthy candidate, or `init` when there is none. */
  function LastTruthy(cs: seq<Value>, init: Value): (r: Value)
    ensures r == init || r in cs
    ensures r != init ==> Truthy(r)
    ensures (forall i :: 0 <= i < |cs| ==> !Truthy(cs[i])) ==> r == init
  {
    if cs == [] then init
    else if Truthy(cs[|cs| - 1]) then cs[|cs| - 1]
    else LastTruthy(cs[..|cs| - 1], init)
  }

  /** Folding one more candidate in first is the same as starting from it. */
  lemma {:induction false} LastTruthyCons(c: Value, cs: seq<Value>, init: Value)
    ensures LastTruthy([c] + cs, init) == LastTruthy(cs, Or(c, init))
    decreases |cs|
  {
    if cs != [] {
      assert ([c] + cs)[..|cs|] == [c] + cs[..|cs| - 1];
      LastTruthyCons(c, cs[..|cs| - 1], init);
    } else {
      assert ([c] + cs)[..0] == [];
    }
  }

  /** `[f(x, i) for i, x in enumerate(xs)]`: the calls run in order, and the
      first one that raises ends the loop with its exception. */
  function MapIndexed<A, B>(xs: seq<A>, f: (A, nat) -> Result<B>): (r: Result<seq<B>>)
    ensures r.Ok? ==> |r.value| == |xs|
    ensures r.Ok? ==> forall i :: 0 <= i < |xs| ==> f(xs[i], i) == Ok(r.value[i])
    ensures r.Ok? <==> forall i :: 0 <= i < |xs| ==> f(xs[i], i).Ok?
    ensures r.Raise? ==> exists i :: 0 <= i < |xs| && f(xs[i], i) == Raise(r.exc)
                                   && forall j :: 0 <= j < i ==> f(xs[j], j).Ok?
  {
    if xs == [] then Ok([])
    else
      var n := |xs| - 1;
      var init := MapIndexed(xs[..n], f);
      var last := f(xs[n], n);
      assert forall i :: 0 <= i < n ==> xs[..n][i] == xs[i];
      if init.Raise? then Raise(init.exc)
      else if last.Raise? then Raise(last.exc)
      else Ok(init.value + [last.value])
  }

  /** `for x in v`: lists yield their elements, strings their characters,
      dicts their keys; anything else is not iterable. */
  function Iterate(v: Value): (r: Result<seq<Value>>)
    ensures v.List? ==> r == Ok(v.elems)
    ensures r.Ok? ==> (v.List? || v.Str? || v.Dict?)
    ensures v.Str? ==> r.Ok? && |r.value| == |v.s|
    ensures v.Dict? ==> r.Ok? && |r.value| == |v.items|
    ensures !(v.List? || v.Str? || v.Dict?) ==> r == Raise(TypeError)
  {
    match v
    case List(xs) => Ok(xs)
    case Str(s) => Ok(seq(|s|, i requires 0 <= i < |s| => Str([s[i]])))
    case Dict(items) => Ok(seq(|items|, i requires 0 <= i < |items| => Str(items[i].0)))
    case _ => Raise(TypeError)
  }

  /** `v[i]` with an integer index, negative indices counting from the end. */
  function Index(v: Value, i: int): (r: Result<Value>)
    ensures v.List? && 0 <= i < |v.elems| ==> r == Ok(v.elems[i])
    ensures v.List? && -|v.elems| <= i < 0 ==> r == Ok(v.elems[|v.elems| + i])
    ensures r.Ok? ==> v.List? || v.Str?
  {
    match v
    case List(xs) =>
      if 0 <= i < |xs| then Ok(xs[i])
      else if -|xs| <= i < 0 then Ok(xs[|xs| + i])
      else Raise(IndexError)
    case Str(s) =>
      if 0 <= i < |s| then Ok(Str([s[i]]))
      else if -|s| <= i < 0 then Ok(Str([s[|s| + i]]))
      else Raise(IndexError)
    // JSON keys are strings, so an integer key is never present
    case Dict(_) => Raise(KeyError)
    case _ => Raise(TypeError)
  }
}

=== FILE: raw_finding.dfy ===
/**
 The raw finding the live extractors hand to the normalizer: a 14-key dict
 whose status, remediation, commit hash and network are constants, and
 whose confidence is one of three fixed anchors.
 */
module RawFinding {
  import opened PyValue
  import opened PyText

  /** The confidence anchors 0.9, 0.5 and 0.2. */
  datatype Anchor = High | Medium | Low

  /** An anchor in tenths. */
  function Tenths(a: Anchor): nat {
    match a
    case High => 9
    case Medium => 5
    case Low => 2
  }

  /** The float an anchor stands for. */
  function AnchorValue(a: Anchor): Value {
    Float(Tenths(a) as real / 10.0)
  }

  /** `{"high": 0.9, "medium": 0.5, "low": 0.2}.get(word, 0.5)`. */
  function AnchorOf(word: string): (a: Anchor)
    ensures a == High <==> word == "high"
    ensures a == Low <==> word == "low"
    ensures a == Medium <==> word != "high" && word != "low"
  {
    if word == "high" then High else if word == "low" then Low else Medium
  }

  /** The anchors are the floats 0.9, 0.5 and 0.2, in decreasing order. */
  lemma AnchorValues()
    ensures AnchorValue(AnchorOf("high")) == Float(0.9)
    ensures AnchorValue(AnchorOf("medium")) == Float(0.5)
    ensures AnchorValue(AnchorOf("low")) == Float(0.2)
    ensures forall w :: w !in {"high", "medium", "low"} ==> AnchorValue(AnchorOf(w)) == Float(0.5)
    ensures Tenths(High) > Tenths(Medium) > Tenths(Low)
  {
  }

  /** The fields an extractor fills; the other four keys are constants. */
  datatype Finding = Finding(
    swcId: Value,
    title: Value,
    description: Value,
    severity: string,
    confidence: Anchor,
    contract: Value,
    func: Value,
    file: Value,
    lineStart: Value,
    lineEnd: Value)

  /** The keys of a raw finding, in the order the extractors build it. */
  const FindingKeys: seq<string> := [
    "swc_id", "title", "description", "severity", "confidence", "status", "contract",
    "function", "file", "line_start", "line_end", "remediation", "commit_hash", "network"
  ]

  /** The dict the extractors append. */
  function ToRecord(f: Finding): (d: Record)
    ensures Keys(d) == FindingKeys
    ensures |d| == |FindingKeys|
    ensures d[0].1 == f.swcId && d[1].1 == f.title && d[2].1 == f.description
    ensures d[3].1 == Str(f.severity) && d[4].1 == AnchorValue(f.confidence)
    ensures d[6].1 == f.contract && d[7].1 == f.func && d[8].1 == f.file
    ensures d[9].1 == f.lineStart && d[10].1 == f.lineEnd
  {
    var d := [
      ("swc_id", f.swcId),
      ("title", f.title),
      ("description", f.description),
      ("severity", Str(f.severity)),
      ("confidence", AnchorValue(f.confidence)),
      ("status", Str("unresolved")),
      ("contract", f.contract),
      ("function", f.func),
      ("file", f.file),
      ("line_start", f.lineStart),
      ("line_end", f.lineEnd),
      ("remediation", Str("")),
      ("commit_hash", Str("")),
      ("network", Str("ethereum"))
    ];
    KeysAre(d, FindingKeys);
    d
  }

  lemma FindingKeysDistinct()
    ensures Distinct(FindingKeys)
  {
  }

  /** Whatever the report says, a raw finding is unresolved, has no
      remediation or commit hash, and is on Ethereum. */
  lemma ConstantFields(f: Finding)
    ensures Lookup(ToRecord(f), "status") == Some(Str("unresolved"))
    ensures Lookup(ToRecord(f), "remediation") == Some(Str(""))
    ensures Lookup(ToRecord(f), "commit_hash") == Some(Str(""))
    ensures Lookup(ToRecord(f), "network") == Some(Str("ethereum"))
  {
    var d := ToRecord(f);
    FindingKeysDistinct();
    LookupIndex(d, 5);
    LookupIndex(d, 11);
    LookupIndex(d, 12);
    LookupIndex(d, 13);
  }

  /** The eight-field finding of the older extractors: one line, no
      confidence, and a file that may be missing. */
  datatype LegacyFinding = LegacyFinding(
    swcId: Value,
    title: Value,
    description: Value,
    severity: string,
    contract: Value,
    func: Value,
    file: Value,
    line: Value)

  /** The keys of a legacy finding, in the order the older extractors build it. */
  const LegacyKeys: seq<string> := ["swc_id", "title", "description", "severity", "contract", "function", "file", "line"]

  function LegacyRecord(f: LegacyFinding): (d: Record)
    ensures Keys(d) == LegacyKeys
    ensures d[0].1 == f.swcId && d[1].1 == f.title && d[2].1 == f.description && d[3].1 == Str(f.severity)
    ensures d[4].1 == f.contract && d[5].1 == f.func && d[6].1 == f.file && d[7].1 == f.line
  {
    var d := [
      ("swc_id", f.swcId),
      ("title", f.title),
      ("description", f.description),
      ("severity", Str(f.severity)),
      ("contract", f.contract),
      ("function", f.func),
      ("file", f.file),
      ("line", f.line)
    ];
    KeysAre(d, LegacyKeys);
    d
  }

  /** `int(x) if isinstance(x, int) or (isinstance(x, str) and x.isdigit())
      else None`: the legacy line of an integer, a boolean or a string of
      digits, and `None` for anything else. Digits are the ASCII ones:
      Python's `isdigit` also accepts digits such as "\u00B2", on which `int`
      then raises, and those give `None` here. */
  function LegacyLine(v: Value): (r: Value)
    ensures r == Null || r.Int?
    ensures r.Int? <==> IsInt(v) || (v.Str? && IsDigits(v.s))
    ensures r.Int? ==> r.i >= 0 || v == r
  {
    match v
    case Int(_) => v
    case Bool(b) => Int(if b then 1 else 0)
    case Str(s) => if IsDigits(s) then Int(DigitsValue(s)) else Null
    case _ => Null
  }

  /** A line written as its decimal digits reads back as itself; a negative
      line written out does not (its sign is not a digit). */
  lemma LegacyLineOfDigits(n: nat)
    ensures LegacyLine(Str(NatToString(n))) == Int(n)
    ensures LegacyLine(Int(n)) == Int(n)
    ensures n > 0 ==> LegacyLine(Str(IntToString(-(n as int)))) == Null
  {
    NatToStringRoundTrip(n);
    assert n > 0 ==> !IsDigit(IntToString(-(n as int))[0]);
  }
}

=== FILE: slither_extract.dfy ===
/**
 The live Slither extractor: one raw finding per detector of a parsed
 `slither --json` report. File, lines, contract and function come from the
 detector's first element only.
 */
module SlitherExtract {
  import opened PyValue
  import opened PyText
  import opened PyCompare
  import opened RawFinding

  /** What the first element contributes to a finding. */
  datatype Location = Location(file: Value, lineStart: Value, lineEnd: Value, contract: Value, func: Value)

  /** The location of a detector without elements. */
  const NoLocation: Location := Location(Str(""), Int(0), Int(0), Str(""), Str(""))

  /** `min(lines)` and `max(lines)` for a non-empty list, otherwise 0 and 0. */
  function LineRange(lines: Value): (r: Result<(Value, Value)>)
    ensures !(lines.List? && lines.elems != []) ==> r == Ok((Int(0), Int(0)))
    ensures lines.List? && lines.elems != [] && AllNumbers(lines.elems) ==>
      && r.Ok?
      && r.value.0 in lines.elems && r.value.1 in lines.elems
      && IsNumber(r.value.0) && IsNumber(r.value.1)
      && NumberValue(r.value.0) <= NumberValue(r.value.1)
      && forall i :: 0 <= i < |lines.elems| ==>
           NumberValue(r.value.0) <= NumberValue(lines.elems[i]) <= NumberValue(r.value.1)
  {
    if lines.List? && lines.elems != [] then
      ExtremeOfNumbersIfNumbers(lines.elems);
      var lo :- Extreme(lines.elems, false);
      var hi :- Extreme(lines.elems, true);
      Ok((lo, hi))
    else Ok((Int(0), Int(0)))
  }

  lemma ExtremeOfNumbersIfNumbers(xs: seq<Value>)
    requires xs != []
    ensures AllNumbers(xs) ==> Extreme(xs, false).Ok? && Extreme(xs, true).Ok?
    ensures AllNumbers(xs) ==>
      var lo := Extreme(xs, false).value;
      var hi := Extreme(xs, true).value;
      && lo in xs && hi in xs && IsNumber(lo) && IsNumber(hi)
      && NumberValue(lo) <= NumberValue(hi)
      && forall i :: 0 <= i < |xs| ==> NumberValue(lo) <= NumberValue(xs[i]) <= NumberValue(hi)
  {
    if AllNumbers(xs) {
      ExtremeOfNumbers(xs, false);
      ExtremeOfNumbers(xs, true);
    }
  }

  /** File, lines, parent contract and function name of the first element;
      the element, its source mapping, its type-specific fields and their
      parent must be dicts. */
  function ElementLocation(e0: Value): (r: Result<Location>)
    ensures r.Ok? ==> e0.Dict?
    ensures r.Ok? ==> r.value.func == Or(GetOr(e0.items, "name", Str("")), Str(""))
    ensures r.Ok? ==> var sm := GetOr(e0.items, "source_mapping", Dict([]));
      && sm.Dict?
      && r.value.file == Or(Or(GetOr(sm.items, "filename_short", Null), GetOr(sm.items, "filename_relative", Null)), Str(""))
      && LineRange(GetOr(sm.items, "lines", List([]))) == Ok((r.value.lineStart, r.value.lineEnd))
    ensures r.Ok? ==> var fields := GetOr(e0.items, "type_specific_fields", Dict([]));
      && fields.Dict?
      && GetOr(fields.items, "parent", Dict([])).Dict?
      && r.value.contract == GetOr(GetOr(fields.items, "parent", Dict([])).items, "name", Str(""))
    ensures !e0.Dict? ==> r == Raise(AttributeError)
  {
    var el :- AsDict(e0);
    var sm :- AsDict(GetOr(el, "source_mapping", Dict([])));
    var file := Or(Or(GetOr(sm, "filename_short", Null), GetOr(sm, "filename_relative", Null)), Str(""));
    var range :- LineRange(GetOr(sm, "lines", List([])));
    var typeFields :- AsDict(GetOr(el, "type_specific_fields", Dict([])));
    var parent :- AsDict(GetOr(typeFields, "parent", Dict([])));
    Ok(Location(file, range.0, range.1, GetOr(parent, "name", Str("")), Or(GetOr(el, "name", Str("")), Str(""))))
  }

  /** The location of a detector: from `elements[0]` when `elements` is
      truthy, otherwise the defaults. */
  function DetectorLocation(elements: Value): (r: Result<Location>)
    ensures !Truthy(elements) ==> r == Ok(NoLocation)
    ensures elements.List? && elements.elems != [] ==> r == ElementLocation(elements.elems[0])
    ensures elements.Dict? && elements.items != [] ==> r == Raise(KeyError)
  {
    if Truthy(elements) then
      var e0 :- Index(elements, 0);
      ElementLocation(e0)
    else Ok(NoLocation)
  }

  /** The raw finding built from the six fields a detector is read through. */
  function FindingOf(check: Value, altTitle: Value, description: Value, impact: Value,
                     confidence: Value, elements: Value): (r: Result<Finding>)
    ensures r.Ok? ==> r.value.swcId == Null
    ensures r.Ok? ==> confidence.Str? && r.value.confidence == AnchorOf(Lower(confidence.s))
    ensures !Or(impact, Str("")).Str? || !confidence.Str? ==> r == Raise(AttributeError)
    ensures r.Ok? <==> Or(impact, Str("")).Str? && confidence.Str? && DetectorLocation(elements).Ok?
    ensures r.Ok? ==> r.value.title == Or(Or(check, altTitle), Str("")) && r.value.description == Or(description, Str(""))
    ensures r.Ok? ==> r.value.severity == Lower(Or(impact, Str("")).s)
    ensures r.Ok? ==> var loc := DetectorLocation(elements).value;
      && r.value.file == loc.file && r.value.contract == loc.contract && r.value.func == loc.func
      && r.value.lineStart == loc.lineStart && r.value.lineEnd == loc.lineEnd
  {
    var severity :- LowerMethod(Or(impact, Str("")));
    var confidenceWord :- LowerMethod(confidence);
    var loc :- DetectorLocation(elements);
    Ok(Finding(
      Null,
      Or(Or(check, altTitle), Str("")),
      Or(description, Str("")),
      severity,
      AnchorOf(confidenceWord),
      loc.contract,
      loc.func,
      loc.file,
      loc.lineStart,
      loc.lineEnd))
  }

  /** The raw finding for one detector, which must be a dict. */
  function DetectorFinding(d: Value): (r: Result<Finding>)
    ensures !d.Dict? ==> r == Raise(AttributeError)
    ensures r.Ok? ==> r.value.swcId == Null
    ensures r.Ok? ==> r.value.description == Or(GetOr(d.items, "description", Null), Str(""))
    ensures r.Ok? ==> var loc := DetectorLocation(GetOr(d.items, "elements", List([])));
      && loc.Ok?
      && r.value.file == loc.value.file && r.value.contract == loc.value.contract && r.value.func == loc.value.func
      && r.value.lineStart == loc.value.lineStart && r.value.lineEnd == loc.value.lineEnd
  {
    var items :- AsDict(d);
    FindingOf(
      GetOr(items, "check", Null),
      GetOr(items, "title", Null),
      GetOr(items, "description", Null),
      GetOr(items, "impact", Null),
      GetOr(items, "confidence", Str("")),
      GetOr(items, "elements", List([])))
  }

  /** `parse_report` after `json.loads`: the detectors under
      `results.detectors`, each turned into a finding, in order. */
  function ParseReport(data: Value): (r: Result<seq<Finding>>)
    ensures !data.Dict? ==> r == Raise(AttributeError)
    ensures data.Dict? && !HasKey(data.items, "results") ==> r == Ok([])
  {
    var results :- Get(data, "results", Dict([]));
    var detectors :- Get(results, "detectors", List([]));
    var ds :- Iterate(detectors);
    MapIndexed(ds, (d, i) => DetectorFinding(d))
  }

  /** The detectors of a report, when it has a list of them. */
  function Detectors(data: Value): seq<Value> {
    if data.Dict? then
      var results := GetOr(data.items, "results", Dict([]));
      if results.Dict? then
        var detectors := GetOr(results.items, "detectors", List([]));
        if detectors.List? then detectors.elems else []
      else []
    else []
  }

  /** One finding per detector, in order; a report without `results` or
      without `detectors` has none. */
  lemma ParseReportPerDetector(data: Value)
    requires data.Dict?
    ensures !HasKey(data.items, "results") ==> ParseReport(data) == Ok([])
    ensures var results := GetOr(data.items, "results", Dict([]));
      results.Dict? && !HasKey(results.items, "detectors") ==> ParseReport(data) == Ok([])
    ensures var results := GetOr(data.items, "results", Dict([]));
      results.Dict? && GetOr(results.items, "detectors", List([])).List? ==>
        var ds := Detectors(data);
        var r := ParseReport(data);
        && (r.Ok? <==> forall i :: 0 <= i < |ds| ==> DetectorFinding(ds[i]).Ok?)
        && (r.Ok? ==> |r.value| == |ds| && forall i :: 0 <= i < |ds| ==> DetectorFinding(ds[i]) == Ok(r.value[i]))
  {
    var results := GetOr(data.items, "results", Dict([]));
    if results.Dict? {
      var detectors := GetOr(results.items, "detectors", List([]));
      if detectors.List? {
        assert Detectors(data) == detectors.elems;
        assert ParseReport(data) == MapIndexed(detectors.elems, (d, i) => DetectorFinding(d));
      }
    }
  }

  /** A detector's title is its `check`, else its `title`, else ""; its
      severity is its `impact` lower-cased ("" when absent); its confidence
      anchor is keyed off its lower-cased `confidence`. */
  lemma DetectorTexts(items: Record)
    requires DetectorFinding(Dict(items)).Ok?
    ensures var f := DetectorFinding(Dict(items)).value;
      && f.title == (if Truthy(GetOr(items, "check", Null)) then GetOr(items, "check", Null)
                     else if Truthy(GetOr(items, "title", Null)) then GetOr(items, "title", Null)
                     else Str(""))
      && f.description == (if Truthy(GetOr(items, "description", Null)) then GetOr(items, "description", Null) else Str(""))
      && (Truthy(GetOr(items, "impact", Null)) ==>
            GetOr(items, "impact", Null).Str? && f.severity == Lower(GetOr(items, "impact", Null).s))
      && (!Truthy(GetOr(items, "impact", Null)) ==> f.severity == "")
      && GetOr(items, "confidence", Str("")).Str?
      && f.confidence == AnchorOf(Lower(GetOr(items, "confidence", Str("")).s))
  {
  }

  /** Without elements a finding has no file, lines 0 to 0, and no contract
      or function. */
  lemma NoElementsDefaults(items: Record)
    requires DetectorFinding(Dict(items)).Ok?
    requires !Truthy(GetOr(items, "elements", List([])))
    ensures var f := DetectorFinding(Dict(items)).value;
      f.file == Str("") && f.lineStart == Int(0) && f.lineEnd == Int(0)
      && f.contract == Str("") && f.func == Str("")
  {
  }

  /** The `lines` entry of an element's source mapping. */
  function LinesOf(e0: Record): Value {
    var sm := GetOr(e0, "source_mapping", Dict([]));
    if sm.Dict? then GetOr(sm.items, "lines", List([])) else Null
  }

  /** `lo` and `hi` are the smallest and largest of `lines` when `lines` is
      a non-empty list of numbers, and 0 and 0 when it is empty or not a list. */
  predicate Spans(lo: Value, hi: Value, lines: Value) {
    && (lines.List? && lines.elems != [] && AllNumbers(lines.elems) ==>
          && IsNumber(lo) && IsNumber(hi)
          && lo in lines.elems && hi in lines.elems
          && NumberValue(lo) <= NumberValue(hi)
          && forall i :: 0 <= i < |lines.elems| ==>
               NumberValue(lo) <= NumberValue(lines.elems[i]) <= NumberValue(hi))
    && (!(lines.List? && lines.elems != []) ==> lo == Int(0) && hi == Int(0))
  }

  lemma ElementLines(e0: Record)
    requires ElementLocation(Dict(e0)).Ok?
    ensures var loc := ElementLocation(Dict(e0)).value;
      Spans(loc.lineStart, loc.lineEnd, LinesOf(e0))
  {
  }

  /** The finding's lines span the first element's `lines`: from the
      smallest to the largest of them, or 0 to 0 when there are none. */
  lemma FirstElementLines(items: Record, e0: Record, rest: seq<Value>)
    requires GetOr(items, "elements", List([])) == List([Dict(e0)] + rest)
    requires DetectorFinding(Dict(items)).Ok?
    ensures var f := DetectorFinding(Dict(items)).value;
      Spans(f.lineStart, f.lineEnd, LinesOf(e0))
  {
    var elements := List([Dict(e0)] + rest);
    assert DetectorLocation(elements) == ElementLocation(Dict(e0));
    ElementLines(e0);
  }

  /** The finding's file, contract and function are those of the first
      element: its short (else relative) file name, its parent's `name`,
      and its own `name`. */
  lemma FirstElementFields(items: Record, e0: Record, rest: seq<Value>)
    requires GetOr(items, "elements", List([])) == List([Dict(e0)] + rest)
    requires DetectorFinding(Dict(items)).Ok?
    ensures ElementLocation(Dict(e0)).Ok?
    ensures var f := DetectorFinding(Dict(items)).value;
      var sm := GetOr(e0, "source_mapping", Dict([]));
      var fields := GetOr(e0, "type_specific_fields", Dict([]));
      && sm.Dict? && fields.Dict? && GetOr(fields.items, "parent", Dict([])).Dict?
      && f.file == Or(Or(GetOr(sm.items, "filename_short", Null), GetOr(sm.items, "filename_relative", Null)), Str(""))
      && f.contract == GetOr(GetOr(fields.items, "parent", Dict([])).items, "name", Str(""))
      && f.func == Or(GetOr(e0, "name", Str("")), Str(""))
  {
    FirstElementLocation(Dict(e0), rest);
  }

  /** Only `elements[0]` matters: replacing the later elements changes
      nothing. */
  lemma OnlyFirstElement(items: Record, e0: Value, rest1: seq<Value>, rest2: seq<Value>)
    ensures DetectorFinding(Dict(Assign(items, "elements", List([e0] + rest1))))
         == DetectorFinding(Dict(Assign(items, "elements", List([e0] + rest2))))
  {
    var d1 := Assign(items, "elements", List([e0] + rest1));
    var d2 := Assign(items, "elements", List([e0] + rest2));
    SameOutsideElements(items, List([e0] + rest1), List([e0] + rest2));
    ElementsAfterAssign(items, List([e0] + rest1));
    ElementsAfterAssign(items, List([e0] + rest2));
    FirstElementLocation(e0, rest1);
    FirstElementLocation(e0, rest2);
    DetectorCongruence(d1, d2);
  }

  lemma ElementsAfterAssign(items: Record, v: Value)
    ensures GetOr(Assign(items, "elements", v), "elements", List([])) == v
  {
    LookupAssign(items, "elements", v, "elements");
  }

  lemma FirstElementLocation(e0: Value, rest: seq<Value>)
    ensures DetectorLocation(List([e0] + rest)) == ElementLocation(e0)
  {
    assert ([e0] + rest)[0] == e0;
  }

  /** A detector is read only through its five scalar fields and the
      location of its elements. */
  lemma DetectorCongruence(d1: Record, d2: Record)
    requires GetOr(d1, "check", Null) == GetOr(d2, "check", Null)
    requires GetOr(d1, "title", Null) == GetOr(d2, "title", Null)
    requires GetOr(d1, "description", Null) == GetOr(d2, "description", Null)
    requires GetOr(d1, "impact", Null) == GetOr(d2, "impact", Null)
    requires GetOr(d1, "confidence", Str("")) == GetOr(d2, "confidence", Str(""))
    requires DetectorLocation(GetOr(d1, "elements", List([]))) == DetectorLocation(GetOr(d2, "elements", List([])))
    ensures DetectorFinding(Dict(d1)) == DetectorFinding(Dict(d2))
  {
  }

  lemma SameOutsideElements(items: Record, e1: Value, e2: Value)
    ensures var d1 := Assign(items, "elements", e1);
      var d2 := Assign(items, "elements", e2);
      && GetOr(d1, "check", Null) == GetOr(d2, "check", Null)
      && GetOr(d1, "title", Null) == GetOr(d2, "title", Null)
      && GetOr(d1, "description", Null) == GetOr(d2, "description", Null)
      && GetOr(d1, "impact", Null) == GetOr(d2, "impact", Null)
      && GetOr(d1, "confidence", Str("")) == GetOr(d2, "confidence", Str(""))
  {
    LookupAssign(items, "elements", e1, "check");
    LookupAssign(items, "elements", e2, "check");
    LookupAssign(items, "elements", e1, "title");
    LookupAssign(items, "elements", e2, "title");
    LookupAssign(items, "elements", e1, "description");
    LookupAssign(items, "elements", e2, "description");
    LookupAssign(items, "elements", e1, "impact");
    LookupAssign(items, "elements", e2, "impact");
    LookupAssign(items, "elements", e1, "confidence");
    LookupAssign(items, "elements", e2, "confidence");
  }
}

=== FILE: slither_legacy.dfy ===
/**
 The older Slither extractor: every element of a detector is scanned, a
 later truthy file or line replacing an earlier one, and the function name
 is taken from the last element of type "function" that has one. No
 confidence, no contract, no SWC id.
 */
module SlitherLegacy {
  import opened PyValue
  import opened PyText
  import opened RawFinding

  /** An element's source mapping: `el.get("source_mapping") or {}`. */
  function SourceMap(el: Record): Value {
    Or(GetOr(el, "source_mapping", Null), Dict([]))
  }

  /** The file an element names: its absolute, else its relative file name. */
  function FileCandidate(el: Value): Value {
    if el.Dict? && SourceMap(el.items).Dict? then
      var sm := SourceMap(el.items).items;
      Or(GetOr(sm, "filename_absolute", Null), GetOr(sm, "filename_relative", Null))
    else Null
  }

  /** The line an element names. */
  function LineCandidate(el: Value): Value {
    if el.Dict? && SourceMap(el.items).Dict? then GetOr(SourceMap(el.items).items, "line", Null) else Null
  }

  /** The function name an element names: only an element of type
      "function" names one. */
  function FuncCandidate(el: Value): Value {
    if el.Dict? && GetOr(el.items, "type", Null) == Str("function") then GetOr(el.items, "name", Null) else Null
  }

  /** What the scan has found so far. */
  datatype Scan = Scan(file: Value, line: Value, func: Value)

  /** Elements the scan accepts: dicts whose source mapping, once defaulted
      to `{}`, is a dict. */
  predicate Scannable(el: Value) {
    el.Dict? && SourceMap(el.items).Dict?
  }

  predicate AllScannable(els: seq<Value>) {
    forall i :: 0 <= i < |els| ==> Scannable(els[i])
  }

  /** The loop over a detector's elements. */
  function ScanElements(els: seq<Value>, acc: Scan): (r: Result<Scan>)
    ensures r.Ok? <==> AllScannable(els)
    ensures r.Raise? ==> r.exc == AttributeError
    decreases |els|
  {
    if els == [] then Ok(acc)
    else
      assert AllScannable(els) <==> Scannable(els[0]) && AllScannable(els[1..]) by {
        assert forall i :: 1 <= i < |els| ==> els[i] == els[1..][i - 1];
      }
      var el :- AsDict(els[0]);
      var sm :- AsDict(SourceMap(el));
      var file := Or(Or(GetOr(sm, "filename_absolute", Null), GetOr(sm, "filename_relative", Null)), acc.file);
      var line := Or(GetOr(sm, "line", Null), acc.line);
      var func := if GetOr(el, "type", Null) == Str("function") then Or(GetOr(el, "name", Null), acc.func) else acc.func;
      ScanElements(els[1..], Scan(file, line, func))
  }

  function Candidates(els: seq<Value>, pick: Value -> Value): (cs: seq<Value>)
    ensures |cs| == |els|
    ensures forall i :: 0 <= i < |els| ==> cs[i] == pick(els[i])
  {
    seq(|els|, i requires 0 <= i < |els| => pick(els[i]))
  }

  /** One step of the scan folds the first element's candidates in. */
  lemma ScanStep(els: seq<Value>, acc: Scan)
    requires els != [] && Scannable(els[0])
    ensures ScanElements(els, acc) == ScanElements(els[1..], Scan(
      Or(FileCandidate(els[0]), acc.file),
      Or(LineCandidate(els[0]), acc.line),
      Or(FuncCandidate(els[0]), acc.func)))
  {
  }

  lemma CandidatesCons(els: seq<Value>, pick: Value -> Value)
    requires els != []
    ensures Candidates(els, pick) == [pick(els[0])] + Candidates(els[1..], pick)
  {
  }

  /** The scan keeps the last truthy file, the last truthy line and the last
      truthy name of a "function" element, each independently. */
  lemma {:induction false} ScanIsLastTruthy(els: seq<Value>, acc: Scan)
    requires AllScannable(els)
    ensures ScanElements(els, acc) == Ok(Scan(
      LastTruthy(Candidates(els, FileCandidate), acc.file),
      LastTruthy(Candidates(els, LineCandidate), acc.line),
      LastTruthy(Candidates(els, FuncCandidate), acc.func)))
    decreases |els|
  {
    if els != [] {
      var el := els[0];
      assert AllScannable(els[1..]) by {
        assert forall i :: 0 <= i < |els| - 1 ==> els[1..][i] == els[i + 1];
      }
      CandidatesCons(els, FileCandidate);
      CandidatesCons(els, LineCandidate);
      CandidatesCons(els, FuncCandidate);
      LastTruthyCons(FileCandidate(el), Candidates(els[1..], FileCandidate), acc.file);
      LastTruthyCons(LineCandidate(el), Candidates(els[1..], LineCandidate), acc.line);
      LastTruthyCons(FuncCandidate(el), Candidates(els[1..], FuncCandidate), acc.func);
      var next := Scan(Or(FileCandidate(el), acc.file), Or(LineCandidate(el), acc.line), Or(FuncCandidate(el), acc.func));
      ScanStep(els, acc);
      ScanIsLastTruthy(els[1..], next);
    }
  }

  /** The legacy finding for one detector, which must be a dict. */
  function DetectorFinding(d: Value): (r: Result<LegacyFinding>)
    ensures !d.Dict? ==> r == Raise(AttributeError)
    ensures r.Ok? ==> r.value.swcId == Null && r.value.contract == Str("")
    ensures r.Ok? ==> r.value.line == Null || r.value.line.Int?
    ensures r.Ok? ==> var impact := Or(GetOr(d.items, "impact", Null), Str(""));
      impact.Str? && r.value.severity == Lower(impact.s)
    ensures d.Dict? && !Or(GetOr(d.items, "impact", Null), Str("")).Str? ==> r == Raise(AttributeError)
    ensures r.Ok? ==>
      && r.value.title == Or(Or(GetOr(d.items, "check", Null), GetOr(d.items, "title", Null)), Str(""))
      && r.value.description == Or(GetOr(d.items, "description", Null), Str(""))
  {
    var items :- AsDict(d);
    var impact :- LowerMethod(Or(GetOr(items, "impact", Null), Str("")));
    var els :- Iterate(GetOr(items, "elements", List([])));
    var scan :- ScanElements(els, Scan(Null, Null, Str("")));
    Ok(LegacyFinding(
      Null,
      Or(Or(GetOr(items, "check", Null), GetOr(items, "title", Null)), Str("")),
      Or(GetOr(items, "description", Null), Str("")),
      impact,
      Str(""),
      scan.func,
      scan.file,
      LegacyLine(scan.line)))
  }

  /** `parse_report` after `json.loads`: the detectors under
      `results.detectors`, each turned into a legacy finding, in order. */
  function ParseReport(data: Value): (r: Result<seq<LegacyFinding>>)
    ensures !data.Dict? ==> r == Raise(AttributeError)
    ensures data.Dict? && !HasKey(data.items, "results") ==> r == Ok([])
  {
    var results :- Get(data, "results", Dict([]));
    var detectors :- Get(results, "detectors", List([]));
    var ds :- Iterate(detectors);
    MapIndexed(ds, (d, i) => DetectorFinding(d))
  }

  /** The detectors of a report that lists them. */
  lemma ParseReportPerDetector(data: Value, ds: seq<Value>)
    requires data.Dict?
    requires GetOr(data.items, "results", Dict([])).Dict?
    requires GetOr(GetOr(data.items, "results", Dict([])).items, "detectors", List([])) == List(ds)
    ensures var r := ParseReport(data);
      && (r.Ok? <==> forall i :: 0 <= i < |ds| ==> DetectorFinding(ds[i]).Ok?)
      && (r.Ok? ==> |r.value| == |ds|)
      && (r.Ok? ==> forall i :: 0 <= i < |ds| ==> DetectorFinding(ds[i]) == Ok(r.value[i]))
  {
  }

  /** A detector's file, line and function come from the last element that
      names one; without such an element they are `None`, `None` and "". */
  lemma LastElementWins(items: Record, els: seq<Value>)
    requires GetOr(items, "elements", List([])) == List(els)
    requires DetectorFinding(Dict(items)).Ok?
    ensures var f := DetectorFinding(Dict(items)).value;
      && f.file == LastTruthy(Candidates(els, FileCandidate), Null)
      && f.line == LegacyLine(LastTruthy(Candidates(els, LineCandidate), Null))
      && f.func == LastTruthy(Candidates(els, FuncCandidate), Str(""))
  {
    ScanIsLastTruthy(els, Scan(Null, Null, Str("")));
  }
}

=== FILE: standardizer.dfy ===
/**
 The older standardizer's per-value helpers: its severity map, which sends
 unknown words to `None`; `coerce_int`; the deterministic fallback finding
 id; and the loading of the remediation knowledge base, whose keys are
 normalized so that "SWC-107" and "107" meet.
 */
module Standardizer {
  import opened PyValue
  import opened PyText
  import opened PyNumber

  /** The severity synonyms and the canonical word each stands for. */
  const SevMap: map<string, string> := map[
    "crit" := "critical", "critical" := "critical",
    "high" := "high",
    "med" := "medium", "medium" := "medium",
    "low" := "low", "info" := "low", "informational" := "low"
  ]

  /** The four canonical severities. */
  const Canonical: set<string> := {"critical", "high", "medium", "low"}

  /** `norm_severity(s)`: `None` for a falsy value; otherwise `str(s)`
      trimmed and lower-cased, mapped through `SevMap`, and `None` when it
      is neither a synonym nor a canonical word. */
  function NormSeverity(v: Value, repr: Repr): (r: Option<string>)
    ensures !Truthy(v) ==> r == None
    ensures r.Some? ==> r.value in Canonical
    ensures Truthy(v) ==> (r.Some? <==> Lower(Strip(ToStr(v, repr))) in SevMap)
  {
    if !Truthy(v) then None
    else
      var s := Lower(Strip(ToStr(v, repr)));
      if s in SevMap then Some(SevMap[s])
      else if s in Canonical then Some(s)
      else None
  }

  /** A string that trims and lower-cases to a synonym normalizes to the
      synonym's canonical word. */
  lemma NormSeverityOfWord(w: string, k: string, repr: Repr)
    requires w != [] && Lower(Strip(w)) == k && k in SevMap
    ensures NormSeverity(Str(w), repr) == Some(SevMap[k])
  {
    assert Truthy(Str(w));
    assert ToStr(Str(w), repr) == w;
  }


  /** A word of lower-case ASCII letters. */
  predicate LowerLetters(w: string) {
    forall i :: 0 <= i < |w| ==> 'a' <= w[i] <= 'z'
  }

  lemma LowerStripOfLetters(w: string)
    requires LowerLetters(w)
    ensures Lower(Strip(w)) == w
  {
    if w != [] {
      assert !IsSpace(w[0]) && !IsSpace(w[|w| - 1]);
    }
    StripNoop(w);
  }

  /** The canonical words are lower-case words, each its own synonym. */
  lemma CanonicalWords()
    ensures forall w :: w in Canonical ==> w != [] && LowerLetters(w) && w in SevMap && SevMap[w] == w
  {
  }

  /** Each canonical word trims and lower-cases to itself and is its own
      synonym. */
  lemma CanonicalFixed(w: string)
    requires w in Canonical
    ensures w != [] && Lower(Strip(w)) == w && w in SevMap && SevMap[w] == w
  {
    CanonicalWords();
    LowerStripOfLetters(w);
  }

  /** A normalized severity normalizes to itself. */
  lemma NormSeverityIdempotent(v: Value, repr: Repr)
    requires NormSeverity(v, repr).Some?
    ensures NormSeverity(Str(NormSeverity(v, repr).value), repr) == NormSeverity(v, repr)
  {
    var w := NormSeverity(v, repr).value;
    CanonicalFixed(w);
    NormSeverityOfWord(w, w, repr);
  }

  /** `coerce_int(x)`: `None` for "" and `None`; otherwise `int(float(x))`,
      and `None` wherever that raises (unparseable text, a list or dict, an
      infinity or NaN); text is read with ASCII digits only. */
  function CoerceInt(x: Value): (r: Option<int>)
    ensures x == Str("") || x.Null? || x.List? || x.Dict? ==> r == None
    ensures x.Float? ==> r == Some(Trunc(x.r))
  {
    if x == Str("") || x == Null then None
    else
      match FloatOf(x)
      case Some(Finite(f)) => Some(Trunc(f))
      case _ => None
  }

  /** An integer within 2^53 of zero comes back unchanged. */
  lemma CoerceIntOfInt(i: int)
    requires -(TwoTo53 as int) <= i <= TwoTo53
    ensures CoerceInt(Int(i)) == Some(i)
  {
    FloatOfSmallInt(i);
    assert Trunc(i as real) == i;
  }

  /** Beyond 2^53 the detour through `float` loses precision: 2^53 + 1
      comes back as 2^53. */
  lemma CoerceIntRoundsLargeInt()
    ensures CoerceInt(Int(TwoTo53 + 1)) == Some(TwoTo53)
  {
    RoundLosesPrecisionAbove2To53();
  }

  /** `coerce_int(str(n))` is `n` for an integer within 2^53 of zero. */
  lemma CoerceIntOfIntString(n: int)
    requires -(TwoTo53 as int) <= n <= TwoTo53
    ensures CoerceInt(Str(IntToString(n))) == Some(n)
  {
    var s := IntToString(n);
    ParseFloatOfIntString(n);
    assert s != [];
    CoerceIntOfFloatText(s, n as real);
    assert Trunc(n as real) == n;
  }

  /** Text that `float()` reads as a finite number is truncated to an
      integer. */
  lemma CoerceIntOfFloatText(s: string, x: real)
    requires s != [] && ParseFloatLiteral(s) == Some(Finite(x))
    ensures CoerceInt(Str(s)) == Some(Trunc(x))
  {
    var v := Str(s);
    assert v != Str("") && v != Null;
    var f := FloatOf(v);
    assert f == Some(Finite(x));
    assert CoerceInt(v) == match f case Some(Finite(g)) => Some(Trunc(g)) case _ => None;
  }

  /** Truncation toward zero: "2.5" gives 2 and "-2.5" gives -2. */
  lemma CoerceIntTruncates()
    ensures CoerceInt(Float(2.5)) == Some(2)
    ensures CoerceInt(Float(-2.5)) == Some(-2)
  {
  }

  /** `coerce_float(x)`: `None` for "" and `None`, otherwise `float(x)`, and
      `None` wherever that raises; text is read with ASCII digits only. */
  function CoerceFloat(x: Value): (r: Option<Double>)
    ensures x == Str("") || x.Null? || x.List? || x.Dict? ==> r == None
    ensures x.Float? ==> r == Some(Finite(x.r))
  {
    if x == Str("") || x == Null then None else FloatOf(x)
  }

  /** An integer within 2^53 of zero reads as its own value. */
  lemma CoerceFloatOfInt(i: int)
    requires -(TwoTo53 as int) <= i <= TwoTo53
    ensures CoerceFloat(Int(i)) == Some(Finite(i as real))
  {
    FloatOfSmallInt(i);
  }

  /** `coerce_float(str(n))` is `n` for an integer within 2^53 of zero. */
  lemma CoerceFloatOfIntString(n: int)
    requires -(TwoTo53 as int) <= n <= TwoTo53
    ensures CoerceFloat(Str(IntToString(n))) == Some(Finite(n as real))
  {
    var s := IntToString(n);
    ParseFloatOfIntString(n);
    assert s != [];
    CoerceFloatOfText(s);
  }

  /** Non-empty text is read by `float()`. */
  lemma CoerceFloatOfText(s: string)
    requires s != []
    ensures CoerceFloat(Str(s)) == ParseFloatLiteral(s)
  {
    assert Str(s) != Str("");
  }

  /** A word of ASCII letters other than `inf`, `infinity` or `nan` has no
      numeric value. */
  lemma CoerceFloatOfWord(s: string)
    requires s != [] && forall i :: 0 <= i < |s| ==> 'A' <= s[i] <= 'Z' || 'a' <= s[i] <= 'z'
    requires LowerChar(s[0]) != 'i' && LowerChar(s[0]) != 'n'
    ensures CoerceFloat(Str(s)) == None
  {
    ParseFloatOfWord(s);
  }

  /** Slither's confidence words "High", "Medium" and "Low" have no numeric
      value, so a Slither finding's standardized confidence is `None`. */
  lemma CoerceFloatOfConfidenceWords(w: string)
    requires w == "High" || w == "Medium" || w == "Low"
    ensures CoerceFloat(Str(w)) == None
  {
    assert w[0] in "HML";
    assert forall i :: 0 <= i < |w| ==> w[i] in "HighMediumLow";
    CoerceFloatOfWord(w);
  }

  /** `fallback_finding_id(contract, swc_id, line_start)`:
      "contract::swc_id::line", a missing or zero line written as 0. */
  function FallbackFindingId(contract: string, swcId: string, lineStart: Option<int>): (id: string)
    ensures id == contract + "::" + swcId + "::" + IntToString(if lineStart.Some? then lineStart.value else 0)
  {
    contract + "::" + swcId + "::" + IntToString(match lineStart case Some(n) => n case None => 0)
  }

  /** The line can be read back from the end of the id: two ids of the same
      contract and SWC id are equal exactly when their lines are, a missing
      line counting as 0. */
  lemma FallbackFindingIdLine(contract: string, swcId: string, a: Option<int>, b: Option<int>)
    ensures var na := if a.Some? then a.value else 0;
      var nb := if b.Some? then b.value else 0;
      FallbackFindingId(contract, swcId, a) == FallbackFindingId(contract, swcId, b) <==> na == nb
  {
    var na := if a.Some? then a.value else 0;
    var nb := if b.Some? then b.value else 0;
    var prefix := contract + "::" + swcId + "::";
    assert FallbackFindingId(contract, swcId, a) == prefix + IntToString(na);
    assert FallbackFindingId(contract, swcId, b) == prefix + IntToString(nb);
    if prefix + IntToString(na) == prefix + IntToString(nb) {
      assert IntToString(na) == (prefix + IntToString(na))[|prefix|..];
      assert IntToString(nb) == (prefix + IntToString(nb))[|prefix|..];
      ParseIntLiteralRoundTrip(na);
      ParseIntLiteralRoundTrip(nb);
    }
  }

  /** The normalized knowledge-base key: "SWC-" removed, then trimmed. */
  function KbKey(k: string): (r: string)
    ensures r == [] || (!IsSpace(r[0]) && !IsSpace(r[|r| - 1]))
    ensures !Contains(k, "SWC-") ==> r == Strip(k)
  {
    Strip(Replace(k, "SWC-", ""))
  }

  lemma DigitsHaveNoPrefix(d: string)
    requires IsDigits(d)
    ensures !Contains(d, "SWC-")
  {
    forall k | 0 <= k <= |d| - 4
      ensures !OccursAt(d, "SWC-", k)
    {
      assert d[k..k + 4][0] == d[k];
      assert IsDigit(d[k]);
    }
  }

  /** "SWC-<digits>" and "<digits>" normalize to the same key, the digits. */
  lemma KbKeyOfNumber(d: string)
    requires IsDigits(d)
    ensures KbKey("SWC-" + d) == d
    ensures KbKey(d) == d
  {
    DigitsHaveNoPrefix(d);
    var s := "SWC-" + d;
    assert s[..4] == "SWC-";
    assert s[4..] == d;
    assert Replace(s, "SWC-", "") == Replace(d, "SWC-", "");
    assert !IsSpace(d[0]) && !IsSpace(d[|d| - 1]) by {
      assert IsDigit(d[0]) && IsDigit(d[|d| - 1]);
    }
    StripNoop(d);
  }

  /** The loop `out[key] = v` over the knowledge base's items. */
  function KbFold(items: Record, out: Record): Record
    decreases |items|
  {
    if items == [] then out
    else KbFold(items[1..], Assign(out, KbKey(items[0].0), items[0].1))
  }

  /** The value of the last item whose key normalizes to `key`. */
  function LastUnder(items: Record, key: string): Option<Value> {
    LastBy(items, key, KbKey)
  }

  /** The value of the last item whose key `norm` sends to `key`. */
  function LastBy(items: Record, key: string, norm: string -> string): Option<Value>
    decreases |items|
  {
    if items == [] then None
    else
      match LastBy(items[1..], key, norm)
      case Some(v) => Some(v)
      case None => if norm(items[0].0) == key then Some(items[0].1) else None
  }

  /** `LastUnder` finds the last item whose key normalizes to `key`, and
      nothing when no item's key does. */
  lemma LastUnderIsLast(items: Record, key: string)
    ensures var r := LastUnder(items, key);
      && (r.Some? ==> exists i :: 0 <= i < |items| && KbKey(items[i].0) == key && items[i].1 == r.value
                                  && forall j :: i < j < |items| ==> KbKey(items[j].0) != key)
      && (r.None? ==> forall i :: 0 <= i < |items| ==> KbKey(items[i].0) != key)
  {
    LastByIsLast(items, key, KbKey);
  }

  lemma {:induction false} LastByIsLast(items: Record, key: string, norm: string -> string)
    ensures var r := LastBy(items, key, norm);
      && (r.Some? ==> exists i :: 0 <= i < |items| && norm(items[i].0) == key && items[i].1 == r.value
                                  && forall j :: i < j < |items| ==> norm(items[j].0) != key)
      && (r.None? ==> forall i :: 0 <= i < |items| ==> norm(items[i].0) != key)
    decreases |items|
  {
    if items != [] {
      var tail := items[1..];
      LastByIsLast(tail, key, norm);
      match LastBy(tail, key, norm)
      case Some(v) =>
        var i :| 0 <= i < |tail| && norm(tail[i].0) == key && tail[i].1 == v
                 && forall j :: i < j < |tail| ==> norm(tail[j].0) != key;
        assert items[i + 1] == tail[i];
        assert forall j :: i + 1 < j < |items| ==> items[j] == tail[j - 1];
      case None =>
        assert forall j :: 0 < j < |items| ==> items[j] == tail[j - 1];
    }
  }

  /** After the loop, each normalized key holds the value of the last item
      that normalizes to it; keys no item normalizes to keep their value. */
  lemma {:induction false} KbFoldLookup(items: Record, out: Record, key: string)
    ensures Lookup(KbFold(items, out), key) ==
      match LastUnder(items, key)
      case Some(v) => Some(v)
      case None => Lookup(out, key)
    decreases |items|
  {
    if items != [] {
      var next := Assign(out, KbKey(items[0].0), items[0].1);
      KbFoldLookup(items[1..], next, key);
      LookupAssign(out, KbKey(items[0].0), items[0].1, key);
    }
  }

  /** `load_kb(path)` given the parsed file (`None` when it cannot be read
      or parsed): the normalized dict, or an empty one on any failure. */
  function LoadKb(data: Option<Value>): (kb: Record)
    ensures data.None? ==> kb == []
    ensures data.Some? && !data.value.Dict? ==> kb == []
  {
    if data.Some? && data.value.Dict? then KbFold(data.value.items, []) else []
  }

  /** A key of the loaded knowledge base holds the last entry filed under
      it, "SWC-107" and "107" counting as the same key. */
  lemma LoadKbLookup(items: Record, key: string)
    ensures Lookup(LoadKb(Some(Dict(items))), key) == LastUnder(items, key)
  {
    KbFoldLookup(items, [], key);
  }

  lemma LastUnderOne(k: string, v: Value, key: string)
    requires KbKey(k) == key
    ensures LastUnder([(k, v)], key) == Some(v)
  {
    var items: Record := [(k, v)];
    assert items[1..] == [];
    assert LastBy(items[1..], key, KbKey) == None;
    assert LastUnder(items, key) == LastBy(items, key, KbKey);
  }

  lemma LastUnderTwo(k1: string, v1: Value, k2: string, v2: Value, key: string)
    requires KbKey(k2) == key
    ensures LastUnder([(k1, v1), (k2, v2)], key) == Some(v2)
  {
    var items: Record := [(k1, v1), (k2, v2)];
    assert items[1..] == [(k2, v2)];
    LastUnderOne(k2, v2, key);
  }

  /** Entries "SWC-<n>" and then "<n>" both land under "<n>", the later
      one winning. */
  lemma KbPrefixedAndBareMeet(d: string, a: Value, b: Value)
    requires IsDigits(d)
    ensures Lookup(LoadKb(Some(Dict([("SWC-" + d, a), (d, b)]))), d) == Some(b)
    ensures Lookup(LoadKb(Some(Dict([("SWC-" + d, a)]))), d) == Some(a)
  {
    KbKeyOfNumber(d);
    LoadKbLookup([("SWC-" + d, a), (d, b)], d);
    LastUnderTwo("SWC-" + d, a, d, b, d);
    LoadKbLookup([("SWC-" + d, a)], d);
    LastUnderOne("SWC-" + d, a, d);
  }

  /** `kb_text(x)` for a row's SWC id: the entry's remediation, else its
      explanation, else `None`; an entry that is not a dict raises. */
  function KbText(kb: Record, swcId: Option<string>): (r: Result<Value>)
    ensures r.Ok? ==> r.value == Null || Truthy(r.value)
  {
    var k := Replace(match swcId case Some(s) => s case None => "", "SWC-", "");
    var info :- AsDict(GetOr(kb, k, Dict([])));
    Ok(Or(Or(GetOr(info, "remediation", Null), GetOr(info, "explanation", Null)), Null))
  }

  /** The remediation text comes from the entry's `remediation`, else its
      `explanation`; with no entry it is `None`. */
  lemma KbTextChoice(kb: Record, id: string, info: Record)
    requires !Contains(id, "SWC-")
    requires Lookup(kb, id) == Some(Dict(info))
    ensures var rem := GetOr(info, "remediation", Null);
      var expl := GetOr(info, "explanation", Null);
      KbText(kb, Some(id)) == Ok(if Truthy(rem) then rem else if Truthy(expl) then expl else Null)
  {
  }

  lemma KbTextMissing(kb: Record, id: string)
    requires !Contains(id, "SWC-")
    requires !HasKey(kb, id)
    ensures KbText(kb, Some(id)) == Ok(Null)
  {
  }
}

=== FILE: std_parse.dfy ===
/**
 The older standardizer's two report parsers. Each is a generator: it
 yields one minimal record per detector or issue, and an exception raised
 while building a record ends the iteration after the records already
 yielded. A record has seven keys: the SWC id with "SWC-" removed (or
 `None`), the trimmed title, and the raw severity, confidence, file and
 first and last line.
 */
module StdParse {
  import opened PyValue
  import opened PyText
  import opened PyNumber
  import opened Standardizer

  /** What a consumer of the generator sees: the records yielded, then
      either exhaustion (`None`) or the exception that ended it. */
  datatype Yielded = Yielded(records: seq<Record>, stop: Option<Exc>)

  /** Runs `build` over `xs` in order, stopping at the first exception. */
  function Drain(xs: seq<Value>, build: Value -> Result<Record>): (y: Yielded)
    ensures |y.records| <= |xs|
    ensures forall i :: 0 <= i < |y.records| ==> build(xs[i]) == Ok(y.records[i])
    ensures y.stop.None? ==> |y.records| == |xs|
    ensures y.stop.Some? ==> |y.records| < |xs| && build(xs[|y.records|]) == Raise(y.stop.value)
    decreases |xs|
  {
    if xs == [] then Yielded([], None)
    else
      match build(xs[0])
      case Raise(e) => Yielded([], Some(e))
      case Ok(r) =>
        var rest := Drain(xs[1..], build);
        assert forall i :: 0 < i < |xs| ==> xs[i] == xs[1..][i - 1];
        Yielded([r] + rest.records, rest.stop)
  }

  /** Draining the generator and building the list eagerly agree: the
      generator runs to the end exactly when no record raises, and then it
      yields the list; otherwise it stops with the list's exception. */
  lemma DrainIsList(xs: seq<Value>, build: Value -> Result<Record>, f: (Value, nat) -> Result<Record>)
    requires forall x, i :: f(x, i) == build(x)
    ensures var y := Drain(xs, build);
      var l := MapIndexed(xs, f);
      && (y.stop.None? <==> l.Ok?)
      && (l.Ok? ==> y.records == l.value)
      && (l.Raise? ==> y.stop == Some(l.exc))
  {
    var y := Drain(xs, build);
    var l := MapIndexed(xs, f);
    var k := |y.records|;
    if y.stop.Some? {
      assert !f(xs[k], k).Ok?;
      var j :| 0 <= j < |xs| && f(xs[j], j) == Raise(l.exc) && forall m :: 0 <= m < j ==> f(xs[m], m).Ok?;
      assert forall m :: 0 <= m < k ==> f(xs[m], m) == Ok(y.records[m]);
      assert j == k;
    } else {
      assert forall i :: 0 <= i < |xs| ==> f(xs[i], i) == Ok(y.records[i]);
      assert y.records == l.value;
    }
  }

  /** The generator that raises before its first record. */
  function Failed(e: Exc): Yielded {
    Yielded([], Some(e))
  }

  /** The SWC id a record carries: "SWC-" removed and trimmed, `None` when
      nothing is left. */
  function SwcIdValue(s: string): (v: Value)
    ensures v == Null <==> s == []
    ensures v != Null ==> v == Str(s)
  {
    if s != [] then Str(s) else Null
  }

  /** The SWC id of a tool field `v`: `str(v).replace("SWC-", "").strip()
      or None`. A missing field gives `None`, but a JSON `null` gives the
      text "None". */
  lemma SwcIdOfMissingOrNull(repr: Repr)
    ensures SwcIdValue(KbKey(ToStr(Str(""), repr))) == Null
    ensures SwcIdValue(KbKey(ToStr(Null, repr))) == Str("None")
  {
    assert KbKey("") == [];
    KbKeyOfNone();
  }

  lemma KbKeyOfNone()
    ensures KbKey("None") == "None"
  {
    var s := "None";
    assert s[..4] != "SWC-" by { assert s[0] != "SWC-"[0]; }
    ReplaceNotAtStart(s, "SWC-", "");
    assert Replace(s, "SWC-", "") == s;
    assert !IsSpace(s[0]) && !IsSpace(s[3]);
    StripNoop(s);
  }

  /** "SWC-<digits>" and "<digits>" give the same SWC id, the digits. */
  lemma SwcIdOfNumber(d: string, repr: Repr)
    requires IsDigits(d)
    ensures SwcIdValue(KbKey(ToStr(Str("SWC-" + d), repr))) == Str(d)
    ensures SwcIdValue(KbKey(ToStr(Str(d), repr))) == Str(d)
  {
    var p := "SWC-" + d;
    assert ToStr(Str(p), repr) == p;
    assert ToStr(Str(d), repr) == d;
    KbKeyOfNumber(d);
  }

  /** The keys of a parsed record, in order. */
  const RecordKeys: seq<string> := ["swc_id", "title", "severity", "confidence", "file", "line_start", "line_end"]

  function MinimalRecord(swcId: Value, title: string, severity: Value, confidence: Value,
                         file: Value, lineStart: Value, lineEnd: Value): (d: Record)
    ensures Keys(d) == RecordKeys && |d| == 7
    ensures d[0] == ("swc_id", swcId) && d[1] == ("title", Str(title)) && d[2] == ("severity", severity)
    ensures d[3] == ("confidence", confidence) && d[4] == ("file", file)
    ensures d[5] == ("line_start", lineStart) && d[6] == ("line_end", lineEnd)
  {
    [("swc_id", swcId), ("title", Str(title)), ("severity", severity), ("confidence", confidence),
     ("file", file), ("line_start", lineStart), ("line_end", lineEnd)]
  }

  /** File, first line and last line of a location. */
  datatype Spot = Spot(file: Value, lineStart: Value, lineEnd: Value)

  /** No location: all three `None`. */
  const NoSpot: Spot := Spot(Null, Null, Null)

  // ---------------------------------------------------------------------
  // Slither

  /** The spot of a detector's first element: its source mapping's
      absolute (else relative) file name and the first and last entries of
      its `lines`, `[None]` standing in for missing lines. */
  function ElementSpot(items: Record): (r: Result<Spot>)
    ensures !Truthy(GetOr(items, "elements", Null)) ==> r == Ok(NoSpot)
    ensures var els := GetOr(items, "elements", Null);
      els.Dict? && els.items != [] ==> r == Raise(KeyError)
  {
    var elements := GetOr(items, "elements", Null);
    if !Truthy(elements) then Ok(NoSpot)
    else
      var e0 :- Index(elements, 0);
      var el :- AsDict(e0);
      var sm :- AsDict(GetOr(el, "source_mapping", Dict([])));
      var file := Or(GetOr(sm, "filename_absolute", Null), GetOr(sm, "filename_relative", Null));
      var lines := GetOr(sm, "lines", List([Null]));
      var first :- Index(lines, 0);
      var last :- Index(lines, -1);
      Ok(Spot(file, first, last))
  }

  /** The spot read from a first element whose source mapping lists lines. */
  lemma ElementSpotOfLines(items: Record, el: Record, sm: Record, rest: seq<Value>, lines: seq<Value>)
    requires GetOr(items, "elements", Null) == List([Dict(el)] + rest)
    requires GetOr(el, "source_mapping", Dict([])) == Dict(sm)
    requires GetOr(sm, "lines", List([Null])) == List(lines)
    ensures lines == [] ==> ElementSpot(items) == Raise(IndexError)
    ensures lines != [] ==> ElementSpot(items) == Ok(Spot(
      Or(GetOr(sm, "filename_absolute", Null), GetOr(sm, "filename_relative", Null)),
      lines[0], lines[|lines| - 1]))
  {
    assert ([Dict(el)] + rest)[0] == Dict(el);
  }

  /** A detector's title before trimming: `description`, else `check`,
      else `name`, else "". */
  function DetectorTitle(items: Record): Value {
    Or(Or(Or(GetOr(items, "description", Null), GetOr(items, "check", Null)), GetOr(items, "name", Null)), Str(""))
  }

  /** `parse_slither`'s record for one detector: the SWC id from `check`,
      the trimmed title, `impact` else `severity`, the raw confidence, and
      the file and lines of the first element. */
  function DetectorRecord(f: Value, repr: Repr): (r: Result<Record>)
    ensures !f.Dict? ==> r == Raise(AttributeError)
    ensures f.Dict? ==> (r.Ok? <==> ElementSpot(f.items).Ok? && DetectorTitle(f.items).Str?)
    ensures r.Ok? ==> Keys(r.value) == RecordKeys
    ensures r.Ok? ==> r.value[0].1 == SwcIdValue(KbKey(ToStr(GetOr(f.items, "check", Str("")), repr)))
    ensures r.Ok? ==> r.value[1].1 == Str(Strip(DetectorTitle(f.items).s))
    ensures r.Ok? ==> r.value[2].1 == Or(GetOr(f.items, "impact", Null), GetOr(f.items, "severity", Null))
    ensures r.Ok? ==> r.value[3].1 == GetOr(f.items, "confidence", Null)
    ensures r.Ok? ==> var spot := ElementSpot(f.items).value;
      r.value[4].1 == spot.file && r.value[5].1 == spot.lineStart && r.value[6].1 == spot.lineEnd
  {
    var items :- AsDict(f);
    var swc := KbKey(ToStr(GetOr(items, "check", Str("")), repr));
    var sev := Or(GetOr(items, "impact", Null), GetOr(items, "severity", Null));
    var title := DetectorTitle(items);
    var spot :- ElementSpot(items);
    var t :- StripMethod(title);
    Ok(MinimalRecord(SwcIdValue(swc), t, sev, GetOr(items, "confidence", Null),
                     spot.file, spot.lineStart, spot.lineEnd))
  }

  /** A detector's record spans its first element's `lines`, first entry
      to last, and names that element's absolute (else relative) file. */
  lemma DetectorRecordLines(items: Record, el: Record, sm: Record, rest: seq<Value>, lines: seq<Value>, repr: Repr)
    requires GetOr(items, "elements", Null) == List([Dict(el)] + rest)
    requires GetOr(el, "source_mapping", Dict([])) == Dict(sm)
    requires GetOr(sm, "lines", List([Null])) == List(lines)
    requires DetectorRecord(Dict(items), repr).Ok?
    ensures lines != []
    ensures var d := DetectorRecord(Dict(items), repr).value;
      && d[4] == ("file", Or(GetOr(sm, "filename_absolute", Null), GetOr(sm, "filename_relative", Null)))
      && d[5] == ("line_start", lines[0])
      && d[6] == ("line_end", lines[|lines| - 1])
  {
    ElementSpotOfLines(items, el, sm, rest, lines);
  }

  /** `parse_slither(slither_json)`: one record per entry of
      `results.detectors`, in order. */
  function ParseSlither(data: Value, repr: Repr): (y: Yielded)
    ensures !data.Dict? ==> y == Failed(AttributeError)
    ensures data.Dict? && !HasKey(data.items, "results") ==> y == Yielded([], None)
  {
    match Get(data, "results", Dict([]))
    case Raise(e) => Failed(e)
    case Ok(results) =>
      match Get(results, "detectors", List([]))
      case Raise(e) => Failed(e)
      case Ok(detectors) =>
        match Iterate(detectors)
        case Raise(e) => Failed(e)
        case Ok(ds) => Drain(ds, f => DetectorRecord(f, repr))
  }

  /** The detectors of a report that lists them yield their records in
      order, up to the first detector that raises. */
  lemma ParseSlitherPerDetector(data: Value, ds: seq<Value>, repr: Repr)
    requires data.Dict? && GetOr(data.items, "results", Dict([])).Dict?
    requires GetOr(GetOr(data.items, "results", Dict([])).items, "detectors", List([])) == List(ds)
    ensures ParseSlither(data, repr) == Drain(ds, f => DetectorRecord(f, repr))
  {
  }

  // ---------------------------------------------------------------------
  // Mythril

  /** The locations of an issue: `locations`, else the `locations` of its
      `extra`, which is read only when needed and must then be a dict. */
  function IssueLocations(items: Record): (r: Result<Value>)
    ensures Truthy(GetOr(items, "locations", List([]))) ==> r == Ok(GetOr(items, "locations", List([])))
    ensures r.Raise? ==> r.exc == AttributeError
    ensures !Truthy(GetOr(items, "locations", List([]))) ==> (r.Ok? <==> GetOr(items, "extra", Dict([])).Dict?)
    ensures !Truthy(GetOr(items, "locations", List([]))) && r.Ok? ==>
      r.value == GetOr(GetOr(items, "extra", Dict([])).items, "locations", List([]))
  {
    var first := GetOr(items, "locations", List([]));
    if Truthy(first) then Ok(first)
    else
      var extra :- AsDict(GetOr(items, "extra", Dict([])));
      Ok(GetOr(extra, "locations", List([])))
  }

  /** `(sm or {}).get("filename") or sm` for the first location's
      `sourceMap`: a truthy source map that is not a dict has no `get`. */
  function SourceMapFile(sm: Value): (r: Result<Value>)
    ensures r.Raise? <==> Truthy(sm) && !sm.Dict?
    ensures r.Raise? ==> r.exc == AttributeError
  {
    var inner :- AsDict(Or(sm, Dict([])));
    Ok(Or(GetOr(inner, "filename", Null), sm))
  }

  /** The source map as it was evidently meant to be read: a dict names its
      file under `filename`, anything else is the file itself. */
  function SourceMapFileFixed(sm: Value): (r: Value)
    ensures sm.Dict? && Truthy(GetOr(sm.items, "filename", Null)) ==> r == GetOr(sm.items, "filename", Null)
    ensures !sm.Dict? ==> r == sm
  {
    if sm.Dict? then Or(GetOr(sm.items, "filename", Null), sm) else sm
  }

  /** The source map's file, read as written or, when `fixed`, as
      intended. */
  function ReadSourceMap(sm: Value, fixed: bool): (r: Result<Value>)
    ensures fixed ==> r == Ok(SourceMapFileFixed(sm))
    ensures !fixed ==> r == SourceMapFile(sm)
    ensures r.Raise? <==> !fixed && Truthy(sm) && !sm.Dict?
    ensures sm.Dict? ==> r == Ok(Or(GetOr(sm.items, "filename", Null), sm))
    ensures !Truthy(sm) ==> r == Ok(sm)
  {
    if fixed then Ok(SourceMapFileFixed(sm)) else SourceMapFile(sm)
  }

  /** Wherever the source map reads without raising, the correction reads
      the same file. */
  lemma SourceMapFixedAgrees(sm: Value)
    requires SourceMapFile(sm).Ok?
    ensures SourceMapFileFixed(sm) == SourceMapFile(sm).value
  {
  }

  /** The spot of an issue's first location: `filename`, else the source
      map's file; `line`, else `None`; `line_end`, else the first line. */
  function LocationSpot(items: Record, fixed: bool): (r: Result<Spot>)
    ensures IssueLocations(items).Ok? && !Truthy(IssueLocations(items).value) ==> r == Ok(NoSpot)
    ensures r.Ok? ==> Truthy(r.value.lineStart) || r.value.lineStart == Null
    ensures r.Ok? && r.value.lineEnd != r.value.lineStart ==> Truthy(r.value.lineEnd)
    ensures r.Ok? ==> IssueLocations(items).Ok?
    ensures r.Ok? && Truthy(IssueLocations(items).value) ==>
      var l0 := Index(IssueLocations(items).value, 0);
      && l0.Ok? && l0.value.Dict?
      && ReadSourceMap(GetOr(l0.value.items, "sourceMap", Null), fixed).Ok?
      && r.value.file == Or(GetOr(l0.value.items, "filename", Null),
                            ReadSourceMap(GetOr(l0.value.items, "sourceMap", Null), fixed).value)
      && r.value.lineStart == Or(GetOr(l0.value.items, "line", Null), Null)
      && r.value.lineEnd == Or(GetOr(l0.value.items, "line_end", Null), r.value.lineStart)
  {
    var locs :- IssueLocations(items);
    if !Truthy(locs) then Ok(NoSpot)
    else
      var l0 :- Index(locs, 0);
      var loc :- AsDict(l0);
      var srcmap :- ReadSourceMap(GetOr(loc, "sourceMap", Null), fixed);
      var file := Or(GetOr(loc, "filename", Null), srcmap);
      var first := Or(GetOr(loc, "line", Null), Null);
      Ok(Spot(file, first, Or(GetOr(loc, "line_end", Null), first)))
  }

  /** An issue's title before trimming: `title`, else `description`, else
      "". */
  function IssueTitle(items: Record): Value {
    Or(Or(GetOr(items, "title", Null), GetOr(items, "description", Null)), Str(""))
  }

  /** `parse_mythril`'s record for one issue, the source map read as
      written or, when `fixed`, as intended. */
  function IssueRecordWith(issue: Value, repr: Repr, fixed: bool): (r: Result<Record>)
    ensures !issue.Dict? ==> r == Raise(AttributeError)
    ensures issue.Dict? ==> (r.Ok? <==> LocationSpot(issue.items, fixed).Ok? && IssueTitle(issue.items).Str?)
    ensures r.Ok? ==> Keys(r.value) == RecordKeys
    ensures r.Ok? ==> r.value[1].1 == Str(Strip(IssueTitle(issue.items).s))
    ensures r.Ok? ==> r.value[2].1 == GetOr(issue.items, "severity", Null)
    ensures r.Ok? ==> r.value[3].1 == GetOr(issue.items, "confidence", Null)
    ensures r.Ok? ==> var spot := LocationSpot(issue.items, fixed).value;
      r.value[4].1 == spot.file && r.value[5].1 == spot.lineStart && r.value[6].1 == spot.lineEnd
    ensures r.Ok? ==> r.value[0].1 == SwcIdValue(KbKey(ToStr(GetOr(issue.items, "swc-id", Str("")), repr)))
  {
    if !issue.Dict? then Raise(AttributeError)
    else
      var items := issue.items;
      var swc := KbKey(ToStr(GetOr(items, "swc-id", Str("")), repr));
      var spot := LocationSpot(items, fixed);
      if spot.Raise? then Raise(spot.exc)
      else if !IssueTitle(items).Str? then Raise(AttributeError)
      else
        Ok(MinimalRecord(SwcIdValue(swc), Strip(IssueTitle(items).s), GetOr(items, "severity", Null),
                         GetOr(items, "confidence", Null), spot.value.file, spot.value.lineStart, spot.value.lineEnd))
  }

  /** An issue's record runs from its first location's `line` (`None` when
      falsy) to its `line_end`, which falls back to that first line. */
  lemma IssueRecordLines(items: Record, loc: Record, rest: seq<Value>, repr: Repr, fixed: bool)
    requires GetOr(items, "locations", List([])) == List([Dict(loc)] + rest)
    requires IssueRecordWith(Dict(items), repr, fixed).Ok?
    ensures var d := IssueRecordWith(Dict(items), repr, fixed).value;
      && d[5] == ("line_start", Or(GetOr(loc, "line", Null), Null))
      && (Truthy(GetOr(loc, "line_end", Null)) ==> d[6] == ("line_end", GetOr(loc, "line_end", Null)))
      && (!Truthy(GetOr(loc, "line_end", Null)) ==> d[6] == ("line_end", d[5].1))
  {
    assert ([Dict(loc)] + rest)[0] == Dict(loc);
    assert IssueLocations(items) == Ok(List([Dict(loc)] + rest));
  }

  /** The record as the code builds it. */
  function IssueRecord(issue: Value, repr: Repr): Result<Record> {
    IssueRecordWith(issue, repr, false)
  }

  /** The record with the source map read as evidently intended. */
  function IssueRecordFixed(issue: Value, repr: Repr): Result<Record> {
    IssueRecordWith(issue, repr, true)
  }

  /** `parse_mythril(myth_json)`: one record per issue, in order. */
  function ParseMythril(data: Value, repr: Repr): (y: Yielded)
    ensures !data.Dict? ==> y == Failed(AttributeError)
    ensures data.Dict? && !HasKey(data.items, "issues") ==> y == Yielded([], None)
  {
    match Get(data, "issues", List([]))
    case Raise(e) => Failed(e)
    case Ok(issues) =>
      match Iterate(issues)
      case Raise(e) => Failed(e)
      case Ok(its) => Drain(its, it => IssueRecord(it, repr))
  }

  /** The issues of a report that lists them yield their records in order,
      up to the first issue that raises. */
  lemma ParseMythrilPerIssue(data: Value, its: seq<Value>, repr: Repr)
    requires data.Dict? && GetOr(data.items, "issues", List([])) == List(its)
    ensures ParseMythril(data, repr) == Drain(its, it => IssueRecord(it, repr))
  {
  }

  /** An issue whose first location has a string `sourceMap` (the form
      Mythril writes, "offset:length:file-index") ends the parse with
      `AttributeError`, whatever its `filename`. */
  lemma StringSourceMapRaises(items: Record, loc: Record, rest: seq<Value>, sm: string, repr: Repr)
    requires GetOr(items, "locations", List([])) == List([Dict(loc)] + rest)
    requires GetOr(loc, "sourceMap", Null) == Str(sm) && sm != []
    ensures IssueRecord(Dict(items), repr) == Raise(AttributeError)
  {
    assert ([Dict(loc)] + rest)[0] == Dict(loc);
    assert LocationSpot(items, false) == Raise(AttributeError);
  }

  /** With the source map read as intended, a string source map names the
      file when the location has no `filename`, and reading never fails on
      the source map. */
  lemma StringSourceMapIsFile(items: Record, loc: Record, rest: seq<Value>, sm: string, repr: Repr)
    requires GetOr(items, "locations", List([])) == List([Dict(loc)] + rest)
    requires GetOr(loc, "sourceMap", Null) == Str(sm) && sm != []
    requires !Truthy(GetOr(loc, "filename", Null))
    requires IssueTitle(items).Str?
    ensures IssueRecordFixed(Dict(items), repr).Ok?
    ensures IssueRecordFixed(Dict(items), repr).value[4] == ("file", Str(sm))
  {
    StringSourceMapSpot(items, loc, rest, sm);
  }

  lemma StringSourceMapSpot(items: Record, loc: Record, rest: seq<Value>, sm: string)
    requires GetOr(items, "locations", List([])) == List([Dict(loc)] + rest)
    requires GetOr(loc, "sourceMap", Null) == Str(sm) && sm != []
    requires !Truthy(GetOr(loc, "filename", Null))
    ensures LocationSpot(items, true).Ok? && LocationSpot(items, true).value.file == Str(sm)
  {
    assert ([Dict(loc)] + rest)[0] == Dict(loc);
    assert IssueLocations(items) == Ok(List([Dict(loc)] + rest));
  }

  /** Wherever the first location reads without raising, the correction
      reads the same spot. */
  lemma LocationSpotFixedAgrees(items: Record)
    requires LocationSpot(items, false).Ok?
    ensures LocationSpot(items, true) == LocationSpot(items, false)
  {
    var locs := IssueLocations(items).value;
    if Truthy(locs) {
      var loc := Index(locs, 0).value.items;
      SourceMapFixedAgrees(GetOr(loc, "sourceMap", Null));
    }
  }

  /** The correction changes nothing where the code does not raise. */
  lemma FixedAgreesWhereDefined(issue: Value, repr: Repr)
    requires IssueRecord(issue, repr).Ok?
    ensures IssueRecordFixed(issue, repr) == IssueRecord(issue, repr)
  {
    LocationSpotFixedAgrees(issue.items);
  }

  /** The SWC id of a detector's record comes from its `check`: none when
      `check` is missing, "None" when it is `null`, the digits when it is
      "SWC-<digits>" or "<digits>". */
  lemma DetectorSwcId(items: Record, d: string, repr: Repr)
    requires DetectorRecord(Dict(items), repr).Ok?
    requires IsDigits(d)
    ensures var id := DetectorRecord(Dict(items), repr).value[0].1;
      && (!HasKey(items, "check") ==> id == Null)
      && (GetOr(items, "check", Str("")) == Null ==> id == Str("None"))
      && (GetOr(items, "check", Str("")) in {Str("SWC-" + d), Str(d)} ==> id == Str(d))
  {
    SwcIdOfMissingOrNull(repr);
    SwcIdOfNumber(d, repr);
  }

  /** The SWC id of an issue's record comes from its `swc-id` in the same
      way. */
  lemma IssueSwcId(issue: Record, d: string, repr: Repr)
    requires IssueRecord(Dict(issue), repr).Ok?
    requires IsDigits(d)
    ensures var id := IssueRecord(Dict(issue), repr).value[0].1;
      && (!HasKey(issue, "swc-id") ==> id == Null)
      && (GetOr(issue, "swc-id", Str("")) == Null ==> id == Str("None"))
      && (GetOr(issue, "swc-id", Str("")) in {Str("SWC-" + d), Str(d)} ==> id == Str(d))
  {
    SwcIdOfMissingOrNull(repr);
    SwcIdOfNumber(d, repr);
  }
}

=== FILE: std_rows.dfy ===
/**
 The older standardizer's table: one row per parsed record, its columns
 filled from the record, the run's settings and the knowledge base. The
 rows are built in one pass; the fallback finding ids and the knowledge-base
 remediation are filled in afterwards, column by column. The final pandas
 dtype conversion of the columns is not part of the model.
 */
module StdRows {
  import opened PyValue
  import opened PyText
  import opened PyNumber
  import opened Standardizer
  import StdParse

  /** One row of the table, before the column dtypes are converted. */
  datatype StdRow = StdRow(
    findingId: string,
    timestamp: string,
    network: string,
    contract: Value,
    file: Value,
    lineStart: Option<int>,
    lineEnd: Option<int>,
    swcId: Option<string>,
    title: string,
    severity: Option<string>,
    confidence: Option<Double>,
    status: string,
    remediation: Value,
    commitHash: string)

  /** The final column order. */
  const StdColumns: seq<string> := [
    "finding_id", "timestamp", "network", "contract", "file", "line_start", "line_end",
    "swc_id", "title", "severity", "confidence", "status", "remediation", "commit_hash"
  ]

  /** What a run is given besides the records: the network and contract
      arguments, the commit hash from the command line and the one `git`
      reports ("" when it cannot), the clock reading, and the decoded
      knowledge-base file (`None` when it cannot be read). */
  datatype Settings = Settings(
    network: Value,
    contract: Value,
    cliHash: Option<string>,
    gitHash: string,
    timestamp: string,
    kbData: Option<Value>)

  /** `get_commit_hash(cli_hash)`: a non-empty hash given on the command
      line wins over the repository's. */
  function CommitHash(cliHash: Option<string>, gitHash: string): (h: string)
    ensures cliHash.Some? && cliHash.value != [] ==> h == cliHash.value
    ensures cliHash.None? || cliHash.value == [] ==> h == gitHash
  {
    match cliHash
    case Some(c) => if c != [] then c else gitHash
    case None => gitHash
  }

  /** The record's SWC id: `str(swc_id)` with "SWC-" removed and trimmed,
      `None` when nothing is left. */
  function SwcIdOf(v: Value, repr: Repr): (r: Option<string>)
    ensures r.Some? ==> r.value != [] && r.value == KbKey(ToStr(v, repr))
    ensures r.None? <==> KbKey(ToStr(v, repr)) == []
  {
    var s := KbKey(ToStr(v, repr));
    if s != [] then Some(s) else None
  }

  /** The title used when the record has none. */
  function DefaultTitle(swcId: Option<string>): string {
    match swcId
    case Some(s) => "SWC-" + s + " finding"
    case None => "SWC finding"
  }

  /** The default title needs no trimming when the id does not. */
  lemma DefaultTitleTrimmed(swcId: Option<string>)
    ensures Strip(DefaultTitle(swcId)) == DefaultTitle(swcId)
  {
    var t := DefaultTitle(swcId);
    assert t[0] == 'S';
    assert t[|t| - 1] == 'g';
    StripNoop(t);
  }

  /** The record's title, else the default one, before trimming. */
  function RowTitle(items: Record, swcId: Option<string>): Value {
    Or(GetOr(items, "title", Null), Str(DefaultTitle(swcId)))
  }

  /** `str(network or "").lower()`. */
  function NetworkText(network: Value, repr: Repr): string {
    Lower(ToStr(Or(network, Str("")), repr))
  }

  /** The row built in the loop, before ids and remediation are filled in.
      A record that is not a dict, or whose title is truthy but not a
      string, raises `AttributeError`. */
  function BaseRow(r: Value, settings: Settings, repr: Repr): (row: Result<StdRow>)
    ensures !r.Dict? ==> row == Raise(AttributeError)
    ensures row.Raise? ==> row.exc == AttributeError
    ensures r.Dict? ==> (row.Ok? <==> RowTitle(r.items, SwcIdOf(GetOr(r.items, "swc_id", Str("")), repr)).Str?)
    ensures row.Ok? ==> row.value.findingId == [] && row.value.status == "unresolved" && row.value.remediation == Null
    ensures row.Ok? ==> row.value.timestamp == settings.timestamp
    ensures row.Ok? ==> row.value.commitHash == CommitHash(settings.cliHash, settings.gitHash)
    ensures row.Ok? ==> row.value.swcId == SwcIdOf(GetOr(r.items, "swc_id", Str("")), repr)
    ensures row.Ok? ==> row.value.severity == NormSeverity(GetOr(r.items, "severity", Null), repr)
    ensures row.Ok? ==> row.value.lineStart == CoerceInt(GetOr(r.items, "line_start", Null))
    ensures row.Ok? ==> row.value.lineEnd == CoerceInt(GetOr(r.items, "line_end", Null))
    ensures row.Ok? ==> row.value.title == Strip(RowTitle(r.items, row.value.swcId).s)
    ensures row.Ok? ==> row.value.network == NetworkText(settings.network, repr)
    ensures row.Ok? ==> row.value.file == Or(GetOr(r.items, "file", Null), Str(""))
    ensures row.Ok? ==> row.value.contract == Or(settings.contract, Str(""))
    ensures row.Ok? ==> row.value.confidence == CoerceFloat(GetOr(r.items, "confidence", Null))
  {
    var items :- AsDict(r);
    var swc := SwcIdOf(GetOr(items, "swc_id", Str("")), repr);
    var title :- StripMethod(RowTitle(items, swc));
    Ok(StdRow(
      "",
      settings.timestamp,
      NetworkText(settings.network, repr),
      Or(settings.contract, Str("")),
      Or(GetOr(items, "file", Null), Str("")),
      CoerceInt(GetOr(items, "line_start", Null)),
      CoerceInt(GetOr(items, "line_end", Null)),
      swc,
      title,
      NormSeverity(GetOr(items, "severity", Null), repr),
      CoerceFloat(GetOr(items, "confidence", Null)),
      "unresolved",
      Null,
      CommitHash(settings.cliHash, settings.gitHash)))
  }

  /** The title is the record's own, trimmed; only a falsy one is replaced,
      by "SWC-<id> finding" or, without an id, "SWC finding". */
  lemma TitleFallback(r: Record, settings: Settings, repr: Repr)
    requires BaseRow(Dict(r), settings, repr).Ok?
    ensures var row := BaseRow(Dict(r), settings, repr).value;
      var t := GetOr(r, "title", Null);
      && (Truthy(t) ==> row.title == Strip(t.s))
      && (!Truthy(t) ==> row.title == DefaultTitle(row.swcId))
  {
    var row := BaseRow(Dict(r), settings, repr).value;
    DefaultTitleTrimmed(row.swcId);
  }

  /** The network is the argument written out and lower-cased, so it is
      already lower-case; a falsy argument gives "". */
  lemma NetworkLowered(r: Value, settings: Settings, repr: Repr)
    requires BaseRow(r, settings, repr).Ok?
    ensures var row := BaseRow(r, settings, repr).value;
      && Lower(row.network) == row.network
      && (!Truthy(settings.network) ==> row.network == [])
      && (settings.network.Str? ==> row.network == Lower(settings.network.s))
  {
    NetworkTextLower(settings.network, repr);
  }

  lemma NetworkTextLower(network: Value, repr: Repr)
    ensures Lower(NetworkText(network, repr)) == NetworkText(network, repr)
    ensures !Truthy(network) ==> NetworkText(network, repr) == []
    ensures network.Str? ==> NetworkText(network, repr) == Lower(network.s)
  {
    LowerIdempotent(ToStr(Or(network, Str("")), repr));
    if !Truthy(network) {
      assert ToStr(Or(network, Str("")), repr) == [];
    }
  }

  /** Severity is `None` or one of the four canonical words, and the file
      and contract fall back to "". */
  lemma RowDefaults(r: Value, settings: Settings, repr: Repr)
    requires BaseRow(r, settings, repr).Ok?
    ensures var row := BaseRow(r, settings, repr).value;
      && (row.severity.Some? ==> row.severity.value in Canonical)
      && (!Truthy(GetOr(r.items, "file", Null)) ==> row.file == Str(""))
      && (!Truthy(settings.contract) ==> row.contract == Str(""))
  {
  }

  /** A record the parsers yield with no SWC id (`None`) gets the id
      "None", since `str(None)` is written out before "SWC-" is removed;
      a record without the key gets no id. */
  lemma ParsedNoneBecomesText(r: Record, settings: Settings, repr: Repr)
    requires BaseRow(Dict(r), settings, repr).Ok?
    ensures GetOr(r, "swc_id", Str("")) == Null ==> BaseRow(Dict(r), settings, repr).value.swcId == Some("None")
    ensures !HasKey(r, "swc_id") ==> BaseRow(Dict(r), settings, repr).value.swcId == None
  {
    StdParse.SwcIdOfMissingOrNull(repr);
  }

  /** "SWC-<digits>" and "<digits>" give the same id. */
  lemma SwcIdNormalized(d: string, repr: Repr)
    requires IsDigits(d)
    ensures SwcIdOf(Str("SWC-" + d), repr) == Some(d)
    ensures SwcIdOf(Str(d), repr) == Some(d)
  {
    StdParse.SwcIdOfNumber(d, repr);
  }

  /** The id a row's fallback finding id is built from: its SWC id, or "". */
  function IdText(swcId: Option<string>): string {
    match swcId
    case Some(s) => s
    case None => ""
  }

  /** The row with its fallback finding id: `fallback_finding_id` of its
      own contract, SWC id and first line. */
  function WithId(row: StdRow, repr: Repr): (out: StdRow)
    ensures out.findingId == FallbackFindingId(ToStr(row.contract, repr), IdText(row.swcId), row.lineStart)
    ensures out.(findingId := row.findingId) == row
  {
    row.(findingId := FallbackFindingId(ToStr(row.contract, repr), IdText(row.swcId), row.lineStart))
  }

  /** The finding-id column: every row's id is computed from the row alone,
      so it depends on nothing else in the table. */
  function FallbackIds(rows: seq<StdRow>, repr: Repr): (out: seq<StdRow>)
    ensures |out| == |rows|
    ensures forall i :: 0 <= i < |rows| ==> out[i] == WithId(rows[i], repr)
  {
    seq(|rows|, i requires 0 <= i < |rows| => WithId(rows[i], repr))
  }

  /** Two rows of the same contract and SWC id get the same fallback id
      exactly when their first lines agree, a missing line counting as 0. */
  lemma FallbackIdsSeparateLines(rows: seq<StdRow>, repr: Repr, i: int, j: int)
    requires 0 <= i < |rows| && 0 <= j < |rows|
    requires rows[i].contract == rows[j].contract && rows[i].swcId == rows[j].swcId
    ensures var out := FallbackIds(rows, repr);
      var a := rows[i].lineStart;
      var b := rows[j].lineStart;
      out[i].findingId == out[j].findingId <==>
        (if a.Some? then a.value else 0) == (if b.Some? then b.value else 0)
  {
    FallbackFindingIdLine(ToStr(rows[i].contract, repr), IdText(rows[i].swcId), rows[i].lineStart, rows[j].lineStart);
  }

  /** The remediation column: `kb_text` of the row's SWC id; an entry that
      is not a dict raises. */
  function WithRemediation(row: StdRow, kb: Record): (r: Result<StdRow>)
    ensures r.Ok? <==> KbText(kb, row.swcId).Ok?
    ensures r.Ok? ==> r.value.remediation == KbText(kb, row.swcId).value
    ensures r.Ok? ==> r.value.(remediation := row.remediation) == row
  {
    var text :- KbText(kb, row.swcId);
    Ok(row.(remediation := text))
  }

  /** A row once the id and remediation columns are filled in. */
  function Finished(base: StdRow, kb: Record, repr: Repr): Result<StdRow> {
    WithRemediation(WithId(base, repr), kb)
  }

  function BuildRows(records: seq<Record>, settings: Settings, repr: Repr): Result<seq<StdRow>> {
    MapIndexed(records, (rec, i) => BaseRow(Dict(rec), settings, repr))
  }

  function FinishRows(rows: seq<StdRow>, kb: Record, repr: Repr): Result<seq<StdRow>> {
    MapIndexed(FallbackIds(rows, repr), (row, i) => WithRemediation(row, kb))
  }

  /** `to_standard_df` up to the dtype conversion: the rows of the records
      the parser yields, in order; an exception from building a row, or
      the one that ended the parser, ends the run before the id and
      remediation columns are filled in. */
  function ToStandardRows(records: StdParse.Yielded, settings: Settings, repr: Repr): (r: Result<seq<StdRow>>)
    ensures r.Ok? ==> records.stop.None? && BuildRows(records.records, settings, repr).Ok?
    ensures r.Ok? ==> |r.value| == |records.records|
  {
    var rows :- BuildRows(records.records, settings, repr);
    if records.stop.Some? then Raise(records.stop.value)
    else FinishRows(rows, LoadKb(settings.kbData), repr)
  }

  /** Row `i` of the table is the `i`-th record's row, finished. */
  lemma ToStandardRowsAt(records: StdParse.Yielded, settings: Settings, repr: Repr, i: int)
    requires ToStandardRows(records, settings, repr).Ok?
    requires 0 <= i < |records.records|
    ensures BaseRow(Dict(records.records[i]), settings, repr).Ok?
    ensures Finished(BaseRow(Dict(records.records[i]), settings, repr).value, LoadKb(settings.kbData), repr)
         == Ok(ToStandardRows(records, settings, repr).value[i])
  {
    var rows := BuildRows(records.records, settings, repr).value;
    var kb := LoadKb(settings.kbData);
    BuildRowsAt(records.records, settings, repr, i);
    FinishRowsAt(rows, kb, repr, i);
  }

  lemma BuildRowsAt(records: seq<Record>, settings: Settings, repr: Repr, i: int)
    requires BuildRows(records, settings, repr).Ok?
    requires 0 <= i < |records|
    ensures BaseRow(Dict(records[i]), settings, repr) == Ok(BuildRows(records, settings, repr).value[i])
  {
  }

  lemma FinishRowsAt(rows: seq<StdRow>, kb: Record, repr: Repr, i: int)
    requires 0 <= i < |rows|
    ensures FinishRows(rows, kb, repr).Ok? ==> Finished(rows[i], kb, repr) == Ok(FinishRows(rows, kb, repr).value[i])
    ensures Finished(rows[i], kb, repr).Raise? ==> FinishRows(rows, kb, repr).Raise?
  {
  }

  /** Once the records build, the run fails exactly when the parser
      stopped on an exception or some row's knowledge-base entry is not a
      dict. */
  lemma ToStandardRowsFails(records: StdParse.Yielded, settings: Settings, repr: Repr)
    requires BuildRows(records.records, settings, repr).Ok?
    ensures var rows := BuildRows(records.records, settings, repr).value;
      var kb := LoadKb(settings.kbData);
      ToStandardRows(records, settings, repr).Raise? <==>
        records.stop.Some? || exists i :: 0 <= i < |rows| && KbText(kb, rows[i].swcId).Raise?
  {
    var rows := BuildRows(records.records, settings, repr).value;
    var kb := LoadKb(settings.kbData);
    FinishRowsFails(rows, kb, repr);
    if records.stop.None? {
      assert ToStandardRows(records, settings, repr) == FinishRows(rows, kb, repr);
    }
  }

  /** Filling in the id and remediation columns fails exactly when some
      row's knowledge-base entry is not a dict. */
  lemma FinishRowsFails(rows: seq<StdRow>, kb: Record, repr: Repr)
    ensures FinishRows(rows, kb, repr).Raise? <==> exists i :: 0 <= i < |rows| && KbText(kb, rows[i].swcId).Raise?
  {
    if i :| 0 <= i < |rows| && KbText(kb, rows[i].swcId).Raise? {
      FinishRowsAt(rows, kb, repr, i);
    } else {
      forall i | 0 <= i < |rows|
        ensures WithRemediation(FallbackIds(rows, repr)[i], kb).Ok?
      {
        assert FallbackIds(rows, repr)[i].swcId == rows[i].swcId;
      }
    }
  }

  /** A record whose SWC id has a knowledge-base entry, keyed "SWC-<id>" or
      "<id>", gets that entry's remediation, else its explanation. */
  lemma RemediationFromKb(d: string, entry: Record, repr: Repr)
    requires IsDigits(d)
    ensures var kb := LoadKb(Some(Dict([("SWC-" + d, Dict(entry))])));
      var rem := GetOr(entry, "remediation", Null);
      var expl := GetOr(entry, "explanation", Null);
      && KbText(kb, SwcIdOf(Str("SWC-" + d), repr)) == Ok(Or(Or(rem, expl), Null))
      && KbText(kb, SwcIdOf(Str(d), repr)) == Ok(Or(Or(rem, expl), Null))
  {
    SwcIdNormalized(d, repr);
    KbPrefixedAndBareMeet(d, Dict(entry), Dict(entry));
    DigitsHaveNoPrefix(d);
    KbTextChoice(LoadKb(Some(Dict([("SWC-" + d, Dict(entry))]))), d, entry);
  }

  // ---------------------------------------------------------------------
  // The fallback id as the table computes it

  /** Whether pandas stores the `line_start` column as float64: it does
      when missing lines sit beside present ones, `None` then becoming NaN.
      Lines outside the 64-bit range keep the column of Python objects. */
  predicate FloatColumn(lines: seq<Option<int>>) {
    && (exists i :: 0 <= i < |lines| && lines[i].None?)
    && (exists i :: 0 <= i < |lines| && lines[i].Some?)
    && (forall i :: 0 <= i < |lines| && lines[i].Some? ==> -0x8000_0000_0000_0000 <= lines[i].value < 0x8000_0000_0000_0000)
  }

  /** `f"{line_start or 0}"` for a cell of the column: NaN is truthy and
      reads "nan"; 0.0 is falsy and gives 0; any other line is stored as
      the nearest binary64 value. Within 2^53 of zero that is the line
      itself, written with its fraction, "42.0"; beyond, the rounded value
      is written by `repr`. */
  function LineTextAsWritten(floatColumn: bool, line: Option<int>, repr: Repr): (t: string)
    ensures !floatColumn ==> t == IntToString(if line.Some? then line.value else 0)
    ensures floatColumn && line.None? ==> t == "nan"
    ensures floatColumn && line == Some(0) ==> t == "0"
    ensures floatColumn && line.Some? && line.value != 0 && -(TwoTo53 as int) <= line.value <= TwoTo53 ==>
      t == IntToString(line.value) + ".0"
    ensures floatColumn && line.Some? && !(-(TwoTo53 as int) <= line.value <= TwoTo53) ==>
      var stored := RoundToDouble(line.value as real);
      stored.Finite? ==> t == repr(Float(stored.r))
  {
    if !floatColumn then IntToString(if line.Some? then line.value else 0)
    else match line
      case None => "nan"
      case Some(n) =>
        if n == 0 then IntToString(0)
        else if -(TwoTo53 as int) <= n <= TwoTo53 then IntToString(n) + ".0"
        else match RoundToDouble(n as real)
          case Finite(x) => repr(Float(x))
          // Beyond binary64's range; a float column never holds such a line.
          case _ => repr(Float(n as real))
  }

  /** In a float column the line 2^53 + 1 is stored, and written, as 2^53. */
  lemma LineTextRoundsAbove2To53(repr: Repr)
    ensures LineTextAsWritten(true, Some(TwoTo53 + 1), repr) == repr(Float(TwoTo53 as real))
  {
    RoundLosesPrecisionAbove2To53();
  }

  /** The finding ids as the table computes them: the rendering of each
      line depends on whether the whole column is float. */
  function FallbackIdsAsWritten(rows: seq<StdRow>, repr: Repr): (out: seq<StdRow>)
    ensures |out| == |rows|
    ensures forall i :: 0 <= i < |rows| ==> out[i] == rows[i].(findingId := ToStr(rows[i].contract, repr) + "::" + IdText(rows[i].swcId) + "::"
      + LineTextAsWritten(FloatColumn(LineStarts(rows)), rows[i].lineStart, repr))
    ensures forall i :: 0 <= i < |rows| ==> out[i].(findingId := rows[i].findingId) == rows[i]
    ensures !FloatColumn(LineStarts(rows)) ==> out == FallbackIds(rows, repr)
    ensures FloatColumn(LineStarts(rows)) ==> forall i :: 0 <= i < |rows| && rows[i].lineStart.None? ==>
      |out[i].findingId| >= 5 && out[i].findingId[|out[i].findingId| - 5..] == "::nan"
  {
    var fc := FloatColumn(LineStarts(rows));
    seq(|rows|, i requires 0 <= i < |rows| =>
      rows[i].(findingId := ToStr(rows[i].contract, repr) + "::" + IdText(rows[i].swcId) + "::"
                            + LineTextAsWritten(fc, rows[i].lineStart, repr)))
  }

  function LineStarts(rows: seq<StdRow>): (ls: seq<Option<int>>)
    ensures |ls| == |rows| && forall i :: 0 <= i < |rows| ==> ls[i] == rows[i].lineStart
  {
    seq(|rows|, i requires 0 <= i < |rows| => rows[i].lineStart)
  }

  /** Where no line is missing, or every line is, the table's ids are the
      ones `fallback_finding_id` describes. */
  lemma AsWrittenAgreesWithoutMixing(rows: seq<StdRow>, repr: Repr)
    requires !FloatColumn(LineStarts(rows))
    ensures FallbackIdsAsWritten(rows, repr) == FallbackIds(rows, repr)
  {
  }

  /** The table's id of a finding depends on the other rows: a finding on
      line `n` (not 0) alone in the table gets "c::id::n", but beside a
      finding with no line it gets "c::id::n.0", and the finding with no
      line gets "c::id::nan" where `fallback_finding_id` gives "c::id::0". */
  lemma AsWrittenIdDependsOnOtherRows(row: StdRow, other: StdRow, n: int, repr: Repr)
    requires row.lineStart == Some(n) && n != 0 && -(TwoTo53 as int) <= n <= TwoTo53
    requires other.lineStart.None?
    ensures FallbackIdsAsWritten([row], repr)[0].findingId == FallbackIds([row], repr)[0].findingId
    ensures FallbackIdsAsWritten([row, other], repr)[0].findingId != FallbackIds([row, other], repr)[0].findingId
    ensures FallbackIdsAsWritten([row, other], repr)[1].findingId != FallbackIds([row, other], repr)[1].findingId
  {
    var rows := [row, other];
    assert LineStarts(rows)[1].None? && LineStarts(rows)[0].Some?;
    assert FloatColumn(LineStarts(rows));
    assert !FloatColumn(LineStarts([row]));
    var prefix := ToStr(row.contract, repr) + "::" + IdText(row.swcId) + "::";
    assert FallbackIdsAsWritten(rows, repr)[0].findingId == prefix + IntToString(n) + ".0";
    assert FallbackIds(rows, repr)[0].findingId == prefix + IntToString(n);
    assert |prefix + IntToString(n) + ".0"| != |prefix + IntToString(n)|;
    var prefix1 := ToStr(other.contract, repr) + "::" + IdText(other.swcId) + "::";
    assert FallbackIdsAsWritten(rows, repr)[1].findingId == prefix1 + "nan";
    assert FallbackIds(rows, repr)[1].findingId == prefix1 + IntToString(0);
    assert IntToString(0) == "0";
    assert |prefix1 + "nan"| != |prefix1 + "0"|;
  }

}

=== FILE: swc_registry.dfy ===
/**
 The SWC registry cache: a table from SWC identifiers ("SWC-107") to the
 weakness's metadata, and the lookup the normalizer enriches findings with.
 */
module SwcRegistry {
  import opened PyValue
  import opened PyText

  /** A registry: SWC identifier to its metadata dict. */
  type Registry = map<string, Record>

  /** A metadata dict with a title and a severity. */
  function Meta(title: string, severity: string): Record {
    [("title", Str(title)), ("severity", Str(severity))]
  }

  /** The registry shipped with the converter. */
  const SwcRegistryMini: Registry := map[
    "SWC-101" := Meta("Integer Overflow and Underflow", "high"),
    "SWC-107" := Meta("Reentrancy", "high"),
    "SWC-100" := Meta("Function Default Visibility", "medium")
  ]

  /** `get_swc_meta(swc_id)`: nothing for an empty id, otherwise the entry
      stored under exactly that id, if any. */
  function GetSwcMeta(registry: Registry, swcId: string): (r: Option<Record>)
    ensures swcId == [] ==> r == None
    ensures r.Some? <==> swcId != [] && swcId in registry
    ensures r.Some? ==> r.value == registry[swcId]
  {
    if swcId == [] then None
    else if swcId in registry then Some(registry[swcId])
    else None
  }

  /** Every entry of the shipped table has a non-empty title and a severity
      of "high" or "medium", and no remediation. */
  lemma MiniEntriesWellFormed(id: string)
    requires id in SwcRegistryMini
    ensures var meta := SwcRegistryMini[id];
      && meta != []
      && Lookup(meta, "title").Some? && Lookup(meta, "title").value.Str?
      && Lookup(meta, "title").value.s != []
      && Lookup(meta, "severity") in {Some(Str("high")), Some(Str("medium"))}
      && Lookup(meta, "remediation") == None
  {
  }

  lemma LookupReentrancy()
    ensures GetSwcMeta(SwcRegistryMini, "SWC-107") == Some(Meta("Reentrancy", "high"))
  {
  }

  /** Every key of the shipped table starts with "SWC-". */
  lemma MiniKeysPrefixed(id: string)
    requires id in SwcRegistryMini
    ensures StartsWith(id, "SWC-")
  {
  }

  /** An id that does not start with "SWC-", such as "107", finds nothing in
      the shipped table. */
  lemma UnprefixedMisses(id: string)
    requires !StartsWith(id, "SWC-")
    ensures GetSwcMeta(SwcRegistryMini, id) == None
  {
    if id in SwcRegistryMini {
      MiniKeysPrefixed(id);
    }
  }
}
